=== FILE: README.md ===
# File upload and analysis system — a Dafny model of its core

The system is a NestJS back end and a Next.js front end. Users register and
log in, then upload PDF, image, CSV and spreadsheet files. Each upload is
queued, saved as a `documents` row in state PENDING, and passed to one text
extractor chosen by MIME type. The row is then marked COMPLETED with the
extracted text. Owners and admins manage other users' roles and accounts
under a fixed permission policy. The admin controller also has a clear-all
handler that wipes the database. But `DELETE /admin/:id` is declared before
`DELETE /admin/clear-all`, so a request for `clear-all` reaches `deleteUser`
with the id `+"clear-all"` (NaN) instead. This follows from the declaration
order; the handler is modelled as written.

The model covers the following parts.

- **Document lifecycle.** `DocumentEntity`, `FileService`, `FileUtils` and
  `FileUploadProcessor` model the `documents` table and `uploadFiles`,
  `saveFile`, `saveExtractedData`, `getFiles` and `getFileDetails`. They also
  model the extraction helpers' joining of lines and the upload job handler.
- **Users and permissions.** `UserEntity`, `Database`, `Permissions`,
  `UserService`, `AdminService` and `AdminController` cover the following:
  - the `users` table with its unique columns;
  - the foreign key from documents to users;
  - role updates, user and document deletion, profiles, the user listing and
    the clear-all operation, each with its ordered error cases.
- **Registration and login.** `Dto`, `AuthService`, `AuthController` and
  `JwtGuard` cover the request shapes and the validation pipe's rules,
  `register`, `validateUser`, `login`, and the bearer-token guard that turns
  a header into `request.user`.
- **Validators and configuration.** `FileValidation` is the size/type
  middleware. `MulterConfig` is the stored-file naming rule. `AppConfig` holds
  the configuration getters. `JsNumbers` is JavaScript's reading of decimal
  digits as a double, which the port getters go through. It rounds the way
  IEEE 754 hardware does: shift out the bits below the ulp, then round up by
  the guard bit and the sticky bit.
- **Front-end pages.** `UploadPage`, `EditUsersPage`, `FilesPage` and
  `ProfilePage` model each page's pure logic: the file filter, the list
  updates, which action buttons are shown, search filters and the icon
  classifier.

`Wrappers`, `Strings`, `Seqs`, `Errors` and `MimeTypes` are support modules.

- Each table is a sequence of rows in insertion order, plus the AUTOINCREMENT
  counter that supplies the next id.
- Every failure the source raises is an `Errors.HttpError`, with the source's
  message. This includes a `TypeError` from reading a property of a missing
  row, which is modelled as `InternalError` with the engine's message.
- The libraries the code calls are function-valued parameters: pdf-parse,
  csv-parser, xlsx, OCR, bcrypt, JWT signing and verification,
  `JSON.stringify` and `IsEmail`. The clock is a parameter too.

## Model

| member | source | states |
|---|---|---|
| DocumentEntity.StatusValueRoundTrip | backend/src/models/document.entity.ts:10-15 | The status column holds exactly four values, and each parses back to its own status. |
| DocumentEntity.ParseStatus | backend/src/models/document.entity.ts:10-15 | A parsed status value is one whose column text is the input. |
| DocumentEntity.Create | backend/src/models/document.entity.ts:31-38 | A new row starts PENDING with no extracted data. |
| DocumentEntity.InsertFindById | backend/src/models/document.entity.ts:19-20 | In a valid table the saved row is found by the id it was given, which no earlier row held. Every other id finds the same row as before. |
| DocumentEntity.FindById | backend/src/models/document.entity.ts:19-20 | The lookup returns a row that has the id, and it returns none exactly when no row has it. |
| DocumentEntity.FindByIdOfRow | backend/src/models/document.entity.ts:19-20 | In a valid table, every row is found by its own id, because ids are unique. |
| DocumentEntity.Remove | backend/src/models/document.entity.ts:19-20 | After a delete by id, no remaining row has that id and the counter is kept. |
| DocumentEntity.RemoveExactly | backend/src/models/document.entity.ts:19-20 | A delete removes exactly the rows with the id, and every other row stays. |
| DocumentEntity.ClearNeverReusesIds | backend/src/models/document.entity.ts:17-20 | After a clear no id finds a row. The counter is kept, so the next row's id is above every cleared id and ids are never reused. |
| DocumentEntity.InsertValid | backend/src/models/document.entity.ts:19-20 | Inserting keeps ids positive, unique, increasing and below the counter. |
| DocumentEntity.RemoveValid | backend/src/models/document.entity.ts:19-20 | Deleting keeps ids unique and increasing. |
| FileService.UploadFiles | backend/src/files/files.service.ts:16-21 | One `upload-file` job is queued per file, in input order, each carrying that file and the same user id. Earlier jobs are untouched. |
| FileService.SaveFileThenDetails | backend/src/files/files.service.ts:25-36 | `getFileDetails` of the new id returns the saved row: the upload's name, MIME type, `uploads/` path, PENDING, no data and the caller as owner. The id was free before, every other id's details are unchanged, and the table stays valid. |
| FileService.StoredPathCollision | backend/src/files/files.service.ts:26 | Without stored names, two uploads get the same path exactly when their original names agree. |
| FileService.SaveExtractedData | backend/src/files/files.service.ts:41-60 | With no row matching (path, user), the call throws the "File with name … not found for user …" error and nothing changes. Otherwise the first matching row gets the data and COMPLETED. |
| FileService.SaveExtractedDataCompletes | backend/src/files/files.service.ts:47-59 | After a successful record, the table holds a COMPLETED row with the path and owner that were looked for. |
| FileService.SaveExtractedDataFrame | backend/src/files/files.service.ts:57-59 | Recording a result changes only `extractedData` and `status` of one row. Every other field and row stays. |
| FileService.SaveExtractedDataValid | backend/src/files/files.service.ts:57-59 | Recording a result keeps ids unique. |
| FileService.GetFiles | backend/src/files/files.service.ts:65-75 | The page holds the rows from offset (page-1)*limit in table order, at most `limit` of them, and is short only at the table's end. The total counts every row, whatever the page. |
| FileService.PagesTile | backend/src/files/files.service.ts:69-72 | Pages 1..n together are the table's first n*limit rows in order: paging neither skips nor repeats a row. |
| FileService.GetFileDetails | backend/src/files/files.service.ts:77-84 | Returns a row with the id, and nothing exactly when no row has it. |
| FileUtils.ParseCsv | backend/src/files/file-utils.ts:20-31 | `parseCSV` rejects exactly on a csv-parser error. A read-stream error (a missing or unreadable file) has no listener: it escapes as an uncaught exception and the promise never settles. Either way the stream's message is kept. |
| FileUtils.ParseCsvLines | backend/src/files/file-utils.ts:24-28 | The resolved text splits on newlines into exactly the serialised records, in order. It has n-1 newlines for n records and no trailing newline. |
| FileUtils.ParseCsvEdges | backend/src/files/file-utils.ts:25-29 | A stream with no records gives "". A csv-parser error rejects with its message, and a read error escapes uncaught. No partial text is delivered. |
| FileUtils.ParseExcel | backend/src/files/file-utils.ts:34-49 | `parseExcel` fails exactly when the workbook cannot be read. |
| FileUtils.ParseExcelLines | backend/src/files/file-utils.ts:39-48 | The text splits into one line per sheet, in SheetNames order, with n-1 newlines. |
| FileUtils.ParseExcelNoSheets | backend/src/files/file-utils.ts:48 | A workbook with no sheets gives "". |
| FileUtils.ReadOnlyResolvedPath | backend/src/files/file-utils.ts:7-35 | All three helpers read only the file at `BASE_PATH` joined with the path: libraries that agree there give the same results. `extractPDFText` passes the parser's text or rejection through unchanged. |
| FileUploadProcessor.SelectExtractor | backend/src/queue/file-upload.processor/file-upload.processor.ts:45-56 | An `image/` type always goes to OCR. Only types other than PDF, CSV and OOXML select no extractor. |
| FileUploadProcessor.Extract | backend/src/queue/file-upload.processor/file-upload.processor.ts:45-56 | Only the CSV helper can let an exception escape. An unsupported type yields "". OCR reads the upload itself, not the saved file. A tabular success is `JSON.stringify` of the helper's text. |
| FileUploadProcessor.HandleFileUpload | backend/src/queue/file-upload.processor/file-upload.processor.ts:32-65 | Every job adds one row under the next id. A crash leaves that row PENDING as saved. When the handler resolves, the first row with the job's path and owner is COMPLETED; the handler itself resolves with nothing. |
| FileUploadProcessor.DispatchTable | backend/src/queue/file-upload.processor/file-upload.processor.ts:45-56 | Each extractor is chosen exactly under its own condition: PDF, then `image/`, then CSV, then OOXML. Anything else selects none. |
| FileUploadProcessor.LegacyExcelNotExtracted | backend/src/queue/file-upload.processor/file-upload.processor.ts:51-56 | `application/vnd.ms-excel` selects no extractor. |
| FileUploadProcessor.StepsOrder | backend/src/queue/file-upload.processor/file-upload.processor.ts:39-56 | The first step always saves the PENDING row. At most one extractor runs, it is the selected one, and it runs after the save. |
| FileUploadProcessor.FailsIffExtractionFails | backend/src/queue/file-upload.processor/file-upload.processor.ts:39-64 | A job fails exactly when its extractor rejects, and crashes exactly when its extractor lets an exception escape. The lookup after extraction always finds a row. |
| FileUploadProcessor.ExtractionFailureLeavesPending | backend/src/queue/file-upload.processor/file-upload.processor.ts:59-64 | On a rejection or an escaping exception, the result is never saved and the new row stays PENDING with no data. A rejection is rethrown as the job's error; an escape is the crash. |
| FileUploadProcessor.SuccessCompletesNewRow | backend/src/queue/file-upload.processor/file-upload.processor.ts:39-59 | On success, the new row becomes COMPLETED with the extracted text, and earlier rows are untouched. |
| FileUploadProcessor.UnsupportedCompletesEmpty | backend/src/queue/file-upload.processor/file-upload.processor.ts:42-59 | A type no branch handles still completes, with "" as its data. |
| FileUploadProcessor.TabularDoubleEncoded | backend/src/queue/file-upload.processor/file-upload.processor.ts:49-55 | CSV and OOXML results are stored as `JSON.stringify` of the helper's already-serialised text. A helper rejection is rethrown, and a CSV read error crashes the job. |
| FileUploadProcessor.DuplicatePathUpdatesEarlierRow | backend/src/queue/file-upload.processor/file-upload.processor.ts:59 | When an earlier row of the same user has the same path, that row receives the result and the new row stays PENDING. |
| FileUploadProcessor.HandlePreservesInvariants | backend/src/queue/file-upload.processor/file-upload.processor.ts:32-65 | A job adds exactly one row, keeps ids unique, and never writes PROCESSING or FAILED. |
| FileUploadProcessor.ProcessQueue | backend/src/queue/file-upload.processor/file-upload.processor.ts:32-65 | The first job's outcome is what handling it alone gives. If it crashes, the queue stops there with no outcomes. Otherwise there is one outcome per job, unless a crash ends the run early. |
| FileUploadProcessor.ProcessQueueOutcomes | backend/src/queue/file-upload.processor/file-upload.processor.ts:32-65 | Outcome i is a failure exactly when job i's extractor rejects. The queue crashes exactly when some job's extractor lets an exception escape, and it crashes at the first such job with that job's error. |
| FileUploadProcessor.ProcessQueueInvariants | backend/src/queue/file-upload.processor/file-upload.processor.ts:32-65 | Each job that starts adds one row under the next id, and ids stay unique. Only PENDING and COMPLETED appear, however many jobs fail and whether or not the run crashes. |
| UserEntity.RoleNameRoundTrip | backend/src/models/user.entity.ts:18-19 | Role names and roles are in one-to-one correspondence. |
| UserEntity.ParseRole | backend/src/models/user.entity.ts:18-19 | A parsed role is one whose name is the input. |
| UserEntity.FindById | backend/src/user/user.service.ts:127-129 | Returns a user with the id, and nothing exactly when none has it. |
| UserEntity.FindByIdOfRow | backend/src/models/user.entity.ts:6-7 | In a valid table, every row is found by its own id. |
| UserEntity.CheckUnique | backend/src/models/user.entity.ts:9-13 | A violation is reported exactly when another row has the username or the email. |
| UserEntity.Insert | backend/src/models/user.entity.ts:6-13 | An insert fails on a taken username or email. Otherwise the row is appended under the next id. |
| UserEntity.Save | backend/src/models/user.entity.ts:9-13 | An update fails exactly when another row holds the new username or email. Otherwise it rewrites that row in place. |
| UserEntity.Remove | backend/src/models/user.entity.ts:6-7 | After a delete by id, no remaining row has that id and the counter is kept. |
| UserEntity.ClearNeverReusesIds | backend/src/models/user.entity.ts:4 | After a clear no id finds a user, any new user is accepted, and it gets an id above every cleared one. |
| UserEntity.InsertValid | backend/src/models/user.entity.ts:9-13 | Inserting keeps ids unique and keeps usernames and emails unique. |
| UserEntity.SaveValid | backend/src/models/user.entity.ts:9-13 | A successful update keeps usernames and emails unique. |
| UserEntity.SaveKeepingNamesSucceeds | backend/src/models/user.entity.ts:9-13 | Updating a row without changing its username or email never violates uniqueness. |
| UserEntity.IdsUnique | backend/src/models/user.entity.ts:6-7 | Two rows with one id are the same row. |
| UserEntity.RemoveExactly | backend/src/models/user.entity.ts:6-7 | A delete removes exactly the rows with the id. |
| UserEntity.RemoveValid | backend/src/models/user.entity.ts:9-13 | Deleting keeps every uniqueness invariant. |
| UserEntity.RemoveOne | backend/src/models/user.entity.ts:6-7 | In a valid table, deleting a present id removes exactly one row. |
| Database.DeleteUserRow | backend/src/models/document.entity.ts:43-48 | Deleting a user fails exactly when the user still owns documents, and the error is SQLite's FOREIGN KEY failure. An accepted delete leaves the documents and the counter as they were and no user with the id. |
| Database.DeleteUserRowKeepsOthers | backend/src/models/document.entity.ts:43-48 | An accepted user delete keeps every other user: a row survives exactly when it was present and has another id. |
| Database.DeleteUserRowValid | backend/src/models/document.entity.ts:43-48 | An accepted user delete leaves no document without its user. |
| Database.DeleteDocumentRowValid | backend/src/models/document.entity.ts:43-48 | Deleting a document keeps both tables and the foreign key consistent. |
| UserService.UpdateRole | backend/src/user/user.service.ts:50-80 | A missing target is NotFound before any permission check. A success satisfies the role policy and changes the target's role. |
| UserService.UpdateRoleDecision | backend/src/user/user.service.ts:62-79 | With both users present, the update succeeds exactly when the requester is owner, or is an admin acting on a non-owner and assigning a non-owner role. Every refusal is Forbidden. |
| UserService.UpdateRoleFrame | backend/src/user/user.service.ts:78-79 | An accepted update rewrites only the target's role. Every other row and field stays, and the table stays valid. |
| UserService.DeleteUser | backend/src/user/user.service.ts:82-105 | A missing target is NotFound first. A delete succeeds exactly when the requester exists, the policy allows it, and the target owns no documents. Success removes only the target. |
| UserService.OwnerNeverDeleted | backend/src/user/user.service.ts:88-102 | An owner is never deleted, whoever asks. |
| UserService.DeleteUserExactly | backend/src/user/user.service.ts:104 | An accepted delete removes exactly the target's row and leaves the documents and every other user alone. |
| UserService.DeleteDocument | backend/src/user/user.service.ts:107-125 | A missing document is NotFound. A delete succeeds exactly when the requester is present and either owns the document or is an owner. |
| UserService.DeleteOwnDocument | backend/src/user/user.service.ts:116-124 | In a consistent database, the document's own user may always delete it. |
| UserService.GetProfile | backend/src/user/user.service.ts:21-38 | Null for an unknown id. Otherwise the profile holds the user's public fields, without the password. |
| UserService.GetProfileDocuments | backend/src/user/user.service.ts:24-27 | A profile lists exactly the user's documents, in table order. |
| UserService.ApplyProfileComposes | backend/src/user/user.service.ts:43-47 | Assigning edits behaves as `Object.assign` does. Two edits in a row equal the merged edit, where the later field wins. Repeating an edit changes nothing more, an empty edit changes nothing, and no field outside the three is touched. |
| UserService.UpdateProfile | backend/src/user/user.service.ts:40-48 | An unknown user is NotFound. Otherwise the saved row is the user with the edit applied. |
| UserService.UpdateProfileOutcome | backend/src/user/user.service.ts:40-48 | For a present user, the edit fails exactly when its username belongs to someone else. A successful edit keeps the table valid. |
| UserService.EmptyProfileEditChangesNothing | backend/src/user/user.service.ts:43-47 | An edit that carries no field leaves the table unchanged. |
| AdminService.UpdateRole | backend/src/admin/admin.service.ts:20-50 | A missing target is NotFound first. A success satisfies the role policy. |
| AdminService.UpdateRoleAgrees | backend/src/admin/admin.service.ts:30-49 | The admin and user services accept and reject the same role updates, with the same errors and effects. |
| AdminService.DeleteUser | backend/src/admin/admin.service.ts:52-75 | A missing target is NotFound first. A success satisfies the delete policy. |
| AdminService.DeleteUserAgrees | backend/src/admin/admin.service.ts:58-72 | The two delete-user implementations agree on every input. |
| AdminService.DeleteDocument | backend/src/admin/admin.service.ts:77-95 | A missing document is NotFound. A success means the requester is the document's user or an owner. |
| AdminService.DeleteDocumentAgrees | backend/src/admin/admin.service.ts:86-94 | The two delete-document implementations agree on every input. |
| AdminService.GetAllUsersListsEveryone | backend/src/admin/admin.service.ts:102-112 | In a valid table every user appears exactly once: one entry is their summary, and any entry with their id is that summary. |
| AdminService.ClearAllData | backend/src/admin/admin.service.ts:114-131 | The clear fails exactly when a step throws, with the message prefixed `Failed to clear database: `. The id counters are never reset. |
| AdminService.ClearAllDataEffect | backend/src/admin/admin.service.ts:118-119 | A clear that completes empties both tables. Whatever step fails, the database stays consistent. |
| AdminService.NoOwnerAfterClear | backend/src/admin/admin.service.ts:122-127 | Because the counters survive a clear, the next registrant does not get id 1 and is not made owner. |
| AdminController.UpdateRole | backend/src/admin/admin.controller.ts:22-39 | A body whose role is not teammember, admin or owner is refused with Bad Request by the validation pipe, and nothing changes. Otherwise the handler succeeds exactly when the service does for that role, acting as the guard's `req.user.id`, and answers status `success`. A failure changes nothing. |
| AdminController.NoRequestSetsNormal | backend/src/auth/dto/dto.ts:51-55 | No request through the route sets a role to `normal`. A successful update returns the user with exactly the role the body named. |
| AdminController.DeleteUser | backend/src/admin/admin.controller.ts:41-51 | Succeeds exactly when the service delete does. The answer is "User deleted successfully" with status `success`. |
| AdminController.DeleteDocument | backend/src/admin/admin.controller.ts:53-62 | Succeeds exactly when the service delete does. The answer is "Document deleted successfully" with status `success`. |
| AdminController.ClearAll | backend/src/admin/admin.controller.ts:64-85 | A present requester whose id is not 1 and who is not an owner is Forbidden. A success answers status `success`. |
| AdminController.ClearAllAllowed | backend/src/admin/admin.controller.ts:72-77 | A present owner, or user 1, clears both tables. |
| AdminController.GetAllUsers | backend/src/admin/admin.controller.ts:87-109 | An unknown requester is Unauthorized. The listing is returned exactly to admins and owners. Nothing changes. |
| AdminController.DemotedFirstUser | backend/src/admin/admin.controller.ts:72-77 | User 1 passes the clear gate even as a teammember, although the listing is refused to them. |
| Dto.AcceptedRole | backend/src/auth/dto/dto.ts:51-55 | A role update is admitted exactly when its name is teammember, admin or owner, and it carries that role. |
| Dto.AssignableRoles | backend/src/auth/dto/dto.ts:51-55 | Every role except the column default `normal` can be assigned. |
| Dto.ValidatorLength | backend/src/auth/dto/dto.ts:17 | The counted length is at most the character count. It equals the character count exactly when no variation selector occurs. |
| Dto.PasswordBoundary | backend/src/auth/dto/dto.ts:10-39 | A password is accepted exactly when it has at least 6 characters as `isLength` counts them, which skips the variation selectors U+FE0E and U+FE0F. Five letters padded with U+FE0F are refused. |
| AuthService.NewUser | backend/src/auth/auth.service.ts:36-43 | The new row is a teammember whose password column is the hash of the body's password, with the body's username, email and the creation time. |
| AuthController.Register | backend/src/auth/auth.controller.ts:19-22 | A body that breaks a RegisterDto rule is refused with Bad Request before the service runs. Otherwise the route answers what `register` answers. |
| AuthController.Login | backend/src/auth/auth.controller.ts:24-33 | A body that breaks a LoginDto rule is refused with Bad Request. Otherwise the route succeeds exactly when `login` does, answering `success` with the service's data. |
| AuthController.ShortPasswordNeverLogsIn | backend/src/auth/dto/dto.ts:15-18 | A password under six counted characters never logs in, even when it matches the stored hash. |
| AuthController.RegisteredBodyPassesLogin | backend/src/auth/dto/dto.ts:10-40 | A body the register route accepts passes the login rules under its username and under its email. |
| AuthController.RegisterThenLogin | backend/src/auth/auth.controller.ts:19-33 | After an accepted registration, logging in with the new username and password reaches the new user. This needs `compare` to accept a password against its own hash, and no earlier user whose email is that username. |
| AuthService.Register | backend/src/auth/auth.service.ts:20-61 | A taken username or email is refused. On success the stored user has the hashed password, and the response has id, username, email and names but no role, token or password. |
| AuthService.RegisterOutcome | backend/src/auth/auth.service.ts:24-52 | In a valid table, registration succeeds exactly when neither the username nor the email is taken. It keeps the table valid and earlier users untouched. |
| AuthService.OnlyFirstIdIsOwner | backend/src/auth/auth.service.ts:36-52 | The new user is an owner exactly when they got id 1; otherwise they are a teammember. |
| AuthService.ValidateUser | backend/src/auth/auth.service.ts:63-74 | A returned user is the first row named by the identifier, as username or email, and their password check passed. |
| AuthService.ValidateEitherName | backend/src/auth/auth.service.ts:67-73 | A user with the right password is recognised under either their username or their email. |
| AuthService.Login | backend/src/auth/auth.service.ts:76-98 | Login fails with "Invalid credentials" exactly when validation finds no user. On success it answers `success` with the user's fields, role and a token signed over `{sub: id, username}`. |
| AuthService.PayloadOf | backend/src/auth/auth.service.ts:83-84 | The signed payload has no `id` of its own, so the guard puts the user's id on the request. |
| AuthService.LoginTokenIdentifiesUser | backend/src/auth/auth.service.ts:80-96 | A login token sent back as `Bearer <token>` makes the guard set `request.user` to the logged-in user's id. |
| JwtGuard.TokenOf | backend/src/guards/jwt.guards.ts:20 | The header is passed on unchanged exactly when `Bearer ` does not occur in it. Otherwise exactly one prefix's worth of characters is removed. |
| JwtGuard.CanActivate | backend/src/guards/jwt.guards.ts:13-29 | A missing header gives Unauthorized "Access token not found". Admission happens exactly when the stripped token verifies. Every refusal is Unauthorized. |
| JwtGuard.BearerHeaderToken | backend/src/guards/jwt.guards.ts:20 | `Bearer <token>` yields `<token>`. |
| JwtGuard.BareHeaderToken | backend/src/guards/jwt.guards.ts:20 | A header without `Bearer ` is verified whole. |
| JwtGuard.InnerPrefixRemoved | backend/src/guards/jwt.guards.ts:20 | Only the first `Bearer ` is removed, wherever it occurs. |
| FileValidation.Use | backend/src/files/file-validation.middleware.ts:6-18 | The request passes exactly when the first file is at most 10 MiB and its type is PDF, JPEG, PNG or CSV. No files is a TypeError. |
| FileValidation.OnlyFirstFileChecked | backend/src/files/file-validation.middleware.ts:7 | The files after the first never change the verdict. |
| FileValidation.SizeCheckedBeforeType | backend/src/files/file-validation.middleware.ts:9-15 | An oversized file reports the size error, whatever its type. |
| FileValidation.SizeBoundary | backend/src/files/file-validation.middleware.ts:9-11 | Exactly 10485760 bytes pass; one more byte does not. |
| FileValidation.SpreadsheetsAndOtherImagesRefused | backend/src/files/file-validation.middleware.ts:13-15 | Spreadsheets and other image types are refused as "Invalid file type". |
| Permissions.ManagesUsers | backend/src/user/user.service.ts:62-66 | Exactly owners and admins manage users; teammember and normal do not. |
| Permissions.MayUpdateRole | backend/src/user/user.service.ts:62-76 | Only managers may update roles. The owner may do any update. A non-owner may neither touch an owner nor grant owner. |
| Permissions.MayDeleteUser | backend/src/user/user.service.ts:90-102 | Only managers may delete, and never an owner. Whoever may delete a user may also give that user any non-owner role. An admin deletes only non-managers. |
| Permissions.MayDeleteDocument | backend/src/user/user.service.ts:118-121 | An owner may delete any document. Anyone else may delete exactly their own. |
| MulterConfig.TrimTrailingSlashes | backend/src/config/multer.config.ts:8 | A prefix of the path that does not end in a slash, with only slashes after it. |
| MulterConfig.LastSegment | backend/src/config/multer.config.ts:8 | A slash-free suffix of the path, preceded by a slash when shorter than the path. |
| MulterConfig.LastIndexOf | backend/src/config/multer.config.ts:8 | The position of the last occurrence of the character, or none exactly when it does not occur. |
| MulterConfig.ExtName | backend/src/config/multer.config.ts:8 | The extension is empty, or a dot followed by dot-free, slash-free text, and it ends the path. |
| MulterConfig.SegmentExtension | backend/src/config/multer.config.ts:8 | A segment's extension is empty or one dotted suffix of it. |
| MulterConfig.SegmentExtensionAt | backend/src/config/multer.config.ts:8 | A segment whose last dot is not its first character, other than `..`, has the extension from that dot. |
| MulterConfig.ExtNameOfDottedName | backend/src/config/multer.config.ts:8 | `name.ext` has extension `.ext`: the base name is discarded and only the extension survives. |
| MulterConfig.StoredName | backend/src/config/multer.config.ts:8 | The stored name has no slash. It starts with the timestamp's digits, which read back as the timestamp, followed by nothing or a dot. |
| MulterConfig.StoredNameInjective | backend/src/config/multer.config.ts:8 | Two stored names agree exactly when their timestamps and extensions agree. |
| JsNumbers.RoundToDouble | backend/src/config/app-config.service.ts:19-21 | Unary plus gives the double nearest the digits' value. The result is a whole number of ulps within half an ulp. A tie goes to the even number of ulps. A multiple of the ulp, and every value below 2^53, comes back exactly. |
| JsNumbers.GuardSticky | backend/src/config/app-config.service.ts:19-21 | The guard-and-sticky rounding decides as the remainder does. It rounds up when the dropped bits exceed half of 2^s, or are exactly half with odd kept bits. |
| JsNumbers.RoundShiftIsNearest | backend/src/config/app-config.service.ts:19-21 | No multiple of 2^s is closer to n than the rounded one. A tie goes to the even multiple, and a multiple of 2^s is kept as it is. |
| JsNumbers.ShiftIsDivision | backend/src/config/app-config.service.ts:19-21 | Dropping s bits is division by 2^s, and the dropped bits are the remainder. |
| JsNumbers.OverflowThreshold | backend/src/config/app-config.service.ts:19-21 | The digits read as Infinity exactly from 2^1024 - 2^970 on, the midpoint between the largest double and 2^1024. |
| JsNumbers.FirstInexactInteger | backend/src/config/app-config.service.ts:19-21 | 2^53 + 1 is halfway between two doubles and reads as the even one, 2^53. |
| AppConfig.GetOverridesDefault | backend/src/config/app-config.service.ts:15-25 | A set variable wins over the default even when its text is empty. An unset variable gives the default, and no other variable affects the result. |
| AppConfig.ProductionIff | backend/src/config/app-config.service.ts:15-29 | Production is selected exactly when APP_ENV is `production`; the default is `development`. |
| AppConfig.ToNumberReadsDecimal | backend/src/config/app-config.service.ts:19-25 | Unary plus reads the decimal text of any number as the double nearest to it, whatever white space surrounds it, so every number below 2^53 comes back exactly. A string reads as its trim does. |
| AppConfig.PortRoundTrip | backend/src/config/app-config.service.ts:19-25 | A port written in decimal reads back as the double nearest to it, which is the port itself below 2^53. An unset APP_HTTP_PORT is 3000. |
| AppConfig.HugePortOverflows | backend/src/config/app-config.service.ts:19-21 | A port of 2^1024 - 2^970 or more reads as Infinity, and no smaller one does. |
| AppConfig.UnsafePortRounds | backend/src/config/app-config.service.ts:19-21 | APP_HTTP_PORT=9007199254740993 (2^53 + 1) reads as 2^53. |
| AppConfig.HttpPort | backend/src/config/app-config.service.ts:19-21 | An unset APP_HTTP_PORT is 3000. Only a set variable can give NaN or Infinity. A set variable reads as unary plus reads its text. |
| AppConfig.HttpsPort | backend/src/config/app-config.service.ts:23-25 | An unset APP_HTTPS_PORT is 3443. Only a set variable can give NaN or Infinity. A set variable reads as unary plus reads its text. |
| AppConfig.DbConfig | backend/src/config/app-config.service.ts:32-38 | The object the getter returns has type sqlite, and its file defaults to `./database.sqlite`. Its `synchronize` value is falsy exactly when DB_SYNCHRONIZE is set to the empty string. |
| AppConfig.DbConfigFromEnv | backend/src/config/app-config.service.ts:32-38 | A set DB_PATH is the returned file. Any DB_SYNCHRONIZE text gives a truthy `synchronize` value unless it is empty. Neither variable changes the other field. |
| AppConfig.FalseTextSynchronizes | backend/src/config/app-config.service.ts:32-38 | The getter converts nothing, so with DB_SYNCHRONIZE=`false` the returned `synchronize` value is still truthy. |
| AppConfig.UnicodeSpaceIsZero | backend/src/config/app-config.service.ts:19-25 | An ideographic space reads as 0, because unary plus strips every Unicode space separator. |
| UploadPage.ToLowerAscii | frontend/src/app/upload/page.tsx:20 | Lower-casing keeps the length. |
| UploadPage.ValidateFiles | frontend/src/app/upload/page.tsx:17-27 | Every kept file is accepted, and no file is added. |
| UploadPage.MatchesEntry | frontend/src/app/upload/page.tsx:23-24 | For an entry without a slash, the file matches exactly when its lower-cased extension equals the entry with its leading dot removed, or the entry itself when it has no dot. |
| UploadPage.AllowedFamilies | frontend/src/app/upload/page.tsx:15-25 | Every allowed entry contains a slash. Their families are image, application, application, text and application. |
| UploadPage.Accepted | frontend/src/app/upload/page.tsx:15-25 | A file is kept exactly when its MIME type starts with `image`, `application` or `text`. |
| UploadPage.NameNeverDecides | frontend/src/app/upload/page.tsx:20-24 | The extension branch is unreachable, so renaming a file never changes the verdict. |
| UploadPage.ValidateFilesFilters | frontend/src/app/upload/page.tsx:18 | The result keeps exactly the accepted files, in their order. |
| UploadPage.SelectEnables | frontend/src/app/upload/page.tsx:29-50 | The button is disabled exactly when no selected file is accepted. |
| UploadPage.FormRoundTrip | frontend/src/app/upload/page.tsx:52-59 | For a non-empty selection, the form gives every file back under `files`, in order, and nothing under any other key. |
| EditUsersPage.RoleChangeEffect | frontend/src/app/edit-users/page.tsx:100-128 | The list changes only on a `success` reply. After make-admin or remove-admin, exactly the entries with the id become admin or teammember. |
| EditUsersPage.DeleteSelected | frontend/src/app/edit-users/page.tsx:130-145 | Without a selection nothing changes. With one, the modal closes on every path and the list changes only on success. |
| EditUsersPage.DeleteSelectedExactly | frontend/src/app/edit-users/page.tsx:136-138 | A successful delete keeps exactly the entries with other ids, in order. |
| EditUsersPage.Actions | frontend/src/app/edit-users/page.tsx:183-232 | No buttons appear on one's own row or before the viewer's role is known. |
| EditUsersPage.ActionsRule | frontend/src/app/edit-users/page.tsx:183-232 | An owner sees make-admin on teammembers, remove-admin on admins, and delete on every other row. An admin sees actions only on teammember rows. |
| EditUsersPage.ActionsAllowedByBackend | frontend/src/app/edit-users/page.tsx:183-232 | On rows that are not owners, every button shown is one the back end's policy accepts. |
| EditUsersPage.OwnerRowDeleteRefused | frontend/src/app/edit-users/page.tsx:183-232 | An owner is offered delete on another owner's row, and the back end refuses it. |
| FilesPage.Filters | frontend/src/app/files/page.tsx:71-79 | The type filter is sent exactly when a type is selected. A name filter, when sent, is the trimmed input. |
| FilesPage.NameFilterIff | frontend/src/app/files/page.tsx:74-76 | The name filter is sent exactly when the input has a character that is not white space. |
| FilesPage.UnicodeSpacesSendNoName | frontend/src/app/files/page.tsx:74-76 | A name made only of Unicode space separators sends no name filter. |
| FilesPage.FileIcon | frontend/src/app/files/page.tsx:98-112 | An `image/` type always gets the image icon. The pdf and excel icons go only to their own types. Any other type gets the generic icon. |
| FilesPage.IconTable | frontend/src/app/files/page.tsx:98-112 | `image/` gives the image icon, PDF the pdf icon, either Excel type the excel icon, and everything else, CSV included, the generic icon. |
| FilesPage.IconMatchesExtraction | frontend/src/app/files/page.tsx:98-112 | The image and pdf icons mark exactly the types sent to OCR and PDF extraction. The excel icon also covers the legacy type, which is not extracted, and CSV is extracted but shown generic. |
| ProfilePage.ShownDocuments | frontend/src/app/profile/page.tsx:41-46 | Given the body of `GET /user/profile`, the page would list exactly the user's own documents. It would show the admin links exactly to a user who may manage users. A response without a document list shows none. |
| ProfilePage.IsAdminIff | frontend/src/app/profile/page.tsx:46 | The admin view shows exactly for admins and owners, the roles the back end lets list users. |
| ProfilePage.IsAdmin | frontend/src/app/profile/page.tsx:46 | The admin view shows exactly when the role text parses to a role that may manage users. |
| ProfilePage.FileIcon | frontend/src/app/profile/page.tsx:82-96 | The page's own classifier gives the files page's icon for every type. |
| ProfilePage.IconsAgree | frontend/src/app/profile/page.tsx:82-96 | The profile page's classifier agrees with the files page's on every type. CSV is generic. |

## Left out

- The Bull/Redis queue and its wiring are left out, including the processor draining its own queue on start-up. This is infrastructure and concurrency. The queue is a sequence of jobs handled one at a time (`FileUploadProcessor.ProcessQueue`).
- TypeORM and SQLite are reduced to rows in rowid order. `findOne` without an order is taken to return the first matching row. SQL text, transactions and eager relation loading (`relations: ['user']`) are not modelled.
- The foreign key is checked only when a user is deleted. The check on inserting a document whose user is missing is not modelled.
- Resetting the id counters is not modelled. The `sqlite_sequence` statements name `user` and `document`, but the tables are `users` and `documents`, so they reset nothing.
- The extraction libraries are parameters: pdf-parse, csv-parser, xlsx and the OCR function. The OCR function is imported from file-utils, which does not define it.
- bcrypt `hash` and `compare`, JWT `sign` and `verify`, `JSON.stringify` and `IsEmail` are parameters. bcrypt's random salt is folded into `hash`.
- Time is a parameter. `Date.now()` and `CURRENT_TIMESTAMP` become numbers.
- Logging is left out.
- FileUtils.FullPath: `path.join` normalisation (`..`, repeated slashes) is not modelled. The path is the base, a slash and the file path.
- AppConfig.ToNumber: it covers blank text and decimal digits. JavaScript's other numeric forms (signs, fractions, exponents, hex) read as NaN here. Digits are rounded to the nearest double, ties to even, as ECMA-262's StringToNumber prescribes.
- ToNumberReadsDecimal, PortRoundTrip, HttpPort and HttpsPort: for text of more than 20 significant digits, ECMA-262's RoundMVResult lets an engine round after the 20th digit instead of rounding correctly. The model always rounds correctly, so an engine that uses that latitude may differ from it on such text.
- UploadPage.ToLowerAscii lower-cases ASCII letters only.
- The files and user controllers are left out. They call token helpers that are not defined on the services.
- Route matching order is framework behaviour and is left out. Its one consequence for this code is noted in the overview: `DELETE /admin/:id` is declared first and so catches `DELETE /admin/clear-all`. Numeric route parameters are taken as numbers, without the string-to-number conversion.
- UI rendering, modals, cookies, navigation and axios calls are left out. The clear-data and edit-profile pages and the prototype page only render and call the API.
- The API client is left out, and ProfilePage models only what the page does with a profile body. `getUserProfile` requests `GET /auth/profile`, but the profile route is `GET /user/profile`. So as written the request fails, and the page removes the token cookie and goes back to `/`. The client also lacks `getUsers`, `updateUserRole`, `deleteUser`, `getAllFiles` and `getFileDetails`, which the edit-users, files and profile pages import.
- AppConfig.DbConfig: nothing calls this getter. The application module configures TypeORM inline with `./database.sqlite` and `synchronize: true`, so DB_PATH and DB_SYNCHRONIZE have no effect on the running backend.
- The module wiring, the health endpoint, and the unused entities (processFiles, manageRoles, auditlog) are left out. They carry no behaviour.
- From `main.ts`, only the global validation pipe is modelled, on the auth and role-update routes. It refuses a breaking body with one Bad Request (`Dto.ValidationFailure`). The list of per-constraint messages is not modelled. Neither is the `forbidNonWhitelisted` refusal of unknown fields, because the DTO datatypes cannot carry extra fields. Nor is `@IsString` on non-string values, because the fields are typed strings. The rest of `main.ts` is start-up wiring (CORS, Swagger, shutdown hooks, ports).
- Dto.RegisterAccepted: `@IsEmail` is a parameter, not validator.js's e-mail grammar.
- A process crash ends the model's queue run. What Bull does with the stalled job after a restart is infrastructure and is not modelled.
- The processor's spec only checks that the provider is defined, so it is not modelled.
- FileService.GetFiles takes a non-positive `limit` to mean "no limit" and a negative offset to mean zero. The driver's exact treatment of such values is not modelled.
- UserService.GetProfile lists the user's documents in table order. The order the relation query returns is not modelled.
- No shown code writes PROCESSING or FAILED, and the model invents no transitions to them.

=== FILE: admin_controller.dfy ===
/** The `/admin` routes (backend/src/admin/admin.controller.ts). Every route
    sits behind the JWT guard, and the requester is always the id the guard
    put on the request. */
module AdminController {
  import opened Wrappers
  import opened Errors
  import opened UserEntity
  import opened Database
  import opened JwtGuard
  import opened Permissions
  import AdminService
  import Dto

  datatype Reply =
    | MessageReply(status: string, message: string)
    | UserReply(status: string, user: User)
    | UsersReply(status: string, users: seq<AdminService.UserSummary>)

  /** A handler's effect on the database and what it answers; a failing
      handler may still have changed the database. */
  datatype Handled = Handled(db: Db, reply: Result<Reply, HttpError>)

  const SuccessStatus: string := "success"

  /** `PUT /admin/role/:id`: the validation pipe refuses a role name outside
      `@IsIn` before the service runs; an admitted name is handed on as its
      role. */
  function UpdateRole(db: Db, req: RequestUser, id: nat, dto: Dto.UpdateRoleDto): (h: Handled)
    ensures Dto.AcceptedRole(dto).None? ==> h == Handled(db, Failure(Dto.ValidationFailure))
    ensures h.reply.Success? ==> Dto.AcceptedRole(dto).Some? && h.reply.value.status == SuccessStatus
    ensures Dto.AcceptedRole(dto).Some? ==>
      (h.reply.Success? <==> AdminService.UpdateRole(db.users, req.id, id, Dto.AcceptedRole(dto).value).Success?)
    ensures h.reply.Success? ==>
      h.db.users == AdminService.UpdateRole(db.users, req.id, id, Dto.AcceptedRole(dto).value).value.0
    ensures h.reply.Failure? ==> h.db == db
  {
    match Dto.AcceptedRole(dto)
    case None => Handled(db, Failure(Dto.ValidationFailure))
    case Some(role) =>
      match AdminService.UpdateRole(db.users, req.id, id, role)
      case Failure(e) => Handled(db, Failure(e))
      case Success((users, user)) => Handled(db.(users := users), Success(UserReply(SuccessStatus, user)))
  }

  /** No request through the route sets a role to `normal`: that name is not
      admitted, so the user a successful update returns, whose role is the
      one the body named, never holds the column default. */
  lemma NoRequestSetsNormal(db: Db, req: RequestUser, id: nat, dto: Dto.UpdateRoleDto)
    requires UpdateRole(db, req, id, dto).reply.Success?
    ensures dto.role != RoleName(Normal)
    ensures UpdateRole(db, req, id, dto).reply.value.UserReply?
    ensures RoleName(UpdateRole(db, req, id, dto).reply.value.user.role) == dto.role
    ensures UpdateRole(db, req, id, dto).reply.value.user.role != Normal
  {
  }

  /** `DELETE /admin/:id`. */
  function DeleteUser(db: Db, req: RequestUser, id: nat): (h: Handled)
    ensures h.reply.Success? ==> h.reply.value == MessageReply(SuccessStatus, "User deleted successfully")
    ensures h.reply.Success? <==> AdminService.DeleteUser(db, req.id, id).Success?
    ensures h.reply.Failure? ==> h.db == db
  {
    match AdminService.DeleteUser(db, req.id, id)
    case Failure(e) => Handled(db, Failure(e))
    case Success(db') => Handled(db', Success(MessageReply(SuccessStatus, "User deleted successfully")))
  }

  /** `DELETE /admin/document/:id`. */
  function DeleteDocument(db: Db, req: RequestUser, documentId: nat): (h: Handled)
    ensures h.reply.Success? ==> h.reply.value == MessageReply(SuccessStatus, "Document deleted successfully")
    ensures h.reply.Success? <==> AdminService.DeleteDocument(db, req.id, documentId).Success?
    ensures h.reply.Failure? ==> h.db == db
  {
    match AdminService.DeleteDocument(db, req.id, documentId)
    case Failure(e) => Handled(db, Failure(e))
    case Success(db') => Handled(db', Success(MessageReply(SuccessStatus, "Document deleted successfully")))
  }

  /** `DELETE /admin/clear-all`: the requester is read (a missing one is a
      null dereference), and only id 1 or an owner may go on. */
  function ClearAll(db: Db, req: RequestUser, fault: AdminService.ClearFault): (h: Handled)
    ensures h.reply.Success? ==> h.reply.value == MessageReply(SuccessStatus, "All data has been cleared successfully")
    ensures h.reply.Success? ==>
      FindById(db.users, req.id).Some? && (req.id == 1 || FindById(db.users, req.id).value.role == Owner)
    ensures FindById(db.users, req.id).Some? && req.id != 1 && FindById(db.users, req.id).value.role != Owner ==>
      h == Handled(db, Failure(Forbidden("Only the owner can perform this action")))
  {
    match FindById(db.users, req.id)
    case None => Handled(db, Failure(NullRead("id")))
    case Some(requester) =>
      if requester.id != 1 && requester.role != Owner then
        Handled(db, Failure(Forbidden("Only the owner can perform this action")))
      else
        var outcome := AdminService.ClearAllData(db, fault);
        match outcome.error
        case Some(e) => Handled(outcome.db, Failure(e))
        case None => Handled(outcome.db, Success(MessageReply(SuccessStatus, "All data has been cleared successfully")))
  }

  /** A present owner, or the user with id 1 whatever their role, clears
      everything when no step fails. */
  lemma ClearAllAllowed(db: Db, req: RequestUser)
    requires FindById(db.users, req.id).Some? && (req.id == 1 || FindById(db.users, req.id).value.role == Owner)
    ensures ClearAll(db, req, AdminService.NoFault).reply.Success?
    ensures ClearAll(db, req, AdminService.NoFault).db.users.rows == []
    ensures ClearAll(db, req, AdminService.NoFault).db.documents.rows == []
  {
  }

  /** `GET /admin/all`: an unknown requester is Unauthorized; only admins and
      owners see the listing. */
  function GetAllUsers(db: Db, req: RequestUser): (h: Handled)
    ensures h.db == db
    ensures FindById(db.users, req.id).None? ==> h.reply == Failure(Unauthorized("User not found"))
    ensures h.reply.Success? <==> FindById(db.users, req.id).Some? && ManagesUsers(FindById(db.users, req.id).value.role)
    ensures h.reply.Success? ==> h.reply.value == UsersReply(SuccessStatus, AdminService.GetAllUsers(db.users))
  {
    match FindById(db.users, req.id)
    case None => Handled(db, Failure(Unauthorized("User not found")))
    case Some(requester) =>
      if requester.role != Admin && requester.role != Owner then
        Handled(db, Failure(Forbidden("You do not have permission to view all users")))
      else Handled(db, Success(UsersReply(SuccessStatus, AdminService.GetAllUsers(db.users))))
  }

  /** The clear gate admits the user with id 1 even after their role was
      lowered, while the listing gate refuses the same user. */
  lemma DemotedFirstUser(db: Db, req: RequestUser)
    requires req.id == 1 && FindById(db.users, 1).Some? && FindById(db.users, 1).value.role == TeamMember
    ensures ClearAll(db, req, AdminService.NoFault).reply.Success?
    ensures GetAllUsers(db, req).reply == Failure(Forbidden("You do not have permission to view all users"))
  {
  }
}

=== FILE: admin_service.dfy ===
/** The admin service (backend/src/admin/admin.service.ts). Its role update
    and deletions are a second copy of the user service's; they are modelled
    from their own text and then shown to decide exactly as the user
    service does. */
module AdminService {
  import opened Wrappers
  import opened Errors
  import opened UserEntity
  import DocumentEntity
  import opened Permissions
  import opened Database
  import UserService
  import AuthService
  import Dto

  function UpdateRole(users: UserTable, requesterId: nat, userId: nat, role: Role): (r: Result<(UserTable, User), HttpError>)
    ensures FindById(users, userId).None? ==> r == Failure(NotFound("User not found"))
    ensures r.Success? ==>
      && FindById(users, requesterId).Some? && FindById(users, userId).Some?
      && MayUpdateRole(FindById(users, requesterId).value.role, FindById(users, userId).value.role, role)
  {
    var requester := FindById(users, requesterId);
    var user := FindById(users, userId);
    if user.None? then Failure(NotFound("User not found"))
    else if requester.None? then Failure(NullRead("role"))
    else if requester.value.role != Owner && requester.value.role != Admin then
      Failure(Forbidden("You do not have permission to update roles"))
    else if requester.value.role == Admin && user.value.role == Owner then
      Failure(Forbidden("Admins cannot change the role of the owner"))
    else if requester.value.role == Admin && role == Owner then
      Failure(Forbidden("Admins cannot assign the owner role"))
    else
      var updated := user.value.(role := role);
      match Save(users, updated)
      case Failure(e) => Failure(e)
      case Success(t) => Success((t, updated))
  }

  /** The two role updates accept and reject the same triples, with the same
      errors and the same resulting table. */
  lemma UpdateRoleAgrees(users: UserTable, requesterId: nat, userId: nat, role: Role)
    ensures UpdateRole(users, requesterId, userId, role) == UserService.UpdateRole(users, requesterId, userId, role)
  {
  }

  function DeleteUser(db: Db, requesterId: nat, userId: nat): (r: Result<Db, HttpError>)
    ensures FindById(db.users, userId).None? ==> r == Failure(NotFound("User not found"))
    ensures r.Success? ==>
      && FindById(db.users, userId).Some? && FindById(db.users, requesterId).Some?
      && MayDeleteUser(FindById(db.users, requesterId).value.role, FindById(db.users, userId).value.role)
  {
    var requester := FindById(db.users, requesterId);
    var user := FindById(db.users, userId);
    if user.None? then Failure(NotFound("User not found"))
    else if requester.None? then Failure(NullRead("role"))
    else if requester.value.role != Owner && requester.value.role != Admin then
      Failure(Forbidden("You do not have permission to delete users"))
    else if requester.value.role == Admin && user.value.role == Admin then
      Failure(Forbidden("Admins cannot delete other admins"))
    else if user.value.role == Owner then
      Failure(Forbidden("No one can delete the owner"))
    else
      DeleteUserRow(db, userId)
  }

  lemma DeleteUserAgrees(db: Db, requesterId: nat, userId: nat)
    ensures DeleteUser(db, requesterId, userId) == UserService.DeleteUser(db, requesterId, userId)
  {
  }

  function DeleteDocument(db: Db, requesterId: nat, documentId: nat): (r: Result<Db, HttpError>)
    ensures DocumentEntity.FindById(db.documents, documentId).None? ==> r == Failure(NotFound("Document not found"))
    ensures r.Success? ==>
      && DocumentEntity.FindById(db.documents, documentId).Some?
      && MayDeleteDocument(requesterId,
           FindById(db.users, requesterId).Some? && FindById(db.users, requesterId).value.role == Owner,
           DocumentEntity.FindById(db.documents, documentId).value.userId)
  {
    var requester := FindById(db.users, requesterId);
    var document := DocumentEntity.FindById(db.documents, documentId);
    if document.None? then Failure(NotFound("Document not found"))
    else
      var owner := FindById(db.users, document.value.userId);
      if owner.None? then Failure(NullRead("id"))
      else if owner.value.id != requesterId && requester.None? then Failure(NullRead("role"))
      else if owner.value.id != requesterId && requester.value.role != Owner then
        Failure(Forbidden("You do not have permission to delete this document"))
      else Success(db.(documents := DocumentEntity.Remove(db.documents, documentId)))
  }

  lemma DeleteDocumentAgrees(db: Db, requesterId: nat, documentId: nat)
    ensures DeleteDocument(db, requesterId, documentId) == UserService.DeleteDocument(db, requesterId, documentId)
  {
  }

  /** The columns `getAllUsers` selects: no email, password or timestamp. */
  datatype UserSummary = UserSummary(id: nat, firstName: string, lastName: string, username: string, role: Role)

  function Summary(u: User): UserSummary {
    UserSummary(u.id, u.firstName, u.lastName, u.username, u.role)
  }

  /** `getAllUsers`: one summary per user, in table order. `find` returns an
      array even when the table is empty, so its NotFound branch never fires. */
  function GetAllUsers(users: UserTable): (r: seq<UserSummary>)
    ensures |r| == |users.rows|
    ensures forall i :: 0 <= i < |r| ==> r[i] == Summary(users.rows[i])
  {
    seq(|users.rows|, i requires 0 <= i < |users.rows| => Summary(users.rows[i]))
  }

  /** In a valid table every user appears in the listing exactly once: one
      entry is their summary, and any entry with their id is that summary. */
  lemma GetAllUsersListsEveryone(users: UserTable, u: User)
    requires UserEntity.Valid(users) && u in users.rows
    ensures exists i :: 0 <= i < |GetAllUsers(users)| && GetAllUsers(users)[i] == Summary(u)
    ensures forall i :: 0 <= i < |GetAllUsers(users)| && GetAllUsers(users)[i].id == u.id ==> GetAllUsers(users)[i] == Summary(u)
  {
    var k :| 0 <= k < |users.rows| && users.rows[k] == u;
    assert GetAllUsers(users)[k] == Summary(u);
  }

  /** Which step of `clearAllData` throws, if any: the documents clear, the
      users clear, or one of the two `sqlite_sequence` statements. */
  datatype ClearFault = NoFault | DocumentsClearFails(message: string) | UsersClearFails(message: string) | SequenceResetFails(message: string)

  datatype ClearOutcome = ClearOutcome(db: Db, error: Option<HttpError>)

  const ClearFailurePrefix: string := "Failed to clear database: "

  /** `clearAllData`: documents are cleared before users, the steps that ran
      before a failure keep their effect, and every failure is rethrown with
      the prefix. The `sqlite_sequence` statements name tables `user` and
      `document`, which do not exist, so the id counters are untouched. */
  function ClearAllData(db: Db, fault: ClearFault): (r: ClearOutcome)
    ensures r.db.users.nextId == db.users.nextId && r.db.documents.nextId == db.documents.nextId
    ensures r.error.None? <==> fault.NoFault?
    ensures r.error.Some? ==> r.error.value == InternalError(ClearFailurePrefix + fault.message)
  {
    match fault
    case NoFault =>
      ClearOutcome(Db(Clear(db.users), DocumentEntity.Clear(db.documents)), None)
    case DocumentsClearFails(m) =>
      ClearOutcome(db, Some(InternalError(ClearFailurePrefix + m)))
    case UsersClearFails(m) =>
      ClearOutcome(db.(documents := DocumentEntity.Clear(db.documents)), Some(InternalError(ClearFailurePrefix + m)))
    case SequenceResetFails(m) =>
      ClearOutcome(Db(Clear(db.users), DocumentEntity.Clear(db.documents)), Some(InternalError(ClearFailurePrefix + m)))
  }

  /** A clear that completes leaves both tables empty; whatever fails, the
      documents go no later than the users, so no document is left without
      its user: a consistent database stays consistent. */
  lemma ClearAllDataEffect(db: Db, fault: ClearFault)
    requires Database.Valid(db)
    ensures fault.NoFault? ==> ClearAllData(db, fault).db.users.rows == [] && ClearAllData(db, fault).db.documents.rows == []
    ensures Database.Valid(ClearAllData(db, fault).db)
  {
  }

  /** Once the table has held a user, a clear does not hand ownership to the
      next person to register: the counter is past 1, so they become a team
      member. */
  lemma NoOwnerAfterClear(db: Db, fault: ClearFault, dto: Dto.RegisterDto, hash: string -> string, now: nat)
    requires db.users.nextId > 1
    requires AuthService.Register(ClearAllData(db, fault).db.users, dto, hash, now).Success?
    ensures var t := AuthService.Register(ClearAllData(db, fault).db.users, dto, hash, now).value.0;
      t.rows[|t.rows| - 1].role == TeamMember
  {
  }
}

=== FILE: app_config.dfy ===
/** The configuration getters of backend/src/config/app-config.service.ts.
    The environment is a map from variable name to its text; a missing
    variable takes the getter's default. */
module AppConfig {
  import opened Strings
  import opened JsNumbers

  type Environment = map<string, string>

  /** `configService.get(key, default)`. */
  function Get(env: Environment, key: string, default: string): (r: string)
    ensures key in env ==> r == env[key]
    ensures key !in env ==> r == default
  {
    if key in env then env[key] else default
  }

  /** A set variable wins over the default even when it is empty text, an
      unset one gives the default, and no other variable has any say. */
  lemma GetOverridesDefault(env: Environment, key: string, value: string, default: string)
    ensures Get(env[key := value], key, default) == value
    ensures Get(env - {key}, key, default) == default
    ensures forall other :: other != key ==> Get(env[key := value], other, default) == Get(env, other, default)
  {
  }

  function AppEnv(env: Environment): string {
    Get(env, "APP_ENV", "development")
  }

  predicate IsProduction(env: Environment) {
    AppEnv(env) == "production"
  }

  /** Only an explicit `APP_ENV=production` selects production. */
  lemma ProductionIff(env: Environment)
    ensures IsProduction(env) <==> "APP_ENV" in env && env["APP_ENV"] == "production"
  {
  }

  /** Unary `+` on a string: surrounding white space is ignored, an empty
      remainder is 0, decimal digits become the double nearest their value
      (Infinity past the largest double), anything else is NaN. Signs,
      fractions, exponents and hexadecimal are not modelled. */
  function ToNumber(s: string): (r: JsNumber)
    ensures Trim(s) == "" ==> r == Num(0)
    ensures Trim(s) != "" && AllDigits(Trim(s)) ==> r == RoundToDouble(ParseDigits(Trim(s)))
    ensures Trim(s) != "" && AllDigits(Trim(s)) && ParseDigits(Trim(s)) < Pow2(Precision) ==>
      r == Num(ParseDigits(Trim(s)))
    ensures r.NaN? <==> Trim(s) != "" && !AllDigits(Trim(s))
  {
    var t := Trim(s);
    if t == "" then Num(0)
    else if AllDigits(t) then RoundToDouble(ParseDigits(t))
    else NaN
  }

  /** Unary plus reads the decimal text of any number back as the double
      nearest to it, whatever white space surrounds it, so every number
      below 2^53 comes back exactly; and a string reads as its trim does. */
  lemma ToNumberReadsDecimal(n: nat, before: string, after: string, s: string)
    requires forall i :: 0 <= i < |before| ==> IsWhitespace(before[i])
    requires forall i :: 0 <= i < |after| ==> IsWhitespace(after[i])
    ensures ToNumber(before + NatToString(n) + after) == RoundToDouble(n)
    ensures n < Pow2(Precision) ==> ToNumber(before + NatToString(n) + after) == Num(n)
    ensures ToNumber(Trim(s)) == ToNumber(s)
  {
    var d := NatToString(n);
    assert IsDigit(d[0]) && IsDigit(d[|d| - 1]);
    TrimPadded(before, d, after);
    ParseNatToString(n);
    TrimIdempotent(s);
  }

  /** `+configService.get('APP_HTTP_PORT', 3000)`: the default is a number,
      and a set variable goes through the unary plus. */
  function HttpPort(env: Environment): (r: JsNumber)
    ensures "APP_HTTP_PORT" !in env ==> r == Num(3000)
    ensures !r.Num? ==> "APP_HTTP_PORT" in env
    ensures "APP_HTTP_PORT" in env ==> r == ToNumber(env["APP_HTTP_PORT"])
  {
    if "APP_HTTP_PORT" in env then ToNumber(env["APP_HTTP_PORT"]) else Num(3000)
  }

  function HttpsPort(env: Environment): (r: JsNumber)
    ensures "APP_HTTPS_PORT" !in env ==> r == Num(3443)
    ensures !r.Num? ==> "APP_HTTPS_PORT" in env
    ensures "APP_HTTPS_PORT" in env ==> r == ToNumber(env["APP_HTTPS_PORT"])
  {
    if "APP_HTTPS_PORT" in env then ToNumber(env["APP_HTTPS_PORT"]) else Num(3443)
  }

  /** A port written in decimal reads back as the double nearest to it:
      itself below 2^53, Infinity from 2^1024 - 2^970 on; an unset port is
      the default. */
  lemma PortRoundTrip(env: Environment, p: nat)
    ensures HttpPort(env["APP_HTTP_PORT" := NatToString(p)]) == RoundToDouble(p)
    ensures HttpsPort(env["APP_HTTPS_PORT" := NatToString(p)]) == RoundToDouble(p)
    ensures p < Pow2(Precision) ==> HttpPort(env["APP_HTTP_PORT" := NatToString(p)]) == Num(p)
    ensures p < Pow2(Precision) ==> HttpsPort(env["APP_HTTPS_PORT" := NatToString(p)]) == Num(p)
    ensures "APP_HTTP_PORT" !in env ==> HttpPort(env) == Num(3000)
  {
    var s := NatToString(p);
    assert ToNumber(s) == RoundToDouble(p) by {
      forall i | 0 <= i < |s| ensures !IsWhitespace(s[i]) {
        assert IsDigit(s[i]);
      }
      TrimOfNoWhitespace(s);
      ParseNatToString(p);
    }
  }

  /** A port of 2^1024 - 2^970 or more reads as Infinity, and no smaller one
      does. */
  lemma HugePortOverflows(env: Environment, p: nat)
    ensures HttpPort(env["APP_HTTP_PORT" := NatToString(p)]).Infinity? <==> p >= Pow2(ExponentLimit) - Pow2(970)
  {
    PortRoundTrip(env, p);
    OverflowThreshold(p);
  }

  /** `APP_HTTP_PORT=9007199254740993` (2^53 + 1) is read as 2^53: the
      number has no double of its own. */
  lemma UnsafePortRounds(env: Environment, p: nat)
    requires p == Pow2(Precision) + 1
    ensures HttpPort(env["APP_HTTP_PORT" := NatToString(p)]) == Num(p - 1)
  {
    PortRoundTrip(env, p);
    FirstInexactInteger(p);
  }

  /** A string with no white space is its own trim. */
  lemma TrimOfNoWhitespace(s: string)
    requires forall i :: 0 <= i < |s| ==> !IsWhitespace(s[i])
    ensures Trim(s) == s
  {
  }

  /** The value the getter puts in `synchronize`: the raw text of
      `DB_SYNCHRONIZE` when it is set (the getter's type argument converts
      nothing), else `true`. */
  datatype Flag = Text(text: string) | Bool(b: bool)

  /** JavaScript truthiness of that value. */
  predicate Truthy(f: Flag) {
    match f
    case Text(t) => t != ""
    case Bool(b) => b
  }

  datatype DatabaseConfig = DatabaseConfig(dbType: string, database: string, synchronize: Flag)

  /** `databaseConfig`, the object the getter returns: the type is always
      SQLite, the file defaults to `./database.sqlite`, and the `synchronize`
      value is falsy exactly when `DB_SYNCHRONIZE` is set to the empty
      string. */
  function DbConfig(env: Environment): (r: DatabaseConfig)
    ensures r.dbType == "sqlite"
    ensures "DB_PATH" !in env ==> r.database == "./database.sqlite"
    ensures !Truthy(r.synchronize) <==> "DB_SYNCHRONIZE" in env && env["DB_SYNCHRONIZE"] == ""
  {
    DatabaseConfig("sqlite",
      Get(env, "DB_PATH", "./database.sqlite"),
      if "DB_SYNCHRONIZE" in env then Text(env["DB_SYNCHRONIZE"]) else Bool(true))
  }

  /** Setting `DB_PATH` chooses the file the getter returns, and setting
      `DB_SYNCHRONIZE` to any text makes the returned `synchronize` value
      truthy unless the text is empty; neither touches the other field. */
  lemma DbConfigFromEnv(env: Environment, path: string, flag: string)
    ensures DbConfig(env["DB_PATH" := path]).database == path
    ensures DbConfig(env["DB_PATH" := path]).synchronize == DbConfig(env - {"DB_PATH"}).synchronize
    ensures Truthy(DbConfig(env["DB_SYNCHRONIZE" := flag]).synchronize) <==> flag != ""
    ensures DbConfig(env["DB_SYNCHRONIZE" := flag]).database == DbConfig(env).database
  {
    GetOverridesDefault(env, "DB_PATH", path, "./database.sqlite");
  }

  /** The getter's type argument converts nothing: the text `false` still
      gives a truthy `synchronize` value. */
  lemma FalseTextSynchronizes(env: Environment)
    ensures Truthy(DbConfig(env["DB_SYNCHRONIZE" := "false"]).synchronize)
  {
    DbConfigFromEnv(env, "./database.sqlite", "false");
  }

  /** Unary plus strips every Unicode space separator: an ideographic space
      reads as 0, not NaN. */
  lemma UnicodeSpaceIsZero()
    ensures ToNumber("\U{3000}") == Num(0)
  {
    TrimEmptyIff("\U{3000}");
  }
}

=== FILE: auth_controller.dfy ===
/** The `/auth` routes (backend/src/auth/auth.controller.ts) behind the
    global validation pipe of backend/src/main.ts: a body that breaks a DTO
    rule is refused with a Bad Request before the service runs. */
module AuthController {
  import opened Wrappers
  import opened Errors
  import opened UserEntity
  import opened Dto
  import AuthService
  import JwtGuard

  /** `POST /auth/register`. */
  function Register(users: UserTable, dto: RegisterDto, isEmail: string -> bool, hash: string -> string, now: nat)
    : (r: Result<(UserTable, UserResponseDto), HttpError>)
    ensures !RegisterAccepted(dto, isEmail) ==> r == Failure(ValidationFailure)
    ensures r.Success? ==> RegisterAccepted(dto, isEmail) && r == AuthService.Register(users, dto, hash, now)
    ensures RegisterAccepted(dto, isEmail) ==> r.Success? == AuthService.Register(users, dto, hash, now).Success?
  {
    if !RegisterAccepted(dto, isEmail) then Failure(ValidationFailure)
    else AuthService.Register(users, dto, hash, now)
  }

  /** `POST /auth/login`: the service's `{ status, data }` passed on. */
  function Login(users: UserTable, dto: LoginDto, compare: (string, string) -> bool, sign: JwtGuard.Claims -> string)
    : (r: Result<AuthService.LoginResponse, HttpError>)
    ensures !LoginAccepted(dto) ==> r == Failure(ValidationFailure)
    ensures r.Success? ==> LoginAccepted(dto) && r.value.status == "success"
    ensures r.Success? ==>
      AuthService.Login(users, dto, compare, sign).Success? && r.value.data == AuthService.Login(users, dto, compare, sign).value.data
    ensures LoginAccepted(dto) ==> r.Success? == AuthService.Login(users, dto, compare, sign).Success?
  {
    if !LoginAccepted(dto) then Failure(ValidationFailure)
    else
      match AuthService.Login(users, dto, compare, sign)
      case Failure(e) => Failure(e)
      case Success(result) => Success(AuthService.LoginResponse("success", result.data))
  }

  /** A password of fewer than six counted characters never logs in, even
      when it matches the stored hash: the pipe refuses it first. */
  lemma ShortPasswordNeverLogsIn(users: UserTable, dto: LoginDto, compare: (string, string) -> bool, sign: JwtGuard.Claims -> string)
    requires ValidatorLength(dto.password) < MinPasswordLength
    ensures Login(users, dto, compare, sign) == Failure(ValidationFailure)
  {
  }

  /** Every body the register route accepts also passes the login rules
      under its username and under its email. */
  lemma RegisteredBodyPassesLogin(dto: RegisterDto, isEmail: string -> bool)
    requires RegisterAccepted(dto, isEmail)
    ensures LoginAccepted(LoginDto(dto.username, dto.password))
    ensures LoginAccepted(LoginDto(dto.email, dto.password))
  {
  }

  /** After a registration the route accepts, logging in with the new
      username and the same password reaches the new user, provided no
      earlier user's email equals that username (the lookup takes the first
      row matching either column) and `compare` accepts a password against
      its own hash. */
  lemma RegisterThenLogin(users: UserTable, dto: RegisterDto, isEmail: string -> bool, hash: string -> string, now: nat,
                          compare: (string, string) -> bool, sign: JwtGuard.Claims -> string)
    requires UserEntity.Valid(users)
    requires Register(users, dto, isEmail, hash, now).Success?
    requires forall i :: 0 <= i < |users.rows| ==> users.rows[i].email != dto.username
    requires compare(dto.password, hash(dto.password))
    ensures var users' := Register(users, dto, isEmail, hash, now).value.0;
      var r := Login(users', LoginDto(dto.username, dto.password), compare, sign);
      && r.Success? && r.value.data.id == users.nextId && r.value.data.username == dto.username
  {
    AuthService.RegisterOutcome(users, dto, hash, now);
    var users' := AuthService.Register(users, dto, hash, now).value.0;
    var k := |users.rows|;
    assert users'.rows[k].password == hash(dto.password) && users'.rows[k].username == dto.username;
    AuthService.ValidateEitherName(users', k, dto.password, compare);
    assert users'.rows[..k] == users.rows;
  }
}

=== FILE: auth_service.dfy ===
/** Registration and login (backend/src/auth/auth.service.ts). bcrypt and
    the JWT signer are parameters: `hash` stands for `bcrypt.hash(p, 10)`
    with its salt already drawn, `compare` for `bcrypt.compare`, `sign` for
    `jwtService.sign`. */
module AuthService {
  import opened Wrappers
  import opened Seqs
  import opened Errors
  import opened UserEntity
  import opened Dto
  import opened JwtGuard

  /** `findOne({ where: [{ username: a }, { email: b }] })`: rows matching either. */
  function NameOrEmail(username: string, email: string): User -> bool {
    (u: User) => u.username == username || u.email == email
  }

  /** The row `register` creates before the database assigns its id: a team
      member whose stored password is the hash, never the plain text. */
  function NewUser(dto: RegisterDto, hash: string -> string, now: nat): (u: User)
    ensures u.role == TeamMember && u.password == hash(dto.password)
    ensures u.username == dto.username && u.email == dto.email && u.createdAt == now
  {
    User(0, dto.username, dto.email, hash(dto.password), TeamMember, dto.firstName, dto.lastName, now)
  }

  /** `register`: refused when the username or the email is taken; otherwise
      a team member is inserted, and promoted to owner if it got id 1. The
      response carries neither the password nor the role. */
  function Register(users: UserTable, dto: RegisterDto, hash: string -> string, now: nat): (r: Result<(UserTable, UserResponseDto), HttpError>)
    ensures (exists i :: 0 <= i < |users.rows| && NameOrEmail(dto.username, dto.email)(users.rows[i])) ==>
      r == Failure(BadRequest("Username or email already in use"))
    ensures r.Success? ==>
      && |r.value.0.rows| == |users.rows| + 1 && r.value.0.nextId == users.nextId + 1
      && r.value.0.rows[|users.rows|] == NewUser(dto, hash, now).(id := users.nextId, role := if users.nextId == 1 then Owner else TeamMember)
    ensures r.Success? ==> r.value.1 == UserResponseDto(users.nextId, dto.username, dto.email, Some(dto.firstName), Some(dto.lastName), None)
  {
    if FindFirst(users.rows, NameOrEmail(dto.username, dto.email)).Some? then
      Failure(BadRequest("Username or email already in use"))
    else
      match Insert(users, NewUser(dto, hash, now))
      case Failure(e) => Failure(e)
      case Success(inserted) =>
        var (t, row) := inserted;
        var response := UserResponseDto(row.id, row.username, row.email, Some(row.firstName), Some(row.lastName), None);
        if row.id == 1 then
          match Save(t, row.(role := Owner))
          case Failure(e) => Failure(e)
          case Success(t') => Success((t', response))
        else Success((t, response))
  }

  /** In a valid table registration succeeds exactly when neither the
      username nor the email is taken, and keeps the table valid. */
  lemma RegisterOutcome(users: UserTable, dto: RegisterDto, hash: string -> string, now: nat)
    requires UserEntity.Valid(users)
    ensures Register(users, dto, hash, now).Success? <==>
      forall i :: 0 <= i < |users.rows| ==> users.rows[i].username != dto.username && users.rows[i].email != dto.email
    ensures Register(users, dto, hash, now).Success? ==> UserEntity.Valid(Register(users, dto, hash, now).value.0)
    ensures Register(users, dto, hash, now).Success? ==> Register(users, dto, hash, now).value.0.rows[..|users.rows|] == users.rows
  {
    var draft := NewUser(dto, hash, now);
    if forall i :: 0 <= i < |users.rows| ==> users.rows[i].username != dto.username && users.rows[i].email != dto.email {
      assert CheckUnique(users.rows, draft.(id := users.nextId)).None?;
      InsertValid(users, draft);
      var (t, row) := Insert(users, draft).value;
      if row.id == 1 {
        assert CheckUnique(t.rows, row.(role := Owner)).None?;
        SaveValid(t, row.(role := Owner));
      }
    }
  }

  /** Only the first user ever registered becomes owner; every later one is
      a team member, whatever the table holds. */
  lemma OnlyFirstIdIsOwner(users: UserTable, dto: RegisterDto, hash: string -> string, now: nat)
    requires Register(users, dto, hash, now).Success?
    ensures var t := Register(users, dto, hash, now).value.0;
      t.rows[|t.rows| - 1].role == (if users.nextId == 1 then Owner else TeamMember)
  {
  }

  /** `validateUser`: the first row whose username or email is the identifier,
      if the password matches its hash. A later row matching the identifier
      is never tried. */
  function ValidateUser(users: UserTable, identifier: string, password: string, compare: (string, string) -> bool): (r: Option<User>)
    ensures r.Some? ==> r.value in users.rows && (r.value.username == identifier || r.value.email == identifier)
    ensures r.Some? ==> compare(password, r.value.password)
    ensures r.Some? ==> exists k :: (&& 0 <= k < |users.rows| && users.rows[k] == r.value
      && forall j :: 0 <= j < k ==> users.rows[j].username != identifier && users.rows[j].email != identifier)
  {
    match FindFirst(users.rows, NameOrEmail(identifier, identifier))
    case None => None
    case Some(k) => if compare(password, users.rows[k].password) then Some(users.rows[k]) else None
  }

  /** A user is recognised under either their username or their email. */
  lemma ValidateEitherName(users: UserTable, k: nat, password: string, compare: (string, string) -> bool)
    requires UserEntity.Valid(users) && k < |users.rows| && compare(password, users.rows[k].password)
    ensures ValidateUser(users, users.rows[k].username, password, compare) == Some(users.rows[k])
       || exists j :: 0 <= j < k && users.rows[j].email == users.rows[k].username
    ensures ValidateUser(users, users.rows[k].email, password, compare) == Some(users.rows[k])
       || exists j :: 0 <= j < k && users.rows[j].username == users.rows[k].email
  {
    var u := users.rows[k];
    forall j | 0 <= j < k ensures DistinctNames(users.rows[j], u) {
      assert DistinctNames(users.rows[j], users.rows[k]);
    }
    var byName := FindFirst(users.rows, NameOrEmail(u.username, u.username));
    var byEmail := FindFirst(users.rows, NameOrEmail(u.email, u.email));
    assert NameOrEmail(u.username, u.username)(users.rows[k]);
    assert NameOrEmail(u.email, u.email)(users.rows[k]);
    if !(exists j :: 0 <= j < k && users.rows[j].email == u.username) {
      assert byName == Some(k);
    }
    if !(exists j :: 0 <= j < k && users.rows[j].username == u.email) {
      assert byEmail == Some(k);
    }
  }

  /** What a successful login returns under `data`. */
  datatype LoginData = LoginData(
    id: nat, username: string, email: string, firstName: string, lastName: string,
    role: Role, accessToken: string)

  datatype LoginResponse = LoginResponse(status: string, data: LoginData)

  /** The payload login signs: `{ sub: id, username }`, with no `id` of its
      own, so the guard puts the user's id on the request. */
  function PayloadOf(u: User): (c: Claims)
    ensures UserOf(c) == RequestUser(u.id, u.id, u.username)
  {
    Claims(u.id, u.username, None)
  }

  /** `login`: Invalid credentials unless `validateUser` finds the user; the
      token is signed over `{ sub: id, username }`. */
  function Login(users: UserTable, dto: LoginDto, compare: (string, string) -> bool, sign: Claims -> string): (r: Result<LoginResponse, HttpError>)
    ensures r.Failure? <==> ValidateUser(users, dto.userIdentifier, dto.password, compare).None?
    ensures r.Failure? ==> r.error == Unauthorized("Invalid credentials")
    ensures r.Success? ==>
      var u := ValidateUser(users, dto.userIdentifier, dto.password, compare).value;
      && r.value.status == "success"
      && r.value.data == LoginData(u.id, u.username, u.email, u.firstName, u.lastName, u.role, sign(PayloadOf(u)))
  {
    match ValidateUser(users, dto.userIdentifier, dto.password, compare)
    case None => Failure(Unauthorized("Invalid credentials"))
    case Some(u) =>
      Success(LoginResponse("success",
        LoginData(u.id, u.username, u.email, u.firstName, u.lastName, u.role, sign(PayloadOf(u)))))
  }

  /** A token from login, sent back as `Bearer <token>` to a guard whose
      verifier accepts what the signer issued, identifies the logged-in user. */
  lemma LoginTokenIdentifiesUser(users: UserTable, dto: LoginDto, compare: (string, string) -> bool,
                                 sign: Claims -> string, verify: string -> Option<Claims>)
    requires forall c :: verify(sign(c)) == Some(c)
    requires Login(users, dto, compare, sign).Success?
    ensures var data := Login(users, dto, compare, sign).value.data;
      CanActivate(Some(BearerPrefix + data.accessToken), verify) == Success(RequestUser(data.id, data.id, data.username))
  {
    var data := Login(users, dto, compare, sign).value.data;
    BearerHeaderToken(data.accessToken);
  }
}

=== FILE: database.dfy ===
/** The two tables together, joined by the `documents.userId` foreign key
    (backend/src/models/document.entity.ts, `@ManyToOne` with no delete
    action, so SQLite refuses to delete a user who still owns documents). */
module Database {
  import opened Wrappers
  import opened Errors
  import opened UserEntity
  import DocumentEntity

  datatype Db = Db(users: UserTable, documents: DocumentEntity.DocumentTable)

  predicate HasUser(users: UserTable, id: nat) {
    exists i :: 0 <= i < |users.rows| && users.rows[i].id == id
  }

  predicate OwnsDocuments(docs: DocumentEntity.DocumentTable, userId: nat) {
    exists j :: 0 <= j < |docs.rows| && docs.rows[j].userId == userId
  }

  /** Both tables valid and every document's user present. */
  ghost predicate Valid(db: Db) {
    && UserEntity.Valid(db.users)
    && DocumentEntity.Valid(db.documents)
    && forall j :: 0 <= j < |db.documents.rows| ==> HasUser(db.users, db.documents.rows[j].userId)
  }

  const ForeignKeyViolation: HttpError := InternalError("SQLITE_CONSTRAINT: FOREIGN KEY constraint failed")

  /** `userRepository.delete(id)` under the foreign key: refused while the
      user owns documents, otherwise the user's rows go. */
  function DeleteUserRow(db: Db, id: nat): (r: Result<Db, HttpError>)
    ensures r.Failure? <==> OwnsDocuments(db.documents, id)
    ensures r.Failure? ==> r.error == ForeignKeyViolation
    ensures r.Success? ==> r.value.documents == db.documents && r.value.users.nextId == db.users.nextId
    ensures r.Success? ==> !HasUser(r.value.users, id)
    ensures r.Success? ==> r.value == db.(users := Remove(db.users, id))
  {
    if OwnsDocuments(db.documents, id) then Failure(ForeignKeyViolation)
    else Success(db.(users := Remove(db.users, id)))
  }

  /** An accepted user delete keeps every other user: a row survives exactly
      when it was there and has another id. */
  lemma DeleteUserRowKeepsOthers(db: Db, id: nat, u: User)
    requires DeleteUserRow(db, id).Success?
    ensures u in DeleteUserRow(db, id).value.users.rows <==> u in db.users.rows && u.id != id
  {
    RemoveExactly(db.users, id, u);
  }

  /** An accepted user delete leaves no document without its user. */
  lemma DeleteUserRowValid(db: Db, id: nat)
    requires Valid(db) && DeleteUserRow(db, id).Success?
    ensures Valid(DeleteUserRow(db, id).value)
  {
    var after := DeleteUserRow(db, id).value;
    RemoveValid(db.users, id);
    forall j | 0 <= j < |db.documents.rows|
      ensures HasUser(after.users, db.documents.rows[j].userId)
    {
      var owner := db.documents.rows[j].userId;
      var i :| 0 <= i < |db.users.rows| && db.users.rows[i].id == owner;
      RemoveExactly(db.users, id, db.users.rows[i]);
      var u := db.users.rows[i];
      assert u in after.users.rows;
      var i' :| 0 <= i' < |after.users.rows| && after.users.rows[i'] == u;
    }
  }

  /** Removing a document keeps every invariant. */
  lemma DeleteDocumentRowValid(db: Db, id: nat)
    requires Valid(db)
    ensures Valid(db.(documents := DocumentEntity.Remove(db.documents, id)))
  {
    var keep := (d: DocumentEntity.Document) => d.id != id;
    DocumentEntity.RemoveValid(db.documents, id);
    var after := DocumentEntity.Remove(db.documents, id);
    forall j | 0 <= j < |after.rows|
      ensures HasUser(db.users, after.rows[j].userId)
    {
      DocumentEntity.RemoveExactly(db.documents, id, after.rows[j]);
      var j' :| 0 <= j' < |db.documents.rows| && db.documents.rows[j'] == after.rows[j];
    }
  }
}

=== FILE: document_entity.dfy ===
/** The `documents` table: one row per uploaded file and its extraction result
    (backend/src/models/document.entity.ts). */
module DocumentEntity {
  import opened Wrappers
  import opened Seqs

  /** The four values of the status column. */
  datatype Status = Pending | Processing | Completed | Failed

  /** The text stored in the status column. */
  function StatusValue(s: Status): string {
    match s
    case Pending => "pending"
    case Processing => "processing"
    case Completed => "completed"
    case Failed => "failed"
  }

  /** Reading a status column value back; anything else is not a status. */
  function ParseStatus(v: string): (r: Option<Status>)
    ensures r.Some? ==> StatusValue(r.value) == v
  {
    if v == "pending" then Some(Pending)
    else if v == "processing" then Some(Processing)
    else if v == "completed" then Some(Completed)
    else if v == "failed" then Some(Failed)
    else None
  }

  /** The column values and the enum are in one-to-one correspondence. */
  lemma StatusValueRoundTrip(s: Status, v: string)
    ensures ParseStatus(v) == Some(s) <==> StatusValue(s) == v
  {
  }

  /** A row. `extractedData` is the only nullable column; `createdAt` is the
      insertion time, given as a number because the clock is not modelled. */
  datatype Document = Document(
    id: nat,
    fileName: string,
    fileType: string,
    filePath: string,
    status: Status,
    extractedData: Option<string>,
    createdAt: nat,
    // Declared as a string column; the value stored is the numeric `sub` of
    // the uploader's token, so it is modelled as that number.
    userId: nat)

  /** The rows in insertion (rowid) order, and the AUTOINCREMENT counter that
      gives the next row its id. */
  datatype DocumentTable = DocumentTable(rows: seq<Document>, nextId: nat)

  const EmptyTable := DocumentTable([], 1)

  /** Ids are positive, strictly increasing in row order and below the counter,
      hence unique. */
  ghost predicate Valid(t: DocumentTable) {
    && t.nextId >= 1
    && (forall i :: 0 <= i < |t.rows| ==> 1 <= t.rows[i].id < t.nextId)
    && Pairwise(t.rows, IdBefore)
  }

  function IdBefore(a: Document, b: Document): bool {
    a.id < b.id
  }

  /** A new row as the entity's column defaults make it: status PENDING and no
      extracted data. */
  function Create(fileName: string, fileType: string, filePath: string, userId: nat, createdAt: nat): (d: Document)
    ensures d.status == Pending && d.extractedData == None
  {
    Document(0, fileName, fileType, filePath, Pending, None, createdAt, userId)
  }

  /** `repository.save` of a new entity: the row gets the next id and is appended. */
  function Insert(t: DocumentTable, d: Document): (r: (DocumentTable, Document))
    ensures r.1 == d.(id := t.nextId)
    ensures r.0.rows == t.rows + [r.1] && r.0.nextId == t.nextId + 1
  {
    var row := d.(id := t.nextId);
    (DocumentTable(t.rows + [row], t.nextId + 1), row)
  }

  /** `findOne({ where: { id } })`: the row with the given id, if any. */
  function FindById(t: DocumentTable, id: nat): (r: Option<Document>)
    ensures r.Some? ==> r.value in t.rows && r.value.id == id
    ensures r.None? <==> forall i :: 0 <= i < |t.rows| ==> t.rows[i].id != id
  {
    match FindFirst(t.rows, (d: Document) => d.id == id)
    case None => None
    case Some(k) => Some(t.rows[k])
  }

  /** In a valid table a row is the one `FindById` returns for its id. */
  lemma FindByIdOfRow(t: DocumentTable, k: nat)
    requires Valid(t) && k < |t.rows|
    ensures FindById(t, t.rows[k].id) == Some(t.rows[k])
  {
    var idx := FindFirst(t.rows, (d: Document) => d.id == t.rows[k].id);
    assert idx.Some?;
  }

  /** In a valid table a fresh row is found under the id it was given, that
      id was free before, and every other id finds what it found before. */
  lemma InsertFindById(t: DocumentTable, d: Document)
    requires Valid(t)
    ensures FindById(t, t.nextId).None?
    ensures FindById(Insert(t, d).0, t.nextId) == Some(Insert(t, d).1)
    ensures forall id :: id != t.nextId ==> FindById(Insert(t, d).0, id) == FindById(t, id)
  {
    var (t', row) := Insert(t, d);
    InsertValid(t, d);
    FindByIdOfRow(t', |t.rows|);
    forall id | id != t.nextId
      ensures FindById(t', id) == FindById(t, id)
    {
      if FindById(t, id).Some? {
        var k :| 0 <= k < |t.rows| && t.rows[k] == FindById(t, id).value;
        FindByIdOfRow(t, k);
        FindByIdOfRow(t', k);
      }
    }
  }

  /** `repository.delete(id)`: the rows whose id differs, in their order. */
  function Remove(t: DocumentTable, id: nat): (r: DocumentTable)
    ensures r.nextId == t.nextId && |r.rows| <= |t.rows|
    ensures forall i :: 0 <= i < |r.rows| ==> r.rows[i].id != id
  {
    DocumentTable(Filter(t.rows, (d: Document) => d.id != id), t.nextId)
  }

  /** Deleting removes exactly the rows with that id: every other row stays. */
  lemma RemoveExactly(t: DocumentTable, id: nat, d: Document)
    ensures d in Remove(t, id).rows <==> d in t.rows && d.id != id
  {
    FilterMembers(t.rows, (d: Document) => d.id != id, d);
  }

  /** `repository.clear()`: no rows remain; the AUTOINCREMENT counter is kept. */
  function Clear(t: DocumentTable): (r: DocumentTable)
    ensures r.rows == [] && r.nextId == t.nextId
  {
    DocumentTable([], t.nextId)
  }

  /** After a clear no id finds a row, and the next insert gets an id above
      every cleared one: ids are never reused. */
  lemma ClearNeverReusesIds(t: DocumentTable, d: Document)
    requires Valid(t)
    ensures Valid(Clear(t))
    ensures forall id :: FindById(Clear(t), id).None?
    ensures forall i :: 0 <= i < |t.rows| ==> t.rows[i].id < Insert(Clear(t), d).1.id
  {
  }

  /** Inserting keeps ids unique and increasing. */
  lemma InsertValid(t: DocumentTable, d: Document)
    requires Valid(t)
    ensures Valid(Insert(t, d).0)
  {
  }

  /** Removing rows keeps ids unique and increasing. */
  lemma RemoveValid(t: DocumentTable, id: nat)
    requires Valid(t)
    ensures Valid(Remove(t, id))
  {
    var keep := (d: Document) => d.id != id;
    FilterPairwise(t.rows, keep, IdBefore);
    forall d | d in Remove(t, id).rows
      ensures 1 <= d.id < t.nextId
    {
      FilterMembers(t.rows, keep, d);
    }
  }
}

=== FILE: dto.dfy ===
/** The request and response shapes of backend/src/auth/dto/dto.ts and the
    class-validator rules the global validation pipe applies to them. */
module Dto {
  import opened Wrappers
  import opened UserEntity
  import opened Errors

  datatype LoginDto = LoginDto(userIdentifier: string, password: string)

  datatype RegisterDto = RegisterDto(firstName: string, lastName: string, username: string, email: string, password: string)

  datatype UpdateRoleDto = UpdateRoleDto(role: string)

  /** Every field optional; the pipe's whitelist strips any other field. */
  datatype UpdateProfileDto = UpdateProfileDto(firstName: Option<string>, lastName: Option<string>, username: Option<string>)

  /** What register returns and login extends; it has no password field. */
  datatype UserResponseDto = UserResponseDto(
    id: nat, username: string, email: string,
    firstName: Option<string>, lastName: Option<string>, accessToken: Option<string>)

  const MinPasswordLength: nat := 6

  /** `@IsNotEmpty()` on a string. */
  predicate NotEmpty(s: string) {
    s != ""
  }

  /** The variation selectors VS15 and VS16, which `isLength` leaves out of
      a string's length. */
  predicate IsVariationSelector(c: char) {
    c == '\U{FE0E}' || c == '\U{FE0F}'
  }

  /** The length class-validator's `isLength` (behind `@MinLength`) measures:
      one per code point, with the two variation selectors not counted. */
  function ValidatorLength(s: string): (n: nat)
    ensures n <= |s|
    ensures n == |s| <==> forall i :: 0 <= i < |s| ==> !IsVariationSelector(s[i])
  {
    if s == [] then 0
    else (if IsVariationSelector(s[0]) then 0 else 1) + ValidatorLength(s[1..])
  }

  /** `@MinLength(6)` together with `@IsNotEmpty()` on the password. */
  predicate PasswordAccepted(p: string) {
    NotEmpty(p) && ValidatorLength(p) >= MinPasswordLength
  }

  /** The error the global validation pipe throws for a body that breaks a
      rule, before any handler runs. */
  const ValidationFailure: HttpError := BadRequest("Bad Request")

  /** The rules on a login body. */
  predicate LoginAccepted(d: LoginDto) {
    NotEmpty(d.userIdentifier) && PasswordAccepted(d.password)
  }

  /** The rules on a registration body; `isEmail` is class-validator's
      `@IsEmail()`, not modelled. */
  predicate RegisterAccepted(d: RegisterDto, isEmail: string -> bool) {
    && NotEmpty(d.firstName) && NotEmpty(d.lastName) && NotEmpty(d.username)
    && isEmail(d.email) && NotEmpty(d.email)
    && PasswordAccepted(d.password)
  }

  /** The names `@IsIn` admits for a role update. */
  const AssignableRoleNames: seq<string> := ["teammember", "admin", "owner"]

  /** The role an update carries, when `@IsIn` admits it. */
  function AcceptedRole(d: UpdateRoleDto): (r: Option<Role>)
    ensures r.Some? <==> d.role in AssignableRoleNames
    ensures r.Some? ==> RoleName(r.value) == d.role
  {
    if d.role in AssignableRoleNames then ParseRole(d.role) else None
  }

  /** Exactly the non-default roles can be assigned, and the column default
      `normal` is not among them. */
  lemma AssignableRoles(r: Role)
    ensures AcceptedRole(UpdateRoleDto(RoleName(r))) == (if r == Normal then None else Some(r))
  {
  }

  /** A password is accepted exactly when it has six counted characters, so
      the empty one is refused; without variation selectors that is six
      characters, and five letters padded with VS16 are still refused. */
  lemma PasswordBoundary(p: string)
    ensures PasswordAccepted(p) <==> ValidatorLength(p) >= MinPasswordLength
    ensures (forall i :: 0 <= i < |p| ==> !IsVariationSelector(p[i])) ==> (PasswordAccepted(p) <==> |p| >= MinPasswordLength)
    ensures !PasswordAccepted("abcde\U{FE0F}")
  {
    assert "abcde\U{FE0F}"[1..] == "bcde\U{FE0F}";
    assert "bcde\U{FE0F}"[1..] == "cde\U{FE0F}";
    assert "cde\U{FE0F}"[1..] == "de\U{FE0F}";
    assert "de\U{FE0F}"[1..] == "e\U{FE0F}";
    assert "e\U{FE0F}"[1..] == "\U{FE0F}";
  }
}

=== FILE: edit_users_page.dfy ===
/** The user-management page (frontend/src/app/edit-users/page.tsx): the
    actions it offers on each listed user and how it updates its list after
    the backend answers. */
module EditUsersPage {
  import opened Wrappers
  import opened Seqs
  import opened UserEntity
  import opened Permissions

  /** A listed user, as `GET /admin/all` returns it. */
  datatype Row = Row(id: nat, username: string, firstName: string, lastName: string, role: Role)

  /** What an API call produced: a body with a `status`, or an exception. */
  datatype Reply = Replied(status: string) | Threw

  predicate Succeeded(reply: Reply) {
    reply == Replied("success")
  }

  /** `prevUsers.map(user => user.id === id ? { ...user, role } : user)`. */
  function SetRole(rows: seq<Row>, id: nat, role: Role): (r: seq<Row>)
    ensures |r| == |rows|
    ensures forall i :: 0 <= i < |rows| ==> r[i] == (if rows[i].id == id then rows[i].(role := role) else rows[i])
  {
    seq(|rows|, i requires 0 <= i < |rows| => if rows[i].id == id then rows[i].(role := role) else rows[i])
  }

  /** `handleMakeAdmin`: the list changes only on a successful reply. */
  function MakeAdmin(rows: seq<Row>, id: nat, reply: Reply): seq<Row> {
    if Succeeded(reply) then SetRole(rows, id, Admin) else rows
  }

  /** `handleRemoveAdmin`. */
  function RemoveAdmin(rows: seq<Row>, id: nat, reply: Reply): seq<Row> {
    if Succeeded(reply) then SetRole(rows, id, TeamMember) else rows
  }

  /** After a successful make-admin every entry with the id is an admin and
      every other entry is as it was, in the same place; any other reply
      leaves the list alone. The same holds for remove-admin with team member. */
  lemma RoleChangeEffect(rows: seq<Row>, id: nat, reply: Reply)
    ensures !Succeeded(reply) ==> MakeAdmin(rows, id, reply) == rows && RemoveAdmin(rows, id, reply) == rows
    ensures Succeeded(reply) ==> |MakeAdmin(rows, id, reply)| == |rows| && |RemoveAdmin(rows, id, reply)| == |rows|
    ensures Succeeded(reply) ==> forall i :: 0 <= i < |rows| ==>
      && (MakeAdmin(rows, id, reply)[i].role == if rows[i].id == id then Admin else rows[i].role)
      && (RemoveAdmin(rows, id, reply)[i].role == if rows[i].id == id then TeamMember else rows[i].role)
      && MakeAdmin(rows, id, reply)[i].id == rows[i].id
      && RemoveAdmin(rows, id, reply)[i].id == rows[i].id
  {
  }

  /** The delete modal's state: the list, the selected id and whether the modal is open. */
  datatype DeleteState = DeleteState(rows: seq<Row>, selected: Option<nat>, modalOpen: bool)

  function NotId(id: nat): Row -> bool {
    (u: Row) => u.id != id
  }

  /** `handleDeleteUser`: nothing happens without a selection (the early
      return skips the `finally`); otherwise the entries with the selected id
      go on success and the modal closes whatever the reply. */
  function DeleteSelected(s: DeleteState, reply: Reply): (r: DeleteState)
    ensures s.selected.None? ==> r == s
    ensures s.selected.Some? ==> !r.modalOpen && r.selected == s.selected
    ensures !Succeeded(reply) ==> r.rows == s.rows
  {
    match s.selected
    case None => s
    case Some(id) =>
      s.(rows := if Succeeded(reply) then Filter(s.rows, NotId(id)) else s.rows, modalOpen := false)
  }

  /** A successful delete keeps exactly the entries with other ids, in order. */
  lemma DeleteSelectedExactly(s: DeleteState, reply: Reply, u: Row)
    requires s.selected.Some? && Succeeded(reply)
    ensures u in DeleteSelected(s, reply).rows <==> u in s.rows && u.id != s.selected.value
    ensures IsSubsequence(DeleteSelected(s, reply).rows, s.rows)
  {
    FilterMembers(s.rows, NotId(s.selected.value), u);
    FilterIsSubsequence(s.rows, NotId(s.selected.value));
  }

  datatype Action = MakeAdminAction | RemoveAdminAction | DeleteAction

  /** The buttons shown on `row` to the viewer with id `viewerId` whose role
      has loaded as `viewerRole` (nothing before it loads). */
  function Actions(viewerId: nat, viewerRole: Option<Role>, row: Row): (r: set<Action>)
    ensures row.id == viewerId || viewerRole.None? ==> r == {}
  {
    if row.id == viewerId || viewerRole.None? then {}
    else if viewerRole.value == Owner then
      (if row.role == TeamMember then {MakeAdminAction} else {})
      + (if row.role == Admin then {RemoveAdminAction} else {})
      + {DeleteAction}
    else if viewerRole.value == Admin && row.role == TeamMember then {MakeAdminAction, DeleteAction}
    else {}
  }

  /** The visibility rule: nothing on one's own row; an owner gets make-admin
      on team members, remove-admin on admins and delete on everyone else; an
      admin gets make-admin and delete on team members only; nobody else gets
      anything. */
  lemma ActionsRule(viewerId: nat, viewerRole: Option<Role>, row: Row, a: Action)
    ensures a in Actions(viewerId, viewerRole, row) <==>
      && row.id != viewerId && viewerRole.Some?
      && match a
         case MakeAdminAction => row.role == TeamMember && ManagesUsers(viewerRole.value)
         case RemoveAdminAction => row.role == Admin && viewerRole.value == Owner
         case DeleteAction => viewerRole.value == Owner || (viewerRole.value == Admin && row.role == TeamMember)
  {
  }

  /** On any row that is not an owner's, every button the page shows is one
      the backend's role policy accepts for the same viewer. */
  lemma ActionsAllowedByBackend(viewerId: nat, viewerRole: Role, row: Row)
    requires row.role != Owner
    ensures MakeAdminAction in Actions(viewerId, Some(viewerRole), row) ==> MayUpdateRole(viewerRole, row.role, Admin)
    ensures RemoveAdminAction in Actions(viewerId, Some(viewerRole), row) ==> MayUpdateRole(viewerRole, row.role, TeamMember)
    ensures DeleteAction in Actions(viewerId, Some(viewerRole), row) ==> MayDeleteUser(viewerRole, row.role)
  {
  }

  /** The exception: an owner is offered delete on another owner's row, which
      the backend always refuses. */
  lemma OwnerRowDeleteRefused(viewerId: nat, row: Row)
    requires row.id != viewerId && row.role == Owner
    ensures DeleteAction in Actions(viewerId, Some(Owner), row)
    ensures !MayDeleteUser(Owner, row.role)
  {
  }
}

=== FILE: errors.dfy ===
/** The exceptions the backend throws, by the HTTP status Nest maps them to.
    A plain `Error`, a `TypeError` from reading a property of `null`, and a
    database constraint failure all surface as `InternalError` (status 500). */
module Errors {

  datatype HttpError =
    | BadRequest(message: string)    // BadRequestException, 400
    | Unauthorized(message: string)  // UnauthorizedException, 401
    | Forbidden(message: string)     // ForbiddenException, 403
    | NotFound(message: string)      // NotFoundException, 404
    | InternalError(message: string) // anything else, 500

  /** The `TypeError` JavaScript raises when a property of `null` is read. */
  function NullRead(property: string): HttpError {
    InternalError("Cannot read properties of null (reading '" + property + "')")
  }

  /** The same `TypeError` for a property of `undefined`. */
  function UndefinedRead(property: string): HttpError {
    InternalError("Cannot read properties of undefined (reading '" + property + "')")
  }
}

=== FILE: file_utils.dfy ===
/** The extraction helpers of backend/src/files/file-utils.ts. The parsing
    libraries (pdf-parse, csv-parser, xlsx) and `JSON.stringify` are parameters;
    what is modelled is how their outputs are resolved, ordered and joined. */
module FileUtils {
  import opened Wrappers
  import opened Strings

  /** One row csv-parser emits: header name to cell, in header order. */
  type CsvRecord = seq<(string, string)>

  /** One sheet as `sheet_to_json(sheet, { header: 1 })` gives it: rows of cells. */
  type SheetRows = seq<seq<string>>

  /** How a CSV read ends after its `data` events: `end`, an `error` raised
      by csv-parser, or an `error` raised by the file read stream itself (a
      missing or unreadable file). */
  datatype StreamEnd = Ended | ParserError(message: string) | ReadError(message: string)

  /** The records csv-parser emits, in order, and how the read ends. */
  datatype CsvStream = CsvStream(records: seq<CsvRecord>, end: StreamEnd)

  /** How a helper's promise turns out: it settles (resolves or rejects), or
      an exception escapes past it, the promise never settles, and Node ends
      the process. */
  datatype Settlement<+T> = Settled(result: Result<T, string>) | Uncaught(error: string) {

    /** The promise settled as a rejection. */
    predicate Rejects() {
      Settled? && result.Failure?
    }
  }

  /** A workbook as `xlsx.readFile` returns it. */
  datatype Workbook = Workbook(sheetNames: seq<string>, sheets: map<string, SheetRows>)

  /** The foreign functions, each applied to a resolved path. `basePath` is
      BASE_PATH, the directory three levels above the compiled module. */
  datatype Libraries = Libraries(
    basePath: string,
    pdfText: string -> Result<string, string>,         // readFileSync + pdfParse, then `.text`
    csvStream: string -> CsvStream,                    // createReadStream(...).pipe(csvParser())
    readWorkbook: string -> Result<Workbook, string>,  // xlsx.readFile
    stringifyRecord: CsvRecord -> string,              // JSON.stringify of one CSV row object
    stringifySheet: SheetRows -> string)               // JSON.stringify of one sheet's rows

  const Newline: char := '\n'

  /** `path.join(BASE_PATH, filePath)`. */
  function FullPath(basePath: string, filePath: string): string {
    basePath + "/" + filePath
  }

  /** `extractPDFText`: the parser's text for the resolved path, unchanged; a
      failed read or parse rejects with its message. Only the file at
      `path.join(BASE_PATH, filePath)` is consulted. */
  function ExtractPdfText(filePath: string, libs: Libraries): (r: Result<string, string>)
    ensures r == libs.pdfText(libs.basePath + "/" + filePath)
  {
    libs.pdfText(FullPath(libs.basePath, filePath))
  }

  /** Each CSV record serialised, in stream order. */
  function SerialisedRecords(records: seq<CsvRecord>, libs: Libraries): (lines: seq<string>)
    ensures |lines| == |records|
    ensures forall i :: 0 <= i < |records| ==> lines[i] == libs.stringifyRecord(records[i])
  {
    seq(|records|, i requires 0 <= i < |records| => libs.stringifyRecord(records[i]))
  }

  /** `parseCSV`. The `error` handler is attached to the csv-parser stream
      only: a csv-parser error rejects, but an error of the file read stream
      is an `error` event with no listener, which escapes as an uncaught
      exception while the promise never settles. A stream that ends resolves
      to the serialised records joined by newlines. */
  function ParseCsv(filePath: string, libs: Libraries): (r: Settlement<string>)
    ensures r.Uncaught? <==> libs.csvStream(FullPath(libs.basePath, filePath)).end.ReadError?
    ensures r.Rejects() <==> libs.csvStream(FullPath(libs.basePath, filePath)).end.ParserError?
    ensures r.Uncaught? ==> r.error == libs.csvStream(FullPath(libs.basePath, filePath)).end.message
    ensures r.Rejects() ==> r.result.error == libs.csvStream(FullPath(libs.basePath, filePath)).end.message
  {
    var stream := libs.csvStream(FullPath(libs.basePath, filePath));
    match stream.end
    case ReadError(message) => Uncaught(message)
    case ParserError(message) => Settled(Failure(message))
    case Ended => Settled(Success(Join(SerialisedRecords(stream.records, libs), [Newline])))
  }

  /** The rows of a named sheet; `sheet_to_json` of a missing sheet is `[]`. */
  function SheetOf(wb: Workbook, name: string): SheetRows {
    if name in wb.sheets then wb.sheets[name] else []
  }

  /** Each sheet serialised, in `SheetNames` order. */
  function SerialisedSheets(wb: Workbook, libs: Libraries): (lines: seq<string>)
    ensures |lines| == |wb.sheetNames|
    ensures forall i :: 0 <= i < |wb.sheetNames| ==> lines[i] == libs.stringifySheet(SheetOf(wb, wb.sheetNames[i]))
  {
    seq(|wb.sheetNames|, i requires 0 <= i < |wb.sheetNames| => libs.stringifySheet(SheetOf(wb, wb.sheetNames[i])))
  }

  /** `parseExcel`: fails when the workbook cannot be read, otherwise one
      serialised row array per sheet joined by newlines. */
  function ParseExcel(filePath: string, libs: Libraries): (r: Result<string, string>)
    ensures r.Failure? <==> libs.readWorkbook(FullPath(libs.basePath, filePath)).Failure?
  {
    match libs.readWorkbook(FullPath(libs.basePath, filePath))
    case Failure(message) => Failure(message)
    case Success(wb) => Success(Join(SerialisedSheets(wb, libs), [Newline]))
  }

  /** JSON text never holds a raw line break (`JSON.stringify` escapes it); the
      lemmas below assume this of the serialiser. */
  ghost predicate LineFree(lines: seq<string>) {
    forall i :: 0 <= i < |lines| ==> Newline !in lines[i]
  }

  /** A finished CSV stream resolves to text whose lines are exactly the
      serialised records, in stream order, with one newline between records
      and none after the last. */
  lemma ParseCsvLines(filePath: string, libs: Libraries)
    requires var s := libs.csvStream(FullPath(libs.basePath, filePath));
      s.end == Ended && |s.records| >= 1 && LineFree(SerialisedRecords(s.records, libs))
    ensures ParseCsv(filePath, libs).Settled? && ParseCsv(filePath, libs).result.Success?
    ensures var s := libs.csvStream(FullPath(libs.basePath, filePath));
      && Split(ParseCsv(filePath, libs).result.value, Newline) == SerialisedRecords(s.records, libs)
      && Count(ParseCsv(filePath, libs).result.value, Newline) == |s.records| - 1
  {
    var lines := SerialisedRecords(libs.csvStream(FullPath(libs.basePath, filePath)).records, libs);
    SplitJoin(lines, Newline);
    JoinSeparatorCount(lines, Newline);
  }

  /** A finished stream with no records resolves to the empty string; a
      csv-parser error rejects, and a read error escapes, with its message and
      whatever rows came first; no partial text is ever delivered. */
  lemma ParseCsvEdges(filePath: string, libs: Libraries)
    ensures var s := libs.csvStream(FullPath(libs.basePath, filePath));
      && (s.end == Ended && s.records == [] ==> ParseCsv(filePath, libs) == Settled(Success("")))
      && (s.end.ParserError? ==> ParseCsv(filePath, libs) == Settled(Failure(s.end.message)))
      && (s.end.ReadError? ==> ParseCsv(filePath, libs) == Uncaught(s.end.message))
  {
  }

  /** A readable workbook gives one line per sheet, in `SheetNames` order, with
      no trailing newline. */
  lemma ParseExcelLines(filePath: string, libs: Libraries)
    requires var w := libs.readWorkbook(FullPath(libs.basePath, filePath));
      w.Success? && |w.value.sheetNames| >= 1 && LineFree(SerialisedSheets(w.value, libs))
    ensures ParseExcel(filePath, libs).Success?
    ensures var wb := libs.readWorkbook(FullPath(libs.basePath, filePath)).value;
      && Split(ParseExcel(filePath, libs).value, Newline) == SerialisedSheets(wb, libs)
      && Count(ParseExcel(filePath, libs).value, Newline) == |wb.sheetNames| - 1
  {
    var lines := SerialisedSheets(libs.readWorkbook(FullPath(libs.basePath, filePath)).value, libs);
    SplitJoin(lines, Newline);
    JoinSeparatorCount(lines, Newline);
  }

  /** A workbook without sheets gives the empty string. */
  lemma ParseExcelNoSheets(filePath: string, libs: Libraries)
    requires var w := libs.readWorkbook(FullPath(libs.basePath, filePath));
      w.Success? && w.value.sheetNames == []
    ensures ParseExcel(filePath, libs) == Success("")
  {
  }

  /** The three helpers read only the file at `path.join(BASE_PATH, filePath)`:
      libraries that agree there give the same results. */
  lemma ReadOnlyResolvedPath(filePath: string, a: Libraries, b: Libraries)
    requires a.basePath == b.basePath
    requires var p := FullPath(a.basePath, filePath);
      a.pdfText(p) == b.pdfText(p) && a.csvStream(p) == b.csvStream(p) && a.readWorkbook(p) == b.readWorkbook(p)
    requires a.stringifyRecord == b.stringifyRecord && a.stringifySheet == b.stringifySheet
    ensures ExtractPdfText(filePath, a) == ExtractPdfText(filePath, b)
    ensures ParseCsv(filePath, a) == ParseCsv(filePath, b)
    ensures ParseExcel(filePath, a) == ParseExcel(filePath, b)
  {
    var p := FullPath(a.basePath, filePath);
    assert SerialisedRecords(a.csvStream(p).records, a) == SerialisedRecords(b.csvStream(p).records, b);
    if a.readWorkbook(p).Success? {
      assert SerialisedSheets(a.readWorkbook(p).value, a) == SerialisedSheets(b.readWorkbook(p).value, b);
    }
  }
}

=== FILE: file_validation.dfy ===
/** The upload middleware (backend/src/files/file-validation.middleware.ts):
    it inspects only the first uploaded file. `Success(())` stands for the
    call to `next()`. */
module FileValidation {
  import opened Wrappers
  import opened Errors
  import opened MimeTypes
  import opened FileService

  /** 10 MiB. */
  const MaxFileSize: nat := 10 * 1024 * 1024

  const AcceptedTypes: seq<string> := [PdfType, JpegType, PngType, CsvType]

  /** `use(req, res, next)`; `files` is `req.files`, absent when the request
      carried no multipart body. */
  function Use(files: Option<seq<MulterFile>>): (r: Result<(), HttpError>)
    ensures files.None? ==> r == Failure(UndefinedRead("0"))
    ensures files == Some([]) ==> r == Failure(UndefinedRead("size"))
    ensures r.Success? <==> (&& files.Some? && |files.value| > 0
                             && files.value[0].size <= MaxFileSize && files.value[0].mimetype in AcceptedTypes)
  {
    match files
    case None => Failure(UndefinedRead("0"))
    case Some(fs) =>
      if |fs| == 0 then Failure(UndefinedRead("size"))
      else if fs[0].size > MaxFileSize then Failure(BadRequest("File size exceeds limit"))
      else if fs[0].mimetype !in AcceptedTypes then Failure(BadRequest("Invalid file type"))
      else Success(())
  }

  /** Only the first file is looked at: whatever follows it, the verdict is the same. */
  lemma OnlyFirstFileChecked(first: MulterFile, rest: seq<MulterFile>, other: seq<MulterFile>)
    ensures Use(Some([first] + rest)) == Use(Some([first] + other))
  {
  }

  /** The size check comes first: an oversized file is refused for its size
      even when its type is also wrong. */
  lemma SizeCheckedBeforeType(files: seq<MulterFile>)
    requires |files| > 0 && files[0].size > MaxFileSize
    ensures Use(Some(files)) == Failure(BadRequest("File size exceeds limit"))
  {
  }

  /** Exactly 10 MiB passes; one byte more does not. */
  lemma SizeBoundary(f: MulterFile)
    requires f.mimetype == PdfType
    ensures Use(Some([f])).Success? <==> f.size <= 10485760
  {
  }

  /** The spreadsheet types the processor can read are refused here, and so
      are image types other than JPEG and PNG. */
  lemma SpreadsheetsAndOtherImagesRefused(f: MulterFile)
    requires f.size <= MaxFileSize
    requires f.mimetype == XlsxType || f.mimetype == XlsType || f.mimetype == "image/gif"
    ensures Use(Some([f])) == Failure(BadRequest("Invalid file type"))
  {
  }
}

=== FILE: files_page.dfy ===
/** The file browser page (frontend/src/app/files/page.tsx): the search
    filters it sends and the icon it shows for a file type. */
module FilesPage {
  import opened Wrappers
  import opened Strings
  import opened MimeTypes
  import FileUploadProcessor

  /** The query `handleSearch` builds; an absent field is not sent. */
  datatype SearchFilters = SearchFilters(fileName: Option<string>, fileType: Option<string>)

  /** `handleSearch`'s filter: the trimmed name when anything is left of it,
      the selected type when one is selected. */
  function Filters(fileName: string, fileType: string): (r: SearchFilters)
    ensures r.fileType.Some? <==> fileType != ""
    ensures r.fileType.Some? ==> r.fileType.value == fileType
    ensures r.fileName.Some? ==> r.fileName.value == Trim(fileName)
  {
    SearchFilters(
      if Trim(fileName) != "" then Some(Trim(fileName)) else None,
      if fileType != "" then Some(fileType) else None)
  }

  /** The name filter is sent exactly when the input has a non-white-space
      character, and then it neither starts nor ends with white space. */
  lemma NameFilterIff(fileName: string, fileType: string)
    ensures Filters(fileName, fileType).fileName.Some? <==>
      exists i :: 0 <= i < |fileName| && !IsWhitespace(fileName[i])
    ensures Filters(fileName, fileType).fileName.Some? ==>
      var v := Filters(fileName, fileType).fileName.value;
      v != "" && !IsWhitespace(v[0]) && !IsWhitespace(v[|v| - 1])
  {
    TrimEmptyIff(fileName);
    TrimBoundaries(fileName);
  }

  /** Unicode space separators count as white space too: a name made of an
      ideographic space and a figure space sends no name filter. */
  lemma UnicodeSpacesSendNoName(fileType: string)
    ensures Filters("\U{3000}\U{2007}", fileType).fileName.None?
  {
    TrimEmptyIff("\U{3000}\U{2007}");
  }

  datatype Icon = ImageIcon | PdfIcon | ExcelIcon | GenericIcon

  /** `getFileIcon`: the `image/` test comes first, so an image type never
      gets another icon, and only the three named document types get a
      specific one. */
  function FileIcon(fileType: string): (r: Icon)
    ensures StartsWith(fileType, ImagePrefix) ==> r == ImageIcon
    ensures r == PdfIcon ==> fileType == PdfType
    ensures r == ExcelIcon ==> fileType == XlsType || fileType == XlsxType
    ensures fileType != PdfType && fileType != XlsType && fileType != XlsxType && !StartsWith(fileType, ImagePrefix)
      ==> r == GenericIcon
  {
    if StartsWith(fileType, ImagePrefix) then ImageIcon
    else if fileType == PdfType then PdfIcon
    else if fileType == XlsType || fileType == XlsxType then ExcelIcon
    else GenericIcon
  }

  /** Each icon by its own condition: every type gets exactly one, CSV
      included among the generic ones. */
  lemma IconTable(fileType: string)
    ensures FileIcon(fileType) == ImageIcon <==> StartsWith(fileType, ImagePrefix)
    ensures FileIcon(fileType) == PdfIcon <==> fileType == PdfType
    ensures FileIcon(fileType) == ExcelIcon <==> fileType == XlsType || fileType == XlsxType
    ensures FileIcon(fileType) == GenericIcon <==>
      !StartsWith(fileType, ImagePrefix) && fileType !in {PdfType, XlsType, XlsxType}
    ensures FileIcon(CsvType) == GenericIcon
  {
    NamedTypesNotImages();
  }

  /** The icon tells what the upload processor extracted, except for the
      legacy Excel type, which gets the spreadsheet icon but no extraction,
      and CSV, which is extracted but shown as a plain file. */
  lemma IconMatchesExtraction(fileType: string)
    ensures FileIcon(fileType) == ImageIcon <==> FileUploadProcessor.SelectExtractor(fileType) == FileUploadProcessor.ImageOcr
    ensures FileIcon(fileType) == PdfIcon <==> FileUploadProcessor.SelectExtractor(fileType) == FileUploadProcessor.PdfText
    ensures FileIcon(fileType) == ExcelIcon <==>
      FileUploadProcessor.SelectExtractor(fileType) == FileUploadProcessor.ExcelSheets || fileType == XlsType
    ensures FileUploadProcessor.SelectExtractor(XlsType) == FileUploadProcessor.NoExtractor
    ensures FileUploadProcessor.SelectExtractor(CsvType) == FileUploadProcessor.CsvRows && FileIcon(CsvType) == GenericIcon
  {
    IconTable(fileType);
    IconTable(CsvType);
    FileUploadProcessor.DispatchTable(fileType);
    FileUploadProcessor.DispatchTable(XlsType);
    FileUploadProcessor.DispatchTable(CsvType);
  }
}

=== FILE: files_service.dfy ===
/** `FileService` (backend/src/files/files.service.ts): enqueueing uploads,
    creating document rows, recording extraction results, listing and lookup. */
module FileService {
  import opened Wrappers
  import opened Strings
  import opened Seqs
  import opened Errors
  import opened DocumentEntity

  /** An uploaded file as multer describes it; `filename` is set only when the
      file was written to disk storage. */
  datatype MulterFile = MulterFile(originalname: string, mimetype: string, filename: Option<string>, size: nat)

  /** A queued job: its name and its data `{ file, userId }`. */
  datatype Job = Job(name: string, file: MulterFile, userId: nat)

  const UploadJobName: string := "upload-file"

  /** `uploadFiles`: one `upload-file` job per file, added to the queue in the
      order of `files`. */
  function UploadFiles(queue: seq<Job>, files: seq<MulterFile>, userId: nat): (q: seq<Job>)
    ensures |q| == |queue| + |files|
    ensures q[..|queue|] == queue
    ensures forall i :: 0 <= i < |files| ==> q[|queue| + i] == Job(UploadJobName, files[i], userId)
    decreases |files|
  {
    if |files| == 0 then queue
    else UploadFiles(queue + [Job(UploadJobName, files[0], userId)], files[1..], userId)
  }

  /** The path a row records: `uploads/` and the stored name, or the original
      name when multer set none. */
  function StoredPath(file: MulterFile): string {
    "uploads/" + file.filename.GetOr(file.originalname)
  }

  /** `saveFile`: a new PENDING row describing the upload, owned by `userId`. */
  function SaveFile(t: DocumentTable, file: MulterFile, userId: nat, now: nat): (r: (DocumentTable, Document))
    ensures r.1 == Document(t.nextId, file.originalname, file.mimetype, StoredPath(file), Pending, None, now, userId)
    ensures r.0.rows == t.rows + [r.1] && r.0.nextId == t.nextId + 1
  {
    Insert(t, Create(file.originalname, file.mimetype, StoredPath(file), userId, now))
  }

  /** In a valid table the saved upload is what `getFileDetails` returns for
      the new id, which no earlier row held; the row describes the upload,
      PENDING and owned by the caller; every other id's details are as
      before; and the table stays valid. */
  lemma SaveFileThenDetails(t: DocumentTable, file: MulterFile, userId: nat, now: nat)
    requires Valid(t)
    ensures var (t', d) := SaveFile(t, file, userId, now);
      && GetFileDetails(t, d.id).None? && GetFileDetails(t', d.id) == Some(d)
      && d.fileName == file.originalname && d.fileType == file.mimetype && d.filePath == StoredPath(file)
      && d.status == Pending && d.extractedData == None && d.userId == userId
      && (forall id :: id != d.id ==> GetFileDetails(t', id) == GetFileDetails(t, id))
      && Valid(t')
  {
    var d := Create(file.originalname, file.mimetype, StoredPath(file), userId, now);
    InsertFindById(t, d);
    InsertValid(t, d);
  }

  /** Two uploads by the same user get the same recorded path exactly when
      multer gave neither a stored name and their original names agree, or it
      gave both the same stored name. */
  lemma StoredPathCollision(a: MulterFile, b: MulterFile)
    requires a.filename.None? && b.filename.None?
    ensures StoredPath(a) == StoredPath(b) <==> a.originalname == b.originalname
  {
    if StoredPath(a) == StoredPath(b) {
      assert StoredPath(a)[8..] == a.originalname;
      assert StoredPath(b)[8..] == b.originalname;
    }
  }

  /** The row `saveExtractedData` looks for: same path, same owner. */
  predicate Matches(d: Document, filePath: string, userId: nat) {
    d.filePath == filePath && d.userId == userId
  }

  /** `d` with the extraction result recorded. */
  function WithResult(d: Document, data: string): Document {
    d.(extractedData := Some(data), status := Completed)
  }

  /** `saveExtractedData`: the first row with this path and owner gets the data
      and status COMPLETED; without such a row it throws and nothing changes.
      `fileLabel` is the argument's `originalname` (absent on a document row,
      which prints as `undefined`). */
  function SaveExtractedData(t: DocumentTable, filePath: string, userId: nat, fileLabel: Option<string>, data: string)
    : (r: Result<(DocumentTable, Document), HttpError>)
    ensures r.Failure? <==> forall i :: 0 <= i < |t.rows| ==> !Matches(t.rows[i], filePath, userId)
    ensures r.Failure? ==> r.error == InternalError(
      "File with name " + fileLabel.GetOr("undefined") + " not found for user " + NatToString(userId))
    ensures r.Success? ==> exists k :: (
      && 0 <= k < |t.rows| && Matches(t.rows[k], filePath, userId)
      && (forall j :: 0 <= j < k ==> !Matches(t.rows[j], filePath, userId))
      && r.value.1 == WithResult(t.rows[k], data)
      && r.value.0 == DocumentTable(t.rows[k := r.value.1], t.nextId))
  {
    match FindFirst(t.rows, (d: Document) => Matches(d, filePath, userId))
    case None =>
      Failure(InternalError("File with name " + fileLabel.GetOr("undefined") + " not found for user " + NatToString(userId)))
    case Some(k) =>
      var updated := WithResult(t.rows[k], data);
      Success((DocumentTable(t.rows[k := updated], t.nextId), updated))
  }

  /** Recording a result changes only `extractedData` and `status` of one row:
      ids, names, types, paths, owners and timestamps all stay, and so does
      every other row. */
  lemma SaveExtractedDataFrame(t: DocumentTable, filePath: string, userId: nat, fileLabel: Option<string>, data: string)
    requires SaveExtractedData(t, filePath, userId, fileLabel, data).Success?
    ensures var (t', d) := SaveExtractedData(t, filePath, userId, fileLabel, data).value;
      && |t'.rows| == |t.rows| && t'.nextId == t.nextId
      && d.status == Completed && d.extractedData == Some(data)
      && OnlyResultChanged(t.rows, t'.rows, d)
  {
  }

  /** All rows agree except the one whose id is `d.id`, which becomes `d` with
      only its result fields different. */
  ghost predicate OnlyResultChanged(before: seq<Document>, after: seq<Document>, d: Document) {
    |before| == |after| &&
    exists k :: (
      && 0 <= k < |before| && after[k] == d
      && d == before[k].(extractedData := d.extractedData, status := d.status)
      && forall j :: 0 <= j < |before| && j != k ==> after[j] == before[j])
  }

  /** After a successful record, the table holds a COMPLETED row with the
      path and owner looked for. */
  lemma SaveExtractedDataCompletes(t: DocumentTable, filePath: string, userId: nat, fileLabel: Option<string>, data: string)
    requires SaveExtractedData(t, filePath, userId, fileLabel, data).Success?
    ensures var t' := SaveExtractedData(t, filePath, userId, fileLabel, data).value.0;
      exists k :: 0 <= k < |t'.rows| && Matches(t'.rows[k], filePath, userId) && t'.rows[k].status == Completed
  {
    var (t', d) := SaveExtractedData(t, filePath, userId, fileLabel, data).value;
    var k :| 0 <= k < |t.rows| && Matches(t.rows[k], filePath, userId) && d == WithResult(t.rows[k], data)
      && t' == DocumentTable(t.rows[k := d], t.nextId);
    assert t'.rows[k] == d;
  }

  /** Recording a result keeps ids unique and increasing. */
  lemma SaveExtractedDataValid(t: DocumentTable, filePath: string, userId: nat, fileLabel: Option<string>, data: string)
    requires Valid(t) && SaveExtractedData(t, filePath, userId, fileLabel, data).Success?
    ensures Valid(SaveExtractedData(t, filePath, userId, fileLabel, data).value.0)
  {
    var rows := SaveExtractedData(t, filePath, userId, fileLabel, data).value.0.rows;
    forall i, j | 0 <= i < j < |rows|
      ensures IdBefore(rows[i], rows[j])
    {
      assert rows[i].id == t.rows[i].id && rows[j].id == t.rows[j].id;
      assert IdBefore(t.rows[i], t.rows[j]);
    }
  }

  /** One page of `findAndCount({ skip: (page - 1) * limit, take: limit })`. */
  datatype FilePage = FilePage(data: seq<Document>, total: nat)

  /** The offset a page starts at; a negative skip reads as zero. */
  function PageStart(page: int, limit: int): nat {
    if (page - 1) * limit > 0 then (page - 1) * limit else 0
  }

  function Min(a: nat, b: nat): nat {
    if a < b then a else b
  }

  /** `getFiles`: the rows from the page's offset on, at most `limit` of them
      when `limit` is positive (otherwise all of them), with the total row count. */
  function GetFiles(t: DocumentTable, page: int, limit: int): (r: FilePage)
    ensures r.total == |t.rows|
    ensures limit > 0 ==> |r.data| <= limit
    ensures forall i :: 0 <= i < |r.data| ==>
      (PageStart(page, limit) + i < |t.rows| && r.data[i] == t.rows[PageStart(page, limit) + i])
    ensures (limit <= 0 || |r.data| < limit) ==> PageStart(page, limit) + |r.data| >= |t.rows|
  {
    var start := Min(PageStart(page, limit), |t.rows|);
    var end := if limit > 0 then Min(start + limit, |t.rows|) else |t.rows|;
    FilePage(t.rows[start..end], |t.rows|)
  }

  /** Pages 1 to `n`, one after another. */
  function FirstPages(t: DocumentTable, n: nat, limit: int): seq<Document>
    decreases n
  {
    if n == 0 then [] else FirstPages(t, n - 1, limit) + GetFiles(t, n, limit).data
  }

  /** With a positive limit, pages 1 to `n` read the table's first `n * limit`
      rows in order, each exactly once: paging neither skips nor repeats a row. */
  lemma {:induction false} PagesTile(t: DocumentTable, n: nat, limit: int)
    requires limit > 0
    ensures FirstPages(t, n, limit) == t.rows[..Min(n * limit, |t.rows|)]
    decreases n
  {
    if n > 0 {
      PagesTile(t, n - 1, limit);
      var a := Min((n - 1) * limit, |t.rows|);
      var b := Min(n * limit, |t.rows|);
      assert PageStart(n, limit) == (n - 1) * limit;
      assert GetFiles(t, n, limit).data == t.rows[a..b];
      assert t.rows[..a] + t.rows[a..b] == t.rows[..b];
    }
  }

  /** `getFileDetails`: the row with the given id, or nothing. */
  function GetFileDetails(t: DocumentTable, id: nat): (r: Option<Document>)
    ensures r.Some? ==> r.value in t.rows && r.value.id == id
    ensures r.None? <==> forall i :: 0 <= i < |t.rows| ==> t.rows[i].id != id
  {
    FindById(t, id)
  }
}

=== FILE: js_number.dfy ===
/** The JavaScript number a string of decimal digits turns into under unary
    plus: the IEEE 754 double nearest to its value (ties to an even
    significand), or Infinity when that lies beyond the largest double. */
module JsNumbers {

  /** A number as unary plus can produce one from decimal text: an
      integer-valued double, Infinity, or NaN. */
  datatype JsNumber = Num(value: nat) | Infinity | NaN

  /** Bits in a double's significand, counting the implicit leading one. */
  const Precision: nat := 53

  /** Doubles stay below 2 to this power. */
  const ExponentLimit: nat := 1024

  function Pow2(k: nat): (r: nat)
    ensures r >= 1
  {
    if k == 0 then 1 else 2 * Pow2(k - 1)
  }

  lemma {:induction false} Pow2Monotone(a: nat, b: nat)
    requires a <= b
    ensures Pow2(a) <= Pow2(b)
    ensures a < b ==> 2 * Pow2(a) <= Pow2(b)
    decreases b
  {
    if a < b {
      Pow2Monotone(a, b - 1);
    }
  }

  /** The position of the highest set bit of a positive number. */
  function Log2(n: nat): (e: nat)
    requires n >= 1
    ensures Pow2(e) <= n < Pow2(e + 1)
    decreases n
  {
    if n < 2 then 0 else 1 + Log2(n / 2)
  }

  /** The highest set bit is the only `e` with `2^e <= n < 2^(e+1)`. */
  lemma {:induction false} Log2Unique(n: nat, e: nat)
    requires Pow2(e) <= n < Pow2(e + 1)
    ensures Log2(n) == e
  {
    var l := Log2(n);
    if l < e {
      Pow2Monotone(l + 1, e);
    } else if e < l {
      Pow2Monotone(e + 1, l);
    }
  }

  /** A number at least 2^k has its highest set bit at k or above. */
  lemma {:induction false} Log2AtLeast(n: nat, k: nat)
    requires Pow2(k) <= n
    ensures Log2(n) >= k
  {
    if Log2(n) < k {
      Pow2Monotone(Log2(n) + 1, k);
    }
  }

  /** `n` shifted right by `s` bits: the `s` low bits are dropped. */
  function Shift(n: nat, s: nat): nat {
    if s == 0 then n else Shift(n / 2, s - 1)
  }

  /** The `s` low bits of `n`, the ones a shift by `s` drops. */
  function Low(n: nat, s: nat): nat {
    if s == 0 then 0 else 2 * Low(n / 2, s - 1) + n % 2
  }

  /** `k` shifted left by `s` bits. */
  function Scale(k: nat, s: nat): nat {
    if s == 0 then k else 2 * Scale(k, s - 1)
  }

  /** Shifting splits `n` into the kept bits, moved back into place, and the
      dropped bits, which stay below `2^s`. */
  lemma {:induction false} ShiftLow(n: nat, s: nat)
    ensures n == Scale(Shift(n, s), s) + Low(n, s)
    ensures Low(n, s) < Pow2(s)
    decreases s
  {
    if s > 0 {
      ShiftLow(n / 2, s - 1);
    }
  }

  /** The dropped bits are the highest dropped bit (the guard bit), moved
      into place, above the bits below it. */
  lemma {:induction false} LowTop(n: nat, s: nat)
    requires s >= 1
    ensures Low(n, s) == Scale(Shift(n, s - 1) % 2, s - 1) + Low(n, s - 1)
    decreases s
  {
    if s > 1 {
      LowTop(n / 2, s - 1);
    }
  }

  lemma {:induction false} ScaleAdd(a: nat, b: nat, s: nat)
    ensures Scale(a + b, s) == Scale(a, s) + Scale(b, s)
    decreases s
  {
    if s > 0 {
      ScaleAdd(a, b, s - 1);
    }
  }

  lemma {:induction false} ScalePow2(t: nat, s: nat)
    ensures Scale(Pow2(t), s) == Pow2(t + s)
    ensures Scale(0, s) == 0
    decreases s
  {
    if s > 0 {
      ScalePow2(t, s - 1);
    }
  }

  lemma {:induction false} ScaleMonotone(a: nat, b: nat, s: nat)
    requires a <= b
    ensures Scale(a, s) <= Scale(b, s)
  {
    ScaleAdd(a, b - a, s);
  }

  /** A number already shifted left by `s` bits has nothing to drop. */
  lemma {:induction false} ShiftScale(k: nat, s: nat)
    ensures Shift(Scale(k, s), s) == k && Low(Scale(k, s), s) == 0
    decreases s
  {
    if s > 0 {
      ShiftScale(k, s - 1);
    }
  }

  /** Shifting left multiplies by `2^s`. */
  lemma {:induction false} ScaleIsProduct(k: nat, s: nat)
    ensures Scale(k, s) == k * Pow2(s)
    decreases s
  {
    if s > 0 {
      ScaleIsProduct(k, s - 1);
      assert k * Pow2(s) == 2 * (k * Pow2(s - 1));
    }
  }

  /** Shifting right is division by `2^s`, and the dropped bits are the
      remainder. */
  lemma {:induction false} ShiftIsDivision(n: nat, s: nat)
    ensures Shift(n, s) == n / Pow2(s) && Low(n, s) == n % Pow2(s)
  {
    ShiftLow(n, s);
    ScaleIsProduct(Shift(n, s), s);
    DivisionUnique(n, Pow2(s), Shift(n, s), Low(n, s));
  }

  lemma {:induction false} DivisionUnique(n: nat, d: nat, q: nat, r: nat)
    requires d >= 1 && n == q * d + r && r < d
    ensures n / d == q && n % d == r
  {
    var k: int := n / d - q;
    assert k * d == r - n % d;
    if k >= 1 {
      assert false;
    } else if k <= -1 {
      assert false;
    }
  }

  /** `n` shifted right by `s` bits and rounded to nearest, ties to even: the
      kept bits go up by one when the guard bit is set and either a lower
      dropped bit is set too or the kept bits are odd. */
  function RoundShift(n: nat, s: nat): nat {
    if s == 0 then n
    else
      var q := Shift(n, s);
      if Shift(n, s - 1) % 2 == 1 && (Low(n, s - 1) != 0 || q % 2 == 1) then q + 1 else q
  }

  function Dist(a: nat, b: nat): nat {
    if a < b then b - a else a - b
  }

  /** The guard and sticky bits decide as the remainder does: round up when
      the dropped bits are over half of `2^s`, or exactly half with odd kept
      bits. */
  lemma {:induction false} GuardSticky(n: nat, s: nat)
    requires s >= 1
    ensures RoundShift(n, s) ==
      if Low(n, s) * 2 > Pow2(s) || (Low(n, s) * 2 == Pow2(s) && Shift(n, s) % 2 == 1)
      then Shift(n, s) + 1 else Shift(n, s)
  {
    LowTop(n, s);
    ShiftLow(n, s - 1);
    ScalePow2(0, s - 1);
  }

  /** No multiple of `2^s` is closer to `n` than the rounded one, a tie goes to
      the even multiple, and a multiple of `2^s` is kept as it is. */
  lemma {:induction false} RoundShiftIsNearest(n: nat, s: nat)
    ensures Dist(Scale(RoundShift(n, s), s), n) * 2 <= Pow2(s)
    ensures Dist(Scale(RoundShift(n, s), s), n) * 2 == Pow2(s) ==> RoundShift(n, s) % 2 == 0
    ensures Low(n, s) == 0 ==> Scale(RoundShift(n, s), s) == n
  {
    if s > 0 {
      GuardSticky(n, s);
      ShiftLow(n, s);
      ScaleAdd(Shift(n, s), 1, s);
      ScalePow2(0, s);
    }
  }

  /** The exponent of the gap between neighbouring doubles at `n`: 0 below
      2^53, and e - 52 for `n` in [2^e, 2^(e+1)) above it. */
  function UlpExponent(n: nat): nat {
    if n < Pow2(Precision) then 0
    else
      Log2AtLeast(n, Precision);
      Log2(n) - (Precision - 1)
  }

  /** The gap between neighbouring doubles at `n`. */
  function Ulp(n: nat): nat {
    Pow2(UlpExponent(n))
  }

  /** `n` rounded to the nearest multiple of its ulp, counted in ulps. */
  function RoundedMultiple(n: nat): nat {
    RoundShift(n, UlpExponent(n))
  }

  /** The rounded value reaches 2^1024: either `n` itself is that large, or it
      lies in the top binade [2^1023, 2^1024) and rounds up to 2^53 ulps. */
  predicate Overflows(n: nat) {
    n >= Pow2(Precision) &&
    (Log2(n) >= ExponentLimit ||
     (Log2(n) == ExponentLimit - 1 && RoundedMultiple(n) == Pow2(Precision)))
  }

  /** `𝔽(n)` for a non-negative integer `n`: the nearest double, or Infinity
      once the rounded value reaches 2^1024. Every integer below 2^53 is a
      double and comes back exactly. */
  function RoundToDouble(n: nat): (r: JsNumber)
    ensures r != NaN
    ensures r.Num? ==> Low(r.value, UlpExponent(n)) == 0
    ensures r.Num? ==> Dist(r.value, n) * 2 <= Ulp(n)
    ensures r.Num? && Dist(r.value, n) * 2 == Ulp(n) ==> Shift(r.value, UlpExponent(n)) % 2 == 0
    ensures r.Num? && Low(n, UlpExponent(n)) == 0 ==> r.value == n
    ensures n < Pow2(Precision) ==> r == Num(n)
  {
    RoundShiftIsNearest(n, UlpExponent(n));
    ShiftScale(RoundedMultiple(n), UlpExponent(n));
    SafeIntegers(n);
    if Overflows(n) then Infinity else Num(Scale(RoundedMultiple(n), UlpExponent(n)))
  }

  lemma {:induction false} SafeIntegers(n: nat)
    ensures n < Pow2(Precision) ==> UlpExponent(n) == 0 && RoundedMultiple(n) == n && !Overflows(n)
  {
  }

  /** 2^53 + 1 is the first integer that is not a double: it lies halfway
      between 2^53 and 2^53 + 2 and rounds to the even 2^53. */
  lemma {:induction false} FirstInexactInteger(n: nat)
    requires n == Pow2(Precision) + 1
    ensures RoundToDouble(n) == Num(n - 1)
  {
    JustAboveSafe(n);
    HalfwayToEven(n, Precision);
  }

  /** Just above 2^53 the ulp is 2 and nothing overflows. */
  lemma {:induction false} JustAboveSafe(n: nat)
    requires n == Pow2(Precision) + 1
    ensures UlpExponent(n) == 1 && !Overflows(n)
  {
    Pow2Monotone(Precision, Precision + 1);
    Log2Unique(n, Precision);
  }

  /** `2^p + 1`, halfway between the even `2^p` and the odd `2^p + 2`,
      rounds down to `2^p` when one bit is dropped. */
  lemma {:induction false} HalfwayToEven(n: nat, p: nat)
    requires p >= 2 && n == Pow2(p) + 1
    ensures Scale(RoundShift(n, 1), 1) == n - 1
  {
    assert Pow2(p) == 4 * Pow2(p - 2);
    assert Shift(n, 1) == 2 * Pow2(p - 2);
  }

  /** The value that rounds past the largest double: 2^1024 - 2^970, halfway
      between the largest double (2^53 - 1) * 2^971 and 2^1024. */
  lemma {:induction false} OverflowThreshold(n: nat)
    ensures RoundToDouble(n).Infinity? <==> n >= Pow2(ExponentLimit) - Pow2(970)
  {
    assert RoundToDouble(n).Infinity? <==> Overflows(n);
    OverflowsIff(n);
  }

  lemma {:induction false} OverflowsIff(n: nat)
    ensures Overflows(n) <==> n >= Pow2(ExponentLimit) - Pow2(970)
  {
    if n < Pow2(Precision) {
      SafeIntegers(n);
      SafeIntegerUnderThreshold(n);
    } else if Log2(n) < ExponentLimit - 1 {
      LowBinadeNoOverflow(n);
      LowBinadeUnderThreshold(n);
    } else if Log2(n) >= ExponentLimit {
      AboveTopBinade(n);
    } else {
      TopBinade(n);
    }
  }

  /** Integers below 2^53 do not reach the threshold. */
  lemma {:induction false} SafeIntegerUnderThreshold(n: nat)
    requires n < Pow2(Precision)
    ensures n < Pow2(ExponentLimit) - Pow2(970)
  {
    BelowTopBinade(n, Precision, ExponentLimit, 970);
  }

  /** Below the top binade nothing overflows. */
  lemma {:induction false} LowBinadeNoOverflow(n: nat)
    requires Pow2(Precision) <= n && Log2(n) < ExponentLimit - 1
    ensures !Overflows(n)
  {
  }

  /** Below the top binade everything is under the threshold. */
  lemma {:induction false} LowBinadeUnderThreshold(n: nat)
    requires n >= 1 && Log2(n) < ExponentLimit - 1
    ensures n < Pow2(ExponentLimit) - Pow2(970)
  {
    BelowTopBinade(n, Log2(n) + 1, ExponentLimit, 970);
  }

  /** From 2^1024 on every number overflows. */
  lemma {:induction false} AboveTopBinade(n: nat)
    requires Pow2(Precision) <= n && Log2(n) >= ExponentLimit
    ensures Overflows(n) && n >= Pow2(ExponentLimit) - Pow2(970)
  {
    Pow2Monotone(ExponentLimit, Log2(n));
  }

  /** Numbers below `2^k` lie under `2^e - 2^h` when `k` and `h` are both
      below `e`. */
  lemma {:induction false} BelowTopBinade(n: nat, k: nat, e: nat, h: nat)
    requires n < Pow2(k) && k < e && h < e
    ensures n < Pow2(e) - Pow2(h)
  {
    Pow2Monotone(k, e - 1);
    Pow2Monotone(h, e - 1);
  }

  /** In the top binade [2^1023, 2^1024) the ulp is 2^971, and `n` rounds up
      to 2^53 ulps exactly when it is at least 2^1024 - 2^970. */
  lemma {:induction false} TopBinade(n: nat)
    requires Pow2(Precision) <= n && Log2(n) == ExponentLimit - 1
    ensures RoundedMultiple(n) == Pow2(Precision) <==> n >= Pow2(ExponentLimit) - Pow2(970)
    ensures Overflows(n) <==> n >= Pow2(ExponentLimit) - Pow2(970)
  {
    assert UlpExponent(n) == 971;
    RoundsToTop(n, 971, Precision);
  }

  /** When `n` shifted right by `s` bits keeps `t` bits, it rounds up to
      `2^t` exactly when it is at most half of `2^s` below `2^(s+t)`. */
  lemma {:induction false} RoundsToTop(n: nat, s: nat, t: nat)
    requires s >= 1 && t >= 1
    requires Pow2(s + t - 1) <= n < Pow2(s + t)
    ensures RoundShift(n, s) == Pow2(t) <==> n >= Pow2(s + t) - Pow2(s - 1)
  {
    var top := Pow2(t) - 1;
    ShiftLow(n, s);
    GuardSticky(n, s);
    assert Scale(top, s) == Pow2(s + t) - Pow2(s) by {
      ScaleAdd(top, 1, s);
      ScalePow2(0, s);
      ScalePow2(t, s);
    }
    assert Shift(n, s) <= top by {
      if Shift(n, s) > top {
        ScalePow2(t, s);
        ScaleMonotone(Pow2(t), Shift(n, s), s);
      }
    }
    if Shift(n, s) < top {
      assert n < Scale(top, s) by {
        ScaleAdd(Shift(n, s), 1, s);
        ScalePow2(0, s);
        ScaleMonotone(Shift(n, s) + 1, top, s);
      }
    } else {
      assert top % 2 == 1 by {
        assert Pow2(t) == 2 * Pow2(t - 1);
      }
    }
  }
}

=== FILE: jwt_guard.dfy ===
/** The bearer-token guard on the admin and file routes
    (backend/src/guards/jwt.guards.ts). Token verification belongs to the
    JWT library and is a parameter: it yields the payload of a valid token
    and nothing for any other string. */
module JwtGuard {
  import opened Wrappers
  import opened Strings
  import opened Errors

  /** A token payload: `sub` and `username` as login signs them, and an `id`
      field that a payload may also carry. */
  datatype Claims = Claims(sub: nat, username: string, id: Option<nat>)

  /** `request.user` as the guard sets it. */
  datatype RequestUser = RequestUser(id: nat, sub: nat, username: string)

  const BearerPrefix: string := "Bearer "

  /** `authorizationHeader.replace('Bearer ', '')`: the first occurrence of
      the prefix is removed, wherever it is. */
  function TokenOf(header: string): (r: string)
    ensures r == header <==> forall k: nat :: !OccursAt(header, BearerPrefix, k)
    ensures r != header ==> |r| + |BearerPrefix| == |header|
  {
    ReplaceFirst(header, BearerPrefix, "")
  }

  /** `{ id: payload.sub, ...payload }`: a payload's own `id` wins over `sub`. */
  function UserOf(c: Claims): (u: RequestUser)
    ensures u.id == (if c.id.Some? then c.id.value else c.sub)
    ensures u.sub == c.sub && u.username == c.username
  {
    RequestUser(c.id.GetOr(c.sub), c.sub, c.username)
  }

  /** `canActivate`: a missing or empty header, then an unverifiable token,
      are refused; otherwise the request proceeds as the payload's user. */
  function CanActivate(header: Option<string>, verify: string -> Option<Claims>): (r: Result<RequestUser, HttpError>)
    ensures (header.None? || header == Some("")) ==> r == Failure(Unauthorized("Access token not found"))
    ensures r.Success? <==> header.Some? && header.value != "" && verify(TokenOf(header.value)).Some?
    ensures r.Failure? ==> r.error.Unauthorized?
    ensures r.Success? ==> r.value == UserOf(verify(TokenOf(header.value)).value)
  {
    if header.None? || header.value == "" then Failure(Unauthorized("Access token not found"))
    else match verify(TokenOf(header.value))
      case None => Failure(Unauthorized("Invalid token"))
      case Some(c) => Success(UserOf(c))
  }

  /** A header of the form `Bearer <token>` yields `<token>`. */
  lemma BearerHeaderToken(token: string)
    ensures TokenOf(BearerPrefix + token) == token
  {
    var h := BearerPrefix + token;
    assert h[..|BearerPrefix|] == BearerPrefix;
    ReplaceFirstPrefix(h, BearerPrefix);
    assert h[|BearerPrefix|..] == token;
  }

  /** A header without the prefix is passed to verification whole. */
  lemma BareHeaderToken(header: string)
    requires forall k: nat :: !OccursAt(header, BearerPrefix, k)
    ensures TokenOf(header) == header
  {
    ReplaceFirstAbsent(header, BearerPrefix, "");
  }

  /** The prefix is removed even when it is not at the start: only its first
      occurrence goes, and the text before it stays. */
  lemma InnerPrefixRemoved(before: string, after: string)
    requires forall k: nat :: k < |before| ==> !OccursAt(before + BearerPrefix + after, BearerPrefix, k)
    ensures TokenOf(before + BearerPrefix + after) == before + after
  {
    var h := before + BearerPrefix + after;
    assert OccursAt(h, BearerPrefix, |before|) by {
      assert h[|before|..|before| + |BearerPrefix|] == BearerPrefix;
    }
    var k := IndexOf(h, BearerPrefix, 0).value;
    assert k == |before|;
    assert h[..k] == before;
    assert h[k + |BearerPrefix|..] == after;
  }
}

=== FILE: mime_types.dfy ===
/** The MIME types the backend and the pages compare against. */
module MimeTypes {
  import opened Strings

  const PdfType: string := "application/pdf"
  const JpegType: string := "image/jpeg"
  const PngType: string := "image/png"
  const CsvType: string := "text/csv"
  const XlsType: string := "application/vnd.ms-excel"
  const XlsxType: string := "application/" + "vnd.openxmlformats-officedocument.spreadsheetml.sheet"
  const ImagePrefix: string := "image/"

  /** None of the exact non-image types starts with `image/`. */
  lemma NamedTypesNotImages()
    ensures !StartsWith(PdfType, ImagePrefix) && !StartsWith(CsvType, ImagePrefix)
    ensures !StartsWith(XlsType, ImagePrefix) && !StartsWith(XlsxType, ImagePrefix)
  {
    assert PdfType[0] != ImagePrefix[0];
    assert CsvType[0] != ImagePrefix[0];
    assert XlsType[0] != ImagePrefix[0];
    assert XlsxType[0] != ImagePrefix[0];
  }
}

=== FILE: multer_config.dfy ===
/** The disk-storage naming rule of backend/src/config/multer.config.ts: a
    stored file is named by the upload time in milliseconds followed by the
    original name's extension, as Node's `path.extname` computes it. The
    clock reading is a parameter. */
module MulterConfig {
  import opened Wrappers
  import opened Strings

  const Destination: string := "./uploads"

  /** The path without its trailing slashes. */
  function TrimTrailingSlashes(p: string): (r: string)
    ensures |r| <= |p| && r == p[..|r|] && (r == "" || r[|r| - 1] != '/')
    ensures forall i :: |r| <= i < |p| ==> p[i] == '/'
  {
    if |p| > 0 && p[|p| - 1] == '/' then TrimTrailingSlashes(p[..|p| - 1]) else p
  }

  /** The text after the last slash. */
  function LastSegment(p: string): (r: string)
    ensures '/' !in r && |r| <= |p| && r == p[|p| - |r|..]
    ensures |r| < |p| ==> p[|p| - |r| - 1] == '/'
  {
    if |p| == 0 || p[|p| - 1] == '/' then "" else LastSegment(p[..|p| - 1]) + [p[|p| - 1]]
  }

  /** The index of the last `c` in `s`. */
  function LastIndexOf(s: string, c: char): (r: Option<nat>)
    ensures r.None? <==> c !in s
    ensures r.Some? ==> r.value < |s| && s[r.value] == c && c !in s[r.value + 1..]
  {
    if |s| == 0 then None
    else if s[|s| - 1] == c then Some(|s| - 1)
    else
      var r := LastIndexOf(s[..|s| - 1], c);
      assert s[..|s| - 1] + [s[|s| - 1]] == s;
      r
  }

  /** `path.extname`: from the last dot of the last segment to its end,
      unless the segment has no dot, starts with its only relevant dot, or
      is `..`. */
  function ExtName(path: string): (r: string)
    ensures r == "" || (r[0] == '.' && '.' !in r[1..] && '/' !in r)
    ensures EndsWith(TrimTrailingSlashes(path), r)
  {
    SegmentExtension(LastSegment(TrimTrailingSlashes(path)))
  }

  /** The extension of one path segment. */
  function SegmentExtension(seg: string): (r: string)
    requires '/' !in seg
    ensures r == "" || (r[0] == '.' && '.' !in r[1..] && '/' !in r)
    ensures EndsWith(seg, r)
  {
    match LastIndexOf(seg, '.')
    case None => ""
    case Some(k) =>
      if k == 0 || seg == ".." then ""
      else
        assert seg[k..][1..] == seg[k + 1..];
        seg[k..]
  }

  /** `Date.now() + extname(file.originalname)`: a flat name (no slash), made
      of the decimal timestamp, which reads back as the timestamp, followed by
      either nothing or a dotted extension. */
  function StoredName(timestamp: nat, originalname: string): (r: string)
    ensures '/' !in r
    ensures var n := |NatToString(timestamp)|;
      && n <= |r| && AllDigits(r[..n]) && ParseDigits(r[..n]) == timestamp
      && (n == |r| || r[n] == '.')
  {
    NatToStringHasNo(timestamp, '/');
    ParseNatToString(timestamp);
    var d := NatToString(timestamp);
    assert (d + ExtName(originalname))[..|d|] == d;
    d + ExtName(originalname)
  }

  /** A name without slashes is its own last segment. */
  lemma {:induction false} LastSegmentOfPlain(p: string)
    requires '/' !in p
    ensures LastSegment(p) == p
  {
    if |p| > 0 {
      var q := p[..|p| - 1];
      assert p[|p| - 1] != '/';
      assert '/' !in q by {
        forall i | 0 <= i < |q| ensures q[i] != '/' {
          assert q[i] == p[i];
        }
      }
      LastSegmentOfPlain(q);
      assert q + [p[|p| - 1]] == p;
    }
  }

  /** The last occurrence of `c` is the one no later `c` follows. */
  lemma LastIndexOfSplit(a: string, c: char, b: string)
    requires c !in b
    ensures LastIndexOf(a + [c] + b, c) == Some(|a|)
  {
    var s := a + [c] + b;
    assert s[|a|] == c;
    assert s[|a| + 1..] == b;
    LastIndexOfAt(s, c, |a|);
  }

  /** A `c` with no later `c` after it is the last occurrence. */
  lemma {:induction false} LastIndexOfAt(s: string, c: char, j: nat)
    requires j < |s| && s[j] == c && c !in s[j + 1..]
    ensures LastIndexOf(s, c) == Some(j)
    decreases |s|
  {
    if j < |s| - 1 {
      var t := s[..|s| - 1];
      assert s[|s| - 1] == s[j + 1..][|s| - 2 - j];
      assert t[j + 1..] == s[j + 1..][..|s| - 2 - j];
      LastIndexOfAt(t, c, j);
    }
  }

  /** A segment with a dot after its first character, other than `..`,
      has the extension starting at its last dot. */
  lemma SegmentExtensionAt(seg: string, k: nat)
    requires '/' !in seg && LastIndexOf(seg, '.') == Some(k) && k > 0
    requires |seg| != 2 || seg[0] != '.'
    ensures SegmentExtension(seg) == seg[k..]
  {
    assert seg != "..";
  }

  /** A plain file name keeps what follows its last dot, dot included; the
      base name is dropped. */
  lemma ExtNameOfDottedName(name: string, ext: string)
    requires name != "" && name != "." && '/' !in name
    requires '.' !in ext && '/' !in ext
    ensures ExtName(name + "." + ext) == "." + ext
  {
    var p := name + "." + ext;
    DottedNameShape(name, ext);
    LastSegmentOfPlain(p);
    SegmentExtensionAt(p, |name|);
  }

  /** The facts about `name.ext` that `path.extname` consults: no slash, no
      trailing slash, its last dot right after the name, and not `..`. */
  lemma DottedNameShape(name: string, ext: string)
    requires name != "" && name != "." && '/' !in name
    requires '.' !in ext && '/' !in ext
    ensures var p := name + "." + ext;
      && '/' !in p && TrimTrailingSlashes(p) == p
      && LastIndexOf(p, '.') == Some(|name|) && (|p| != 2 || p[0] != '.')
      && p[|name|..] == "." + ext
  {
    var p := name + "." + ext;
    assert p == name + ['.'] + ext;
    assert p[|p| - 1] != '/';
    assert '/' !in p by {
      assert forall i :: |name| < i < |p| ==> p[i] == ext[i - |name| - 1];
    }
    LastIndexOfSplit(name, '.', ext);
    if |p| == 2 {
      assert |name| == 1 && name == [name[0]];
      assert p[0] == name[0];
    }
  }

  /** Stored names never collide unless both the timestamp and the
      extension are the same: the digits end where the extension's dot
      begins. Two uploads in the same millisecond with the same extension
      get the same name whatever their original names. */
  lemma StoredNameInjective(t1: nat, a: string, t2: nat, b: string)
    ensures StoredName(t1, a) == StoredName(t2, b) <==> t1 == t2 && ExtName(a) == ExtName(b)
  {
    var d1, d2 := NatToString(t1), NatToString(t2);
    var e1, e2 := ExtName(a), ExtName(b);
    if d1 + e1 == d2 + e2 {
      if |d1| < |d2| {
        DigitsThenExtension(d1, e1, d2, e2);
      } else if |d2| < |d1| {
        DigitsThenExtension(d2, e2, d1, e1);
      }
      assert d1 == (d1 + e1)[..|d1|] == (d2 + e2)[..|d2|] == d2;
      assert e1 == (d1 + e1)[|d1|..] == (d2 + e2)[|d2|..] == e2;
      NatToStringInjective(t1, t2);
    }
  }

  /** A digit string followed by an empty-or-dotted suffix cannot equal a
      longer digit string followed by another such suffix. */
  lemma DigitsThenExtension(d1: string, e1: string, d2: string, e2: string)
    requires AllDigits(d1) && AllDigits(d2) && |d1| < |d2|
    requires e1 == "" || e1[0] == '.'
    ensures d1 + e1 != d2 + e2
  {
    if e1 == "" {
      assert |d1 + e1| < |d2 + e2|;
    } else {
      assert (d1 + e1)[|d1|] == '.';
      assert (d2 + e2)[|d1|] == d2[|d1|];
      assert IsDigit(d2[|d1|]);
    }
  }
}

=== FILE: permissions.dfy ===
/** The role policy the user and admin services enforce, stated as plain
    conditions rather than as the services' ordered chains of checks. */
module Permissions {
  import opened UserEntity

  /** Roles allowed to manage other users. */
  predicate ManagesUsers(r: Role)
    ensures ManagesUsers(r) <==> r != TeamMember && r != Normal
  {
    r == Owner || r == Admin
  }

  /** The owner may give any user any role; an admin may change the role of
      anyone but an owner, to anything but owner. */
  predicate MayUpdateRole(requester: Role, target: Role, newRole: Role)
    ensures MayUpdateRole(requester, target, newRole) ==> ManagesUsers(requester)
    ensures MayUpdateRole(requester, target, newRole) && requester != Owner ==> target != Owner && newRole != Owner
    ensures requester == Owner ==> MayUpdateRole(requester, target, newRole)
  {
    requester == Owner || (requester == Admin && target != Owner && newRole != Owner)
  }

  /** Nobody may delete an owner; the owner may delete anyone else; an admin
      may delete anyone who is neither owner nor admin. */
  predicate MayDeleteUser(requester: Role, target: Role)
    ensures MayDeleteUser(requester, target) ==> ManagesUsers(requester) && target != Owner
    ensures MayDeleteUser(requester, target) ==> forall newRole :: newRole != Owner ==> MayUpdateRole(requester, target, newRole)
    ensures MayDeleteUser(requester, target) && requester == Admin ==> !ManagesUsers(target)
  {
    target != Owner && (requester == Owner || (requester == Admin && target != Admin))
  }

  /** A document may be deleted by the user it belongs to, or by an owner. */
  predicate MayDeleteDocument(requesterId: nat, requesterIsOwner: bool, documentUserId: nat)
    ensures requesterIsOwner ==> MayDeleteDocument(requesterId, requesterIsOwner, documentUserId)
    ensures !requesterIsOwner ==> (MayDeleteDocument(requesterId, requesterIsOwner, documentUserId) <==> documentUserId == requesterId)
  {
    documentUserId == requesterId || requesterIsOwner
  }
}

=== FILE: processor.dfy ===
/** `FileUploadProcessor.handleFileUpload`
    (backend/src/queue/file-upload.processor/file-upload.processor.ts): save the
    upload as a PENDING row, pick one extractor by MIME type, record the result
    as COMPLETED; any error is rethrown and leaves the row PENDING. */
module FileUploadProcessor {
  import opened Wrappers
  import opened Strings
  import opened Errors
  import opened DocumentEntity
  import opened FileService
  import opened MimeTypes
  import opened FileUtils

  /** The branch of the MIME-type chain a job takes. */
  datatype Extractor = PdfText | ImageOcr | CsvRows | ExcelSheets | NoExtractor

  /** The `if / else if` chain on `file.mimetype`, in its order. */
  function SelectExtractor(mimetype: string): (r: Extractor)
    ensures r == ImageOcr ==> StartsWith(mimetype, ImagePrefix)
    ensures r == NoExtractor ==> mimetype != PdfType && mimetype != CsvType && mimetype != XlsxType
    ensures StartsWith(mimetype, ImagePrefix) ==> r == ImageOcr
  {
    NamedTypesNotImages();
    if mimetype == PdfType then PdfText
    else if StartsWith(mimetype, ImagePrefix) then ImageOcr
    else if mimetype == CsvType then CsvRows
    else if mimetype == XlsxType then ExcelSheets
    else NoExtractor
  }

  /** The dispatch table as independent conditions, one per extractor: the
      chain picks an extractor exactly when its condition holds, so exactly one
      branch applies to every MIME type. */
  lemma DispatchTable(mimetype: string)
    ensures SelectExtractor(mimetype) == PdfText <==> mimetype == PdfType
    ensures SelectExtractor(mimetype) == ImageOcr <==> StartsWith(mimetype, ImagePrefix)
    ensures SelectExtractor(mimetype) == CsvRows <==> mimetype == CsvType
    ensures SelectExtractor(mimetype) == ExcelSheets <==> mimetype == XlsxType
    ensures SelectExtractor(mimetype) == NoExtractor <==>
      mimetype !in {PdfType, CsvType, XlsxType} && !StartsWith(mimetype, ImagePrefix)
  {
    NamedTypesNotImages();
  }

  /** The legacy Excel type takes no extractor. */
  lemma LegacyExcelNotExtracted()
    ensures SelectExtractor(XlsType) == NoExtractor
  {
    DispatchTable(XlsType);
    NamedTypesNotImages();
  }

  /** The functions the handler calls but the model does not see:
      the file-utils helpers' libraries, the OCR function (imported from
      file-utils, which does not define it) and `JSON.stringify` of a string. */
  datatype Environment = Environment(
    libs: FileUtils.Libraries,
    ocr: MulterFile -> Result<string, string>,
    stringify: string -> string)

  /** Running the chosen extractor; `NoExtractor` leaves the placeholder `''`.
      The CSV and Excel helpers already return text, which is stringified
      again. Only the CSV helper can let an exception escape; the OCR reads
      the upload itself rather than the saved file. */
  function Extract(kind: Extractor, file: MulterFile, savedPath: string, env: Environment): (r: Settlement<string>)
    ensures r.Uncaught? ==> kind == CsvRows
    ensures kind == NoExtractor ==> r == Settled(Success(""))
    ensures kind == ImageOcr ==> r == Settled(env.ocr(file))
    ensures kind in {CsvRows, ExcelSheets} && r.Settled? && r.result.Success? ==>
      exists text :: r.result.value == env.stringify(text)
  {
    match kind
    case PdfText => Settled(FileUtils.ExtractPdfText(savedPath, env.libs))
    case ImageOcr => Settled(env.ocr(file))
    case CsvRows =>
      (match FileUtils.ParseCsv(savedPath, env.libs)
       case Uncaught(e) => Uncaught(e)
       case Settled(Failure(e)) => Settled(Failure(e))
       case Settled(Success(text)) => Settled(Success(env.stringify(text))))
    case ExcelSheets =>
      (match FileUtils.ParseExcel(savedPath, env.libs)
       case Failure(e) => Settled(Failure(e))
       case Success(text) => Settled(Success(env.stringify(text))))
    case NoExtractor => Settled(Success(""))
  }

  /** What the extractor a job selects yields on the job's saved file. */
  function JobExtraction(job: Job, env: Environment): Settlement<string> {
    Extract(SelectExtractor(job.file.mimetype), job.file, StoredPath(job.file), env)
  }

  /** The observable steps of one job, in order. */
  datatype Step = SavedPending(docId: nat) | RanExtractor(kind: Extractor) | SavedResult(docId: nat)

  /** How one job ends: the handler's promise resolves with nothing or
      rejects with the rethrown error, or an uncaught exception ends the
      process in the middle of it. Either way the table it leaves and the
      steps taken are kept. */
  datatype Outcome =
    | Finished(table: DocumentTable, result: Result<(), HttpError>, steps: seq<Step>)
    | Crashed(table: DocumentTable, error: string, steps: seq<Step>)

  /** The PENDING row a job creates before anything else happens. */
  function PendingRow(t: DocumentTable, job: Job, now: nat): Document {
    SaveFile(t, job.file, job.userId, now).1
  }

  /** `handleFileUpload` for one job, with `now` the insertion time. Every job
      adds exactly one row under the next id; a crash leaves that row as
      saved, PENDING; when a job finishes successfully, the first row with
      its path and owner is COMPLETED, and the handler itself returns
      nothing. */
  function HandleFileUpload(t: DocumentTable, job: Job, env: Environment, now: nat): (o: Outcome)
    ensures |o.table.rows| == |t.rows| + 1 && o.table.nextId == t.nextId + 1
    ensures o.Crashed? ==> o.table.rows == t.rows + [PendingRow(t, job, now)]
    ensures o.Finished? && o.result.Success? ==>
      exists k :: 0 <= k < |o.table.rows| && Matches(o.table.rows[k], StoredPath(job.file), job.userId)
        && o.table.rows[k].status == Completed
  {
    var (t1, saved) := SaveFile(t, job.file, job.userId, now);
    var kind := SelectExtractor(job.file.mimetype);
    var ran := if kind == NoExtractor then [] else [RanExtractor(kind)];
    match Extract(kind, job.file, saved.filePath, env)
    case Uncaught(message) =>
      Crashed(t1, message, [SavedPending(saved.id)] + ran)
    case Settled(Failure(message)) =>
      Finished(t1, Failure(InternalError(message)), [SavedPending(saved.id)] + ran)
    case Settled(Success(data)) =>
      match SaveExtractedData(t1, saved.filePath, job.userId, None, data)
      case Failure(e) => Finished(t1, Failure(e), [SavedPending(saved.id)] + ran)
      case Success((t2, updated)) =>
        SaveExtractedDataCompletes(t1, saved.filePath, job.userId, None, data);
        Finished(t2, Success(()), [SavedPending(saved.id)] + ran + [SavedResult(updated.id)])
  }

  /** The first step is always saving the PENDING row under the next id; at
      most one extractor runs, it is the one the chain selects, and it runs
      after the save. */
  lemma StepsOrder(t: DocumentTable, job: Job, env: Environment, now: nat)
    ensures var o := HandleFileUpload(t, job, env, now);
      && |o.steps| >= 1 && o.steps[0] == SavedPending(t.nextId)
      && (forall i :: 0 <= i < |o.steps| && o.steps[i].RanExtractor? ==>
            i == 1 && o.steps[i].kind == SelectExtractor(job.file.mimetype))
      && (SelectExtractor(job.file.mimetype) != NoExtractor <==> exists i :: 0 <= i < |o.steps| && o.steps[i].RanExtractor?)
  {
    var o := HandleFileUpload(t, job, env, now);
    if SelectExtractor(job.file.mimetype) != NoExtractor {
      assert o.steps[1].RanExtractor?;
    }
  }

  /** The lookup after extraction always finds a row (at worst the one just
      saved), so a job fails exactly when its extractor rejects, and crashes
      exactly when its extractor lets an exception escape. */
  lemma FailsIffExtractionFails(t: DocumentTable, job: Job, env: Environment, now: nat)
    ensures var o := HandleFileUpload(t, job, env, now);
      && (o.Crashed? <==> JobExtraction(job, env).Uncaught?)
      && (o.Finished? && o.result.Failure? <==> JobExtraction(job, env).Rejects())
  {
    var (t1, saved) := SaveFile(t, job.file, job.userId, now);
    assert Matches(t1.rows[|t.rows|], saved.filePath, job.userId);
  }

  /** A rejecting or escaping extractor leaves the new row in the table
      exactly as saved: PENDING with no extracted data. A rejection is
      rethrown as the job's error; an escaping exception is the crash. */
  lemma ExtractionFailureLeavesPending(t: DocumentTable, job: Job, env: Environment, now: nat)
    requires JobExtraction(job, env).Rejects() || JobExtraction(job, env).Uncaught?
    ensures var o := HandleFileUpload(t, job, env, now);
      && o.table.rows == t.rows + [PendingRow(t, job, now)]
      && o.table.rows[|t.rows|].status == Pending && o.table.rows[|t.rows|].extractedData == None
      && (JobExtraction(job, env).Rejects() ==>
            o == Finished(o.table, Failure(InternalError(JobExtraction(job, env).result.error)), o.steps))
      && (JobExtraction(job, env).Uncaught? ==> o == Crashed(o.table, JobExtraction(job, env).error, o.steps))
  {
  }

  /** When no earlier row of the same owner has the same path, a successful
      extraction leaves the new row COMPLETED with the extracted text and the
      earlier rows untouched. */
  lemma SuccessCompletesNewRow(t: DocumentTable, job: Job, env: Environment, now: nat)
    requires forall i :: 0 <= i < |t.rows| ==> !Matches(t.rows[i], StoredPath(job.file), job.userId)
    requires JobExtraction(job, env).Settled? && JobExtraction(job, env).result.Success?
    ensures var o := HandleFileUpload(t, job, env, now);
      var data := JobExtraction(job, env).result.value;
      && o.Finished? && o.result.Success?
      && o.table.rows == t.rows + [WithResult(PendingRow(t, job, now), data)]
      && o.table.rows[|t.rows|].extractedData == Some(data)
  {
    var (t1, saved) := SaveFile(t, job.file, job.userId, now);
    var data := JobExtraction(job, env).result.value;
    var r := SaveExtractedData(t1, saved.filePath, job.userId, None, data);
    assert Matches(t1.rows[|t.rows|], saved.filePath, job.userId);
    var k :| 0 <= k < |t1.rows| && Matches(t1.rows[k], saved.filePath, job.userId)
      && (forall j :: 0 <= j < k ==> !Matches(t1.rows[j], saved.filePath, job.userId))
      && r.value.1 == WithResult(t1.rows[k], data)
      && r.value.0 == DocumentTable(t1.rows[k := r.value.1], t1.nextId);
    assert k == |t.rows|;
  }

  /** Unsupported types, the legacy Excel type among them, run no extractor
      and still complete, with the empty string as their data. */
  lemma UnsupportedCompletesEmpty(t: DocumentTable, job: Job, env: Environment, now: nat)
    requires SelectExtractor(job.file.mimetype) == NoExtractor
    requires forall i :: 0 <= i < |t.rows| ==> !Matches(t.rows[i], StoredPath(job.file), job.userId)
    ensures var o := HandleFileUpload(t, job, env, now);
      && o.Finished? && o.result.Success?
      && o.table.rows[|t.rows|].status == Completed && o.table.rows[|t.rows|].extractedData == Some("")
      && o.steps == [SavedPending(t.nextId), SavedResult(t.nextId)]
  {
    SuccessCompletesNewRow(t, job, env, now);
  }

  /** CSV and Excel results are stored as `JSON.stringify` of the helper's
      text; a helper rejection is rethrown and a read error of the CSV file
      crashes the job. */
  lemma TabularDoubleEncoded(t: DocumentTable, job: Job, env: Environment, now: nat)
    requires SelectExtractor(job.file.mimetype) in {CsvRows, ExcelSheets}
    requires forall i :: 0 <= i < |t.rows| ==> !Matches(t.rows[i], StoredPath(job.file), job.userId)
    ensures var helper := if job.file.mimetype == CsvType then FileUtils.ParseCsv(StoredPath(job.file), env.libs)
                          else Settled(FileUtils.ParseExcel(StoredPath(job.file), env.libs));
      var o := HandleFileUpload(t, job, env, now);
      && (helper.Settled? && helper.result.Success? ==>
            o.Finished? && o.result.Success?
            && o.table.rows[|t.rows|].extractedData == Some(env.stringify(helper.result.value)))
      && (helper.Rejects() ==> o.Finished? && o.result == Failure(InternalError(helper.result.error)))
      && (helper.Uncaught? ==> o.Crashed? && o.error == helper.error)
  {
    DispatchTable(job.file.mimetype);
    if JobExtraction(job, env).Settled? && JobExtraction(job, env).result.Success? {
      SuccessCompletesNewRow(t, job, env, now);
    }
  }

  /** When an earlier row of the same owner already has the same path (two
      uploads of one file name without a stored name), the result is written
      to that earlier row and the new row stays PENDING. */
  lemma DuplicatePathUpdatesEarlierRow(t: DocumentTable, job: Job, env: Environment, now: nat, k: nat)
    requires k < |t.rows| && Matches(t.rows[k], StoredPath(job.file), job.userId)
    requires forall j :: 0 <= j < k ==> !Matches(t.rows[j], StoredPath(job.file), job.userId)
    requires JobExtraction(job, env).Settled? && JobExtraction(job, env).result.Success?
    ensures var o := HandleFileUpload(t, job, env, now);
      var data := JobExtraction(job, env).result.value;
      && o.table.rows == t.rows[k := WithResult(t.rows[k], data)] + [PendingRow(t, job, now)]
      && o.table.rows[|t.rows|].status == Pending
  {
    var (t1, saved) := SaveFile(t, job.file, job.userId, now);
    var data := JobExtraction(job, env).result.value;
    var r := SaveExtractedData(t1, saved.filePath, job.userId, None, data);
    assert Matches(t1.rows[k], saved.filePath, job.userId);
    var m :| 0 <= m < |t1.rows| && Matches(t1.rows[m], saved.filePath, job.userId)
      && (forall j :: 0 <= j < m ==> !Matches(t1.rows[j], saved.filePath, job.userId))
      && r.value.1 == WithResult(t1.rows[m], data)
      && r.value.0 == DocumentTable(t1.rows[m := r.value.1], t1.nextId);
    assert m == k;
    assert t1.rows[k := r.value.1] == t.rows[k := WithResult(t.rows[k], data)] + [saved];
  }

  /** Only PENDING and COMPLETED are ever written. */
  ghost predicate OnlyPendingOrCompleted(t: DocumentTable) {
    forall i :: 0 <= i < |t.rows| ==> t.rows[i].status in {Pending, Completed}
  }

  /** A job never writes PROCESSING or FAILED, and keeps ids unique. */
  lemma HandlePreservesInvariants(t: DocumentTable, job: Job, env: Environment, now: nat)
    requires Valid(t) && OnlyPendingOrCompleted(t)
    ensures Valid(HandleFileUpload(t, job, env, now).table)
    ensures OnlyPendingOrCompleted(HandleFileUpload(t, job, env, now).table)
  {
    var (t1, saved) := SaveFile(t, job.file, job.userId, now);
    assert Valid(t1) && OnlyPendingOrCompleted(t1) by {
      InsertValid(t, Create(job.file.originalname, job.file.mimetype, StoredPath(job.file), job.userId, now));
    }
    var o := HandleFileUpload(t, job, env, now);
    var e := JobExtraction(job, env);
    if e.Settled? && e.result.Success? && SaveExtractedData(t1, saved.filePath, job.userId, None, e.result.value).Success? {
      ResultKeepsInvariants(t1, saved.filePath, job.userId, e.result.value);
      assert o.table == SaveExtractedData(t1, saved.filePath, job.userId, None, e.result.value).value.0;
    } else {
      assert o.table == t1;
    }
  }

  /** Storing an extraction result keeps ids unique and writes COMPLETED. */
  lemma ResultKeepsInvariants(t: DocumentTable, filePath: string, userId: nat, data: string)
    requires Valid(t) && OnlyPendingOrCompleted(t)
    requires SaveExtractedData(t, filePath, userId, None, data).Success?
    ensures Valid(SaveExtractedData(t, filePath, userId, None, data).value.0)
    ensures OnlyPendingOrCompleted(SaveExtractedData(t, filePath, userId, None, data).value.0)
  {
    SaveExtractedDataValid(t, filePath, userId, None, data);
  }

  /** A drained queue: the table left behind, the outcome of every job that
      finished, in order, and the exception that ended the process, if one
      did. */
  datatype Drained = Drained(table: DocumentTable, results: seq<Result<(), HttpError>>, crash: Option<string>)

  /** Draining a queue: each job is handled in order against the table the
      previous one left; a failing job does not stop the ones after it, but a
      crash ends the process and no later job is handled.
      `clock(i)` is the insertion time of the i-th job's row. */
  function ProcessQueue(t: DocumentTable, jobs: seq<Job>, env: Environment, clock: nat -> nat): (r: Drained)
    ensures |r.results| <= |jobs|
    ensures r.crash.None? <==> |r.results| == |jobs|
    ensures |jobs| > 0 ==>
      var o := HandleFileUpload(t, jobs[0], env, clock(0));
      if o.Finished? then |r.results| > 0 && r.results[0] == o.result
      else r == Drained(o.table, [], Some(o.error))
    decreases |jobs|
  {
    if |jobs| == 0 then Drained(t, [], None)
    else
      match HandleFileUpload(t, jobs[0], env, clock(0))
      case Crashed(t1, error, _) => Drained(t1, [], Some(error))
      case Finished(t1, result, _) =>
        var rest := ProcessQueue(t1, jobs[1..], env, (i: nat) => clock(i + 1));
        Drained(rest.table, [result] + rest.results, rest.crash)
  }

  /** Job by job: the i-th outcome is a failure exactly when the i-th job's
      extractor rejects; the queue crashes exactly when some job's extractor
      lets an exception escape, and then at the first such job, with its
      error. */
  ghost predicate QueueExplained(r: Drained, jobs: seq<Job>, env: Environment) {
    && |r.results| <= |jobs|
    && (forall i :: 0 <= i < |r.results| ==> (r.results[i].Failure? <==> JobExtraction(jobs[i], env).Rejects()))
    && (forall i :: 0 <= i < |r.results| ==> !JobExtraction(jobs[i], env).Uncaught?)
    && (r.crash.Some? ==> |r.results| < |jobs| && JobExtraction(jobs[|r.results|], env) == Uncaught(r.crash.value))
    && (r.crash.None? <==> forall i :: 0 <= i < |jobs| ==> !JobExtraction(jobs[i], env).Uncaught?)
  }

  /** Every drained queue is explained job by job in that way. */
  lemma {:induction false} ProcessQueueOutcomes(t: DocumentTable, jobs: seq<Job>, env: Environment, clock: nat -> nat)
    ensures QueueExplained(ProcessQueue(t, jobs, env, clock), jobs, env)
    decreases |jobs|
  {
    if |jobs| > 0 {
      var o := HandleFileUpload(t, jobs[0], env, clock(0));
      FailsIffExtractionFails(t, jobs[0], env, clock(0));
      if o.Finished? {
        var clock' := (i: nat) => clock(i + 1);
        ProcessQueueOutcomes(o.table, jobs[1..], env, clock');
        OutcomesStep(jobs, env, o.result, ProcessQueue(o.table, jobs[1..], env, clock'), ProcessQueue(t, jobs, env, clock));
      }
    }
  }

  /** A finished first job puts its own outcome in front of the rest's. */
  lemma OutcomesStep(jobs: seq<Job>, env: Environment, first: Result<(), HttpError>, rest: Drained, r: Drained)
    requires |jobs| > 0 && QueueExplained(rest, jobs[1..], env)
    requires r.results == [first] + rest.results && r.crash == rest.crash
    requires (first.Failure? <==> JobExtraction(jobs[0], env).Rejects()) && !JobExtraction(jobs[0], env).Uncaught?
    ensures QueueExplained(r, jobs, env)
  {
    forall i | 0 <= i < |r.results|
      ensures r.results[i].Failure? <==> JobExtraction(jobs[i], env).Rejects()
      ensures !JobExtraction(jobs[i], env).Uncaught?
    {
      if i > 0 {
        assert r.results[i] == rest.results[i - 1] && jobs[i] == jobs[1..][i - 1];
      }
    }
    if r.crash.Some? {
      assert jobs[|r.results|] == jobs[1..][|rest.results|];
    } else {
      forall i | 0 <= i < |jobs|
        ensures !JobExtraction(jobs[i], env).Uncaught?
      {
        if i > 0 {
          assert jobs[i] == jobs[1..][i - 1];
        }
      }
    }
  }

  /** Every job that starts adds exactly one row, ids stay unique, and no
      status other than PENDING or COMPLETED appears, however many jobs fail
      and whether or not the queue crashes. */
  lemma {:induction false} ProcessQueueInvariants(t: DocumentTable, jobs: seq<Job>, env: Environment, clock: nat -> nat)
    requires Valid(t) && OnlyPendingOrCompleted(t)
    ensures var r := ProcessQueue(t, jobs, env, clock);
      var started := |r.results| + (if r.crash.Some? then 1 else 0);
      && Valid(r.table) && OnlyPendingOrCompleted(r.table)
      && |r.table.rows| == |t.rows| + started && r.table.nextId == t.nextId + started
    decreases |jobs|
  {
    if |jobs| > 0 {
      HandlePreservesInvariants(t, jobs[0], env, clock(0));
      var o := HandleFileUpload(t, jobs[0], env, clock(0));
      if o.Finished? {
        ProcessQueueInvariants(o.table, jobs[1..], env, (i: nat) => clock(i + 1));
      }
    }
  }
}

=== FILE: profile_page.dfy ===
/** The profile page (frontend/src/app/profile/page.tsx): what it takes from
    the profile response. Its file-icon classifier is a second copy of the
    files page's. */
module ProfilePage {
  import opened Wrappers
  import opened Strings
  import opened MimeTypes
  import opened UserEntity
  import Permissions
  import FilesPage
  import DocumentEntity
  import UserService
  import Database

  /** The part of `response.data` the page reads: the role text and the
      documents, which may be missing. */
  datatype ProfileData<D> = ProfileData(role: string, documents: Option<seq<D>>)

  /** `userData.documents || []`. */
  function Documents<D>(p: ProfileData<D>): (r: seq<D>)
    ensures p.documents.Some? ==> r == p.documents.value
    ensures p.documents.None? ==> r == []
  {
    p.documents.GetOr([])
  }

  /** The body a `GET /user/profile` response carries, as the page would read
      it: the role by its column text, and the documents. The page itself
      asks for `/auth/profile`, which no controller serves, so in the code as
      written the request fails and the page logs the user out. */
  function ResponseOf(p: UserService.Profile): ProfileData<DocumentEntity.Document> {
    ProfileData(RoleName(p.role), Some(p.documents))
  }

  /** Given the body of `GET /user/profile`, the page would list exactly the
      user's own documents and show the admin links exactly to a user who
      may manage users; a response without a document list shows none. */
  lemma ShownDocuments(db: Database.Db, userId: nat, d: DocumentEntity.Document, role: string)
    requires UserService.GetProfile(db, userId).Some?
    ensures var p := UserService.GetProfile(db, userId).value;
      && (d in Documents(ResponseOf(p)) <==> d in db.documents.rows && d.userId == userId)
      && (IsAdmin(ResponseOf(p)) <==> Permissions.ManagesUsers(p.role))
    ensures Documents(ProfileData<DocumentEntity.Document>.ProfileData(role, None)) == []
  {
    var p := UserService.GetProfile(db, userId).value;
    UserService.GetProfileDocuments(db, userId, d);
    IsAdminIff(ResponseOf(p), p.role);
  }

  /** `['admin', 'owner'].includes(userData.role)`: the role text names a
      role that may manage users. */
  predicate IsAdmin<D>(p: ProfileData<D>)
    ensures IsAdmin(p) <==> ParseRole(p.role).Some? && Permissions.ManagesUsers(ParseRole(p.role).value)
  {
    p.role in ["admin", "owner"]
  }

  /** The admin links appear exactly for the roles the backend lets list and
      manage users. */
  lemma IsAdminIff<D>(p: ProfileData<D>, r: Role)
    requires p.role == RoleName(r)
    ensures IsAdmin(p) <==> Permissions.ManagesUsers(r)
  {
  }

  /** The page's own `getFileIcon`, written out a second time; it classifies
      every type as the files page does. */
  function FileIcon(fileType: string): (r: FilesPage.Icon)
    ensures r == FilesPage.FileIcon(fileType)
  {
    if StartsWith(fileType, ImagePrefix) then FilesPage.ImageIcon
    else if fileType == PdfType then FilesPage.PdfIcon
    else if fileType == XlsType || fileType == XlsxType then FilesPage.ExcelIcon
    else FilesPage.GenericIcon
  }

  /** The two copies classify every type alike; CSV and unlisted types are generic. */
  lemma IconsAgree(fileType: string)
    ensures FileIcon(fileType) == FilesPage.FileIcon(fileType)
    ensures FileIcon(CsvType) == FilesPage.GenericIcon
  {
    NamedTypesNotImages();
  }
}

=== FILE: seqs.dfy ===
/** Sequence helpers with the meaning of JavaScript's `Array.prototype.filter`
    and of a repository `findOne` that scans rows in table order. */
module Seqs {
  import opened Wrappers

  /** `a` is `b` with some elements dropped and the rest kept in order. */
  ghost predicate IsSubsequence<T>(a: seq<T>, b: seq<T>)
    decreases |b|
  {
    |a| == 0 || (|b| > 0 && if a[0] == b[0] then IsSubsequence(a[1..], b[1..]) else IsSubsequence(a, b[1..]))
  }

  /** The elements of `s` that satisfy `keep`, in their original order. */
  function Filter<T>(s: seq<T>, keep: T -> bool): (r: seq<T>)
    ensures |r| <= |s|
    ensures forall i :: 0 <= i < |r| ==> keep(r[i])
    decreases |s|
  {
    if |s| == 0 then []
    else
      var rest := Filter(s[1..], keep);
      if keep(s[0]) then [s[0]] + rest else rest
  }

  /** A filter adds nothing and loses nothing that passes: an element is in the
      result exactly when it is in the input and satisfies the predicate. */
  lemma {:induction false} FilterMembers<T>(s: seq<T>, keep: T -> bool, x: T)
    ensures x in Filter(s, keep) <==> x in s && keep(x)
    decreases |s|
  {
    if |s| > 0 {
      FilterMembers(s[1..], keep, x);
      assert s == [s[0]] + s[1..];
    }
  }

  /** A filter keeps the surviving elements in their original order. */
  lemma {:induction false} FilterIsSubsequence<T>(s: seq<T>, keep: T -> bool)
    ensures IsSubsequence(Filter(s, keep), s)
    decreases |s|
  {
    if |s| > 0 {
      FilterIsSubsequence(s[1..], keep);
      var rest := Filter(s[1..], keep);
      if keep(s[0]) {
        assert Filter(s, keep) == [s[0]] + rest;
        assert Filter(s, keep)[1..] == rest;
      } else if |rest| > 0 && rest[0] == s[0] {
        assert keep(rest[0]);
      }
    }
  }

  /** Index of the first element of `s` that satisfies `p`. */
  function FindFirst<T>(s: seq<T>, p: T -> bool): (r: Option<nat>)
    ensures r.Some? ==> r.value < |s| && p(s[r.value])
    ensures r.Some? ==> forall j :: 0 <= j < r.value ==> !p(s[j])
    ensures r.None? <==> forall j :: 0 <= j < |s| ==> !p(s[j])
    decreases |s|
  {
    if |s| == 0 then None
    else if p(s[0]) then Some(0)
    else match FindFirst(s[1..], p)
      case None => None
      case Some(k) => Some(k + 1)
  }

  /** Filtering with a predicate that every element satisfies keeps the sequence whole. */
  lemma {:induction false} FilterAll<T>(s: seq<T>, keep: T -> bool)
    requires forall i :: 0 <= i < |s| ==> keep(s[i])
    ensures Filter(s, keep) == s
    decreases |s|
  {
    if |s| > 0 {
      FilterAll(s[1..], keep);
    }
  }

  /** When exactly the element at `k` fails the predicate, the filter removes
      that one element and keeps the others in order. */
  lemma {:induction false} FilterDropsOne<T>(s: seq<T>, keep: T -> bool, k: nat)
    requires k < |s| && !keep(s[k])
    requires forall i :: 0 <= i < |s| && i != k ==> keep(s[i])
    ensures Filter(s, keep) == s[..k] + s[k + 1..]
    decreases |s|
  {
    var tail := s[1..];
    if k == 0 {
      FilterAll(tail, keep);
      assert s[..0] + s[1..] == tail;
    } else {
      assert forall i :: 0 <= i < |tail| && i != k - 1 ==> keep(tail[i]);
      FilterDropsOne(tail, keep, k - 1);
      assert keep(s[0]);
      assert tail[..k - 1] == s[1..k];
      assert tail[k..] == s[k + 1..];
      assert s[..k] == [s[0]] + s[1..k];
    }
  }

  /** Every pair of elements of `s`, taken in order, is related by `rel`. */
  ghost predicate Pairwise<T>(s: seq<T>, rel: (T, T) -> bool) {
    forall i, j :: 0 <= i < j < |s| ==> rel(s[i], s[j])
  }

  /** A filter keeps any relation that held between all ordered pairs (sorted
      keys stay sorted, distinct keys stay distinct). */
  lemma {:induction false} FilterPairwise<T>(s: seq<T>, keep: T -> bool, rel: (T, T) -> bool)
    requires Pairwise(s, rel)
    ensures Pairwise(Filter(s, keep), rel)
    decreases |s|
  {
    if |s| > 0 {
      var tail := s[1..];
      assert Pairwise(tail, rel) by {
        forall i, j | 0 <= i < j < |tail|
          ensures rel(tail[i], tail[j])
        {
          assert tail[i] == s[i + 1] && tail[j] == s[j + 1];
        }
      }
      FilterPairwise(tail, keep, rel);
      var rest := Filter(tail, keep);
      if keep(s[0]) {
        var r := Filter(s, keep);
        assert r == [s[0]] + rest;
        forall i, j | 0 <= i < j < |r|
          ensures rel(r[i], r[j])
        {
          if i == 0 {
            FilterMembers(tail, keep, r[j]);
            var k :| 0 <= k < |tail| && tail[k] == r[j];
            assert s[k + 1] == r[j];
          } else {
            assert r[i] == rest[i - 1] && r[j] == rest[j - 1];
          }
        }
      }
    }
  }
}

=== FILE: strings.dfy ===
/** The JavaScript string operations the system relies on (`startsWith`,
    `replace` with a string pattern, `split`, `join`, `trim`, number-to-string),
    over `string` = `seq<char>`. */
module Strings {
  import opened Wrappers

  predicate StartsWith(s: string, prefix: string) {
    |prefix| <= |s| && s[..|prefix|] == prefix
  }

  predicate EndsWith(s: string, suffix: string) {
    |suffix| <= |s| && s[|s| - |suffix|..] == suffix
  }

  /** `pat` occurs in `s` starting at index `k`. */
  predicate OccursAt(s: string, pat: string, k: nat) {
    k + |pat| <= |s| && s[k..k + |pat|] == pat
  }

  /** `String.prototype.indexOf(pat, from)`: the first occurrence at or after `from`. */
  function IndexOf(s: string, pat: string, from: nat): (r: Option<nat>)
    ensures r.Some? ==> from <= r.value && OccursAt(s, pat, r.value)
    ensures r.Some? ==> forall k: nat :: from <= k < r.value ==> !OccursAt(s, pat, k)
    ensures r.None? ==> forall k: nat :: from <= k ==> !OccursAt(s, pat, k)
    decreases |s| - from
  {
    if from + |pat| > |s| then None
    else if s[from..from + |pat|] == pat then Some(from)
    else IndexOf(s, pat, from + 1)
  }

  /** `s.replace(pat, rep)` for a string pattern: only the first occurrence is replaced. */
  function ReplaceFirst(s: string, pat: string, rep: string): string {
    match IndexOf(s, pat, 0)
    case None => s
    case Some(k) => s[..k] + rep + s[k + |pat|..]
  }

  /** Replacing a pattern that does not occur leaves the string unchanged. */
  lemma ReplaceFirstAbsent(s: string, pat: string, rep: string)
    requires forall k: nat :: !OccursAt(s, pat, k)
    ensures ReplaceFirst(s, pat, rep) == s
  {
  }

  /** Replacing a pattern the string starts with drops exactly that prefix when `rep` is empty. */
  lemma ReplaceFirstPrefix(s: string, pat: string)
    requires StartsWith(s, pat)
    ensures ReplaceFirst(s, pat, "") == s[|pat|..]
  {
    assert OccursAt(s, pat, 0);
  }

  /** `s.split(sep)` for a one-character separator: never empty, and no part contains `sep`. */
  function Split(s: string, sep: char): (parts: seq<string>)
    ensures |parts| >= 1
    ensures forall i :: 0 <= i < |parts| ==> sep !in parts[i]
    decreases |s|
  {
    if |s| == 0 then [""]
    else
      var rest := Split(s[1..], sep);
      if s[0] == sep then [""] + rest
      else [[s[0]] + rest[0]] + rest[1..]
  }

  /** `xs.join(sep)`. */
  function Join(xs: seq<string>, sep: string): string
    decreases |xs|
  {
    if |xs| == 0 then ""
    else if |xs| == 1 then xs[0]
    else xs[0] + sep + Join(xs[1..], sep)
  }

  /** Number of occurrences of the character `c` in `s`. */
  function Count(s: string, c: char): nat
    decreases |s|
  {
    if |s| == 0 then 0 else (if s[0] == c then 1 else 0) + Count(s[1..], c)
  }

  lemma {:induction false} CountAppend(a: string, b: string, c: char)
    ensures Count(a + b, c) == Count(a, c) + Count(b, c)
    decreases |a|
  {
    if |a| == 0 {
      assert a + b == b;
    } else {
      CountAppend(a[1..], b, c);
      assert (a + b)[1..] == a[1..] + b;
    }
  }

  lemma {:induction false} CountAbsent(s: string, c: char)
    requires c !in s
    ensures Count(s, c) == 0
    decreases |s|
  {
    if |s| > 0 {
      assert s == [s[0]] + s[1..];
      CountAbsent(s[1..], c);
    }
  }

  /** A string free of the separator splits into itself. */
  lemma {:induction false} SplitAbsent(s: string, sep: char)
    requires sep !in s
    ensures Split(s, sep) == [s]
    decreases |s|
  {
    if |s| > 0 {
      assert s == [s[0]] + s[1..];
      SplitAbsent(s[1..], sep);
    }
  }

  /** Splitting at the first separator: the part before it, then the split of the rest. */
  lemma {:induction false} SplitAtSeparator(a: string, sep: char, b: string)
    requires sep !in a
    ensures Split(a + [sep] + b, sep) == [a] + Split(b, sep)
    decreases |a|
  {
    var s := a + [sep] + b;
    if |a| == 0 {
      assert s == [sep] + b;
      assert s[1..] == b;
    } else {
      assert a == [a[0]] + a[1..];
      SplitAtSeparator(a[1..], sep, b);
      assert s[1..] == a[1..] + [sep] + b;
      assert s[0] == a[0];
    }
  }

  /** `join` and `split` on one separator character are inverse as long as at
      least one item is joined and no item contains the separator. */
  lemma {:induction false} SplitJoin(xs: seq<string>, sep: char)
    requires |xs| >= 1
    requires forall i :: 0 <= i < |xs| ==> sep !in xs[i]
    ensures Split(Join(xs, [sep]), sep) == xs
    decreases |xs|
  {
    if |xs| == 1 {
      SplitAbsent(xs[0], sep);
    } else {
      SplitJoin(xs[1..], sep);
      SplitAtSeparator(xs[0], sep, Join(xs[1..], [sep]));
      assert xs == [xs[0]] + xs[1..];
    }
  }

  /** Joining n separator-free items puts exactly n - 1 separators in the result. */
  lemma {:induction false} JoinSeparatorCount(xs: seq<string>, sep: char)
    requires |xs| >= 1
    requires forall i :: 0 <= i < |xs| ==> sep !in xs[i]
    ensures Count(Join(xs, [sep]), sep) == |xs| - 1
    decreases |xs|
  {
    CountAbsent(xs[0], sep);
    if |xs| > 1 {
      JoinSeparatorCount(xs[1..], sep);
      CountAppend(xs[0] + [sep], Join(xs[1..], [sep]), sep);
      CountAppend(xs[0], [sep], sep);
    }
  }

  /** A join ends with its last item: no trailing separator is added. */
  lemma {:induction false} JoinEndsWithLast(xs: seq<string>, sep: string)
    requires |xs| >= 1
    ensures EndsWith(Join(xs, sep), xs[|xs| - 1])
    decreases |xs|
  {
    if |xs| > 1 {
      JoinEndsWithLast(xs[1..], sep);
      var tail := Join(xs[1..], sep);
      var j := xs[0] + sep + tail;
      assert j[|j| - |tail|..] == tail;
      assert j[|j| - |xs[|xs| - 1]|..] == tail[|tail| - |xs[|xs| - 1]|..];
    }
  }

  // ---------------------------------------------------------------- whitespace

  /** The characters `String.prototype.trim` and the unary plus strip: the
      ECMAScript WhiteSpace set (tab, vertical tab, form feed, space, no-break
      space, the byte-order mark and every other space separator of Unicode
      category Zs) and the LineTerminator set (line feed, carriage return,
      line separator, paragraph separator). */
  predicate IsWhitespace(c: char) {
    || c == '\t' || c == '\U{000B}' || c == '\U{000C}' || c == ' ' || c == '\U{00A0}' || c == '\U{FEFF}'
    || c == '\U{1680}' || ('\U{2000}' <= c <= '\U{200A}') || c == '\U{202F}' || c == '\U{205F}' || c == '\U{3000}'
    || c == '\n' || c == '\r' || c == '\U{2028}' || c == '\U{2029}'
  }

  function TrimStart(s: string): (r: string)
    ensures |r| <= |s| && r == s[|s| - |r|..]
    ensures forall i :: 0 <= i < |s| - |r| ==> IsWhitespace(s[i])
    ensures |r| > 0 ==> !IsWhitespace(r[0])
    decreases |s|
  {
    if |s| > 0 && IsWhitespace(s[0]) then TrimStart(s[1..]) else s
  }

  function TrimEnd(s: string): (r: string)
    ensures |r| <= |s| && r == s[..|r|]
    ensures forall i :: |r| <= i < |s| ==> IsWhitespace(s[i])
    ensures |r| > 0 ==> !IsWhitespace(r[|r| - 1])
    decreases |s|
  {
    if |s| > 0 && IsWhitespace(s[|s| - 1]) then TrimEnd(s[..|s| - 1]) else s
  }

  /** `s.trim()`. */
  function Trim(s: string): string {
    TrimEnd(TrimStart(s))
  }

  /** A trimmed string is empty exactly when the input is all whitespace. */
  lemma TrimEmptyIff(s: string)
    ensures Trim(s) == "" <==> forall i :: 0 <= i < |s| ==> IsWhitespace(s[i])
  {
    var t := TrimStart(s);
    if Trim(s) != "" {
      var r := Trim(s);
      assert !IsWhitespace(r[0]);
      assert r[0] == t[0] == s[|s| - |t|];
    }
  }

  /** A trimmed string starts and ends with a non-whitespace character. */
  lemma TrimBoundaries(s: string)
    ensures Trim(s) != "" ==> !IsWhitespace(Trim(s)[0]) && !IsWhitespace(Trim(s)[|Trim(s)| - 1])
  {
    var t := TrimStart(s);
    var r := Trim(s);
    if r != "" {
      assert r[0] == t[0];
    }
  }

  /** Trimming twice is trimming once. */
  lemma TrimIdempotent(s: string)
    ensures Trim(Trim(s)) == Trim(s)
  {
    TrimBoundaries(s);
  }

  /** White space before a string that starts with another character is
      exactly what `TrimStart` removes. */
  lemma {:induction false} TrimStartPadded(pad: string, s: string)
    requires forall i :: 0 <= i < |pad| ==> IsWhitespace(pad[i])
    requires |s| > 0 && !IsWhitespace(s[0])
    ensures TrimStart(pad + s) == s
    decreases |pad|
  {
    if |pad| > 0 {
      assert (pad + s)[1..] == pad[1..] + s;
      TrimStartPadded(pad[1..], s);
    } else {
      assert pad + s == s;
    }
  }

  /** White space after a string that ends with another character is exactly
      what `TrimEnd` removes. */
  lemma {:induction false} TrimEndPadded(s: string, pad: string)
    requires forall i :: 0 <= i < |pad| ==> IsWhitespace(pad[i])
    requires |s| > 0 && !IsWhitespace(s[|s| - 1])
    ensures TrimEnd(s + pad) == s
    decreases |pad|
  {
    if |pad| > 0 {
      assert (s + pad)[..|s + pad| - 1] == s + pad[..|pad| - 1];
      TrimEndPadded(s, pad[..|pad| - 1]);
    } else {
      assert s + pad == s;
    }
  }

  /** `trim` removes exactly the white space around a string whose ends are
      not white space. */
  lemma TrimPadded(before: string, s: string, after: string)
    requires forall i :: 0 <= i < |before| ==> IsWhitespace(before[i])
    requires forall i :: 0 <= i < |after| ==> IsWhitespace(after[i])
    requires |s| > 0 && !IsWhitespace(s[0]) && !IsWhitespace(s[|s| - 1])
    ensures Trim(before + s + after) == s
  {
    assert before + s + after == before + (s + after);
    assert (s + after)[0] == s[0];
    TrimStartPadded(before, s + after);
    TrimEndPadded(s, after);
  }

  // ------------------------------------------------------------------ numbers

  predicate IsDigit(c: char) {
    '0' <= c <= '9'
  }

  predicate AllDigits(s: string) {
    forall i :: 0 <= i < |s| ==> IsDigit(s[i])
  }

  function DigitChar(d: nat): (c: char)
    requires d < 10
    ensures IsDigit(c)
  {
    "0123456789"[d]
  }

  function DigitValue(c: char): (d: nat)
    requires IsDigit(c)
    ensures d < 10
  {
    (c as int - '0' as int) as nat
  }

  /** Decimal rendering of a non-negative integer, as `String(n)` or a template literal gives it. */
  function NatToString(n: nat): (s: string)
    ensures |s| >= 1 && AllDigits(s)
    decreases n
  {
    if n < 10 then [DigitChar(n)] else NatToString(n / 10) + [DigitChar(n % 10)]
  }

  /** The value of a string of decimal digits (the empty string is 0). */
  function ParseDigits(s: string): nat
    requires AllDigits(s)
    decreases |s|
  {
    if |s| == 0 then 0 else ParseDigits(s[..|s| - 1]) * 10 + DigitValue(s[|s| - 1])
  }

  /** Reading back a rendered number gives the number. */
  lemma {:induction false} ParseNatToString(n: nat)
    ensures ParseDigits(NatToString(n)) == n
    decreases n
  {
    var s := NatToString(n);
    if n >= 10 {
      ParseNatToString(n / 10);
      assert s[..|s| - 1] == NatToString(n / 10);
    }
  }

  /** Distinct numbers render to distinct strings. */
  lemma NatToStringInjective(a: nat, b: nat)
    ensures NatToString(a) == NatToString(b) <==> a == b
  {
    if NatToString(a) == NatToString(b) {
      ParseNatToString(a);
      ParseNatToString(b);
    }
  }

  /** A decimal rendering never contains the character `c` unless it is a digit. */
  lemma NatToStringHasNo(n: nat, c: char)
    requires !IsDigit(c)
    ensures c !in NatToString(n)
  {
  }
}

=== FILE: upload_page.dfy ===
/** The client-side file filter and upload handler of
    frontend/src/app/upload/page.tsx. A browser `File` is reduced to its
    name and MIME type. */
module UploadPage {
  import opened Wrappers
  import opened Seqs
  import opened Strings
  import opened MimeTypes

  datatype BrowserFile = BrowserFile(name: string, mimeType: string)

  /** The page's `allowedTypes`. */
  const AllowedTypes: seq<string> := ["image/*", PdfType, XlsType, CsvType, XlsxType]

  /** `toLowerCase` on the ASCII letters. */
  function ToLowerAscii(s: string): (r: string)
    ensures |r| == |s|
  {
    if |s| == 0 then ""
    else [if 'A' <= s[0] <= 'Z' then (s[0] as int + 32) as char else s[0]] + ToLowerAscii(s[1..])
  }

  /** `file.name.split('.').pop()?.toLowerCase()`: the text after the last dot,
      or the whole name when there is none. */
  function Extension(name: string): string {
    var parts := Split(name, '.');
    ToLowerAscii(parts[|parts| - 1])
  }

  /** One `allowedTypes.some` test: an entry with a slash compares the MIME
      type with the text before the slash; any other entry compares the
      extension. */
  predicate MatchesEntry(f: BrowserFile, entry: string)
    ensures '/' !in entry && StartsWith(entry, ".") ==> (MatchesEntry(f, entry) <==> Extension(f.name) == entry[1..])
    ensures '/' !in entry && '.' !in entry ==> (MatchesEntry(f, entry) <==> Extension(f.name) == entry)
  {
    if '/' !in entry && StartsWith(entry, ".") then
      ReplaceFirstPrefix(entry, ".");
      assert entry[0] == entry[..1][0];
      Extension(f.name) == ReplaceFirst(entry, ".", "")
    else if '/' !in entry && '.' !in entry then
      ReplaceFirstAbsent(entry, ".", "");
      Extension(f.name) == ReplaceFirst(entry, ".", "")
    else if '/' in entry then StartsWith(f.mimeType, Split(entry, '/')[0])
    else Extension(f.name) == ReplaceFirst(entry, ".", "")
  }

  /** `allowedTypes.some(...)`. Every entry has a slash, so a file is kept
      exactly when its MIME type starts with `image`, `application` or
      `text`, whatever its name. */
  predicate Accepted(f: BrowserFile)
    ensures Accepted(f) <==>
      StartsWith(f.mimeType, "image") || StartsWith(f.mimeType, "application") || StartsWith(f.mimeType, "text")
  {
    SomeEntryIff(f);
    exists i :: 0 <= i < |AllowedTypes| && MatchesEntry(f, AllowedTypes[i])
  }

  /** The text before the slash of each entry of `AllowedTypes`, in order. */
  const AllowedFamilyNames: seq<string> := ["image", "application", "application", "text", "application"]

  /** An entry with a slash compares the MIME type with its family. */
  lemma SlashEntryMatch(f: BrowserFile, entry: string, family: string)
    requires '/' in entry && Split(entry, '/')[0] == family
    ensures MatchesEntry(f, entry) <==> StartsWith(f.mimeType, family)
  {
  }

  /** Each entry matches exactly the MIME types of its family. */
  lemma EntryMatch(f: BrowserFile, i: nat)
    requires i < |AllowedTypes|
    ensures MatchesEntry(f, AllowedTypes[i]) <==> StartsWith(f.mimeType, AllowedFamilyNames[i])
  {
    AllowedFamilies();
    assert '/' in AllowedTypes[i] && Split(AllowedTypes[i], '/')[0] == AllowedFamilyNames[i] by {
      if i == 0 {
      } else if i == 1 {
      } else if i == 2 {
      } else if i == 3 {
      } else {
      }
    }
    SlashEntryMatch(f, AllowedTypes[i], AllowedFamilyNames[i]);
  }

  /** The `some` over the five entries, reduced to the three MIME families
      their slashes select. */
  lemma SomeEntryIff(f: BrowserFile)
    ensures (exists i :: 0 <= i < |AllowedTypes| && MatchesEntry(f, AllowedTypes[i])) <==>
      StartsWith(f.mimeType, "image") || StartsWith(f.mimeType, "application") || StartsWith(f.mimeType, "text")
  {
    if exists i :: 0 <= i < |AllowedTypes| && MatchesEntry(f, AllowedTypes[i]) {
      var i :| 0 <= i < |AllowedTypes| && MatchesEntry(f, AllowedTypes[i]);
      EntryMatch(f, i);
      FamilyNamesAre(i);
    }
    if StartsWith(f.mimeType, "image") {
      EntryMatch(f, 0);
      assert MatchesEntry(f, AllowedTypes[0]);
    }
    if StartsWith(f.mimeType, "application") {
      EntryMatch(f, 1);
      assert MatchesEntry(f, AllowedTypes[1]);
    }
    if StartsWith(f.mimeType, "text") {
      EntryMatch(f, 3);
      assert MatchesEntry(f, AllowedTypes[3]);
    }
  }

  lemma FamilyNamesAre(i: nat)
    requires i < |AllowedFamilyNames|
    ensures AllowedFamilyNames[i] == "image" || AllowedFamilyNames[i] == "application" || AllowedFamilyNames[i] == "text"
  {
  }

  /** `validateFiles`. */
  function ValidateFiles(files: seq<BrowserFile>): (r: seq<BrowserFile>)
    ensures |r| <= |files|
    ensures forall i :: 0 <= i < |r| ==> Accepted(r[i])
  {
    Filter(files, Accepted)
  }

  /** The text before the slash of each allowed entry. */
  lemma AllowedFamilies()
    ensures '/' in AllowedTypes[0] && Split(AllowedTypes[0], '/')[0] == "image"
    ensures '/' in AllowedTypes[1] && Split(AllowedTypes[1], '/')[0] == "application"
    ensures '/' in AllowedTypes[2] && Split(AllowedTypes[2], '/')[0] == "application"
    ensures '/' in AllowedTypes[3] && Split(AllowedTypes[3], '/')[0] == "text"
    ensures '/' in AllowedTypes[4] && Split(AllowedTypes[4], '/')[0] == "application"
  {
    assert '/' in AllowedTypes[0] && Split(AllowedTypes[0], '/')[0] == "image" by { ImageFamily(); }
    assert '/' in AllowedTypes[1] && Split(AllowedTypes[1], '/')[0] == "application" by { PdfFamily(); }
    assert '/' in AllowedTypes[2] && Split(AllowedTypes[2], '/')[0] == "application" by { XlsFamily(); }
    assert '/' in AllowedTypes[3] && Split(AllowedTypes[3], '/')[0] == "text" by { CsvFamily(); }
    assert '/' in AllowedTypes[4] && Split(AllowedTypes[4], '/')[0] == "application" by { XlsxFamily(); }
  }

  lemma ImageFamily()
    ensures '/' in "image/*" && Split("image/*", '/')[0] == "image"
  {
    assert "image/*" == "image" + ['/'] + "*";
    FamilyOf("image", "*");
  }

  lemma PdfFamily()
    ensures '/' in PdfType && Split(PdfType, '/')[0] == "application"
  {
    assert PdfType == "application" + ['/'] + "pdf";
    FamilyOf("application", "pdf");
  }

  lemma XlsFamily()
    ensures '/' in XlsType && Split(XlsType, '/')[0] == "application"
  {
    assert XlsType == "application" + ['/'] + "vnd.ms-excel";
    FamilyOf("application", "vnd.ms-excel");
  }

  lemma CsvFamily()
    ensures '/' in CsvType && Split(CsvType, '/')[0] == "text"
  {
    assert CsvType == "text" + ['/'] + "csv";
    FamilyOf("text", "csv");
  }

  lemma XlsxFamily()
    ensures '/' in XlsxType && Split(XlsxType, '/')[0] == "application"
  {
    var rest := "vnd.openxmlformats-officedocument.spreadsheetml.sheet";
    assert "application/" == "application" + ['/'];
    assert XlsxType == "application" + ['/'] + rest;
    FamilyOf("application", rest);
  }

  lemma FamilyOf(family: string, rest: string)
    requires '/' !in family
    ensures '/' in family + ['/'] + rest
    ensures Split(family + ['/'] + rest, '/')[0] == family
  {
    assert (family + ['/'] + rest)[|family|] == '/';
    SplitAtSeparator(family, '/', rest);
  }

  /** The extension test is never reached: renaming a file never changes
      whether it is kept. */
  lemma NameNeverDecides(f: BrowserFile, name: string)
    ensures Accepted(f) <==> Accepted(f.(name := name))
  {
  }

  /** The result is a filter of the selection: it keeps exactly the accepted
      files, in their order, and adds none. */
  lemma ValidateFilesFilters(files: seq<BrowserFile>, f: BrowserFile)
    ensures f in ValidateFiles(files) <==> f in files && Accepted(f)
    ensures IsSubsequence(ValidateFiles(files), files)
  {
    FilterMembers(files, Accepted, f);
    FilterIsSubsequence(files, Accepted);
  }

  datatype PageState = PageState(files: seq<BrowserFile>, buttonDisabled: bool, isUploading: bool)

  /** `handleFileChange` and `handleDrop` with a selection. */
  function Select(state: PageState, selected: seq<BrowserFile>): (r: PageState)
    ensures r.isUploading == state.isUploading
    ensures r.buttonDisabled <==> r.files == []
    ensures r.files == ValidateFiles(selected)
  {
    var valid := ValidateFiles(selected);
    state.(files := valid, buttonDisabled := |valid| == 0)
  }

  /** The button is usable when it is not disabled and no upload is running. */
  predicate UploadEnabled(state: PageState) {
    !state.buttonDisabled && !state.isUploading
  }

  /** After a selection the button is disabled exactly when no selected file
      was accepted. */
  lemma SelectEnables(state: PageState, selected: seq<BrowserFile>)
    ensures Select(state, selected).buttonDisabled <==> forall i :: 0 <= i < |selected| ==> !Accepted(selected[i])
  {
    var valid := ValidateFiles(selected);
    if valid != [] {
      FilterMembers(selected, Accepted, valid[0]);
    }
    forall i | 0 <= i < |selected| && Accepted(selected[i]) ensures valid != [] {
      FilterMembers(selected, Accepted, selected[i]);
    }
  }

  /** `uploadFilesHandler`: nothing for an empty list; otherwise the form
      carries every file, in order, under the key `files`. */
  function FormEntries(files: seq<BrowserFile>): (r: Option<seq<(string, BrowserFile)>>)
    ensures r.None? <==> files == []
    ensures r.Some? ==> |r.value| == |files| && forall i :: 0 <= i < |files| ==> r.value[i] == ("files", files[i])
  {
    if |files| == 0 then None
    else Some(seq(|files|, i requires 0 <= i < |files| => ("files", files[i])))
  }

  /** `formData.getAll(key)`: the values appended under `key`, in order. This
      is the field the server's `FileFieldsInterceptor` reads the upload from
      (it also refuses more than ten files, which is not modelled). */
  function GetAll(entries: seq<(string, BrowserFile)>, key: string): seq<BrowserFile>
    decreases |entries|
  {
    if |entries| == 0 then []
    else (if entries[0].0 == key then [entries[0].1] else []) + GetAll(entries[1..], key)
  }

  /** The form the handler sends gives the server back every selected file,
      in order, under `files`, and nothing under any other key. */
  lemma FormRoundTrip(files: seq<BrowserFile>, key: string)
    requires files != []
    ensures FormEntries(files).Some?
    ensures GetAll(FormEntries(files).value, "files") == files
    ensures key != "files" ==> GetAll(FormEntries(files).value, key) == []
  {
    GetAllTagged(files, "files");
    GetAllTagged(files, key);
  }

  lemma {:induction false} GetAllTagged(files: seq<BrowserFile>, key: string)
    ensures GetAll(seq(|files|, i requires 0 <= i < |files| => ("files", files[i])), key)
      == if key == "files" then files else []
    decreases |files|
  {
    var e := seq(|files|, i requires 0 <= i < |files| => ("files", files[i]));
    if |files| > 0 {
      var rest := files[1..];
      assert e[1..] == seq(|rest|, i requires 0 <= i < |rest| => ("files", rest[i]));
      GetAllTagged(rest, key);
      if key == "files" {
        assert [files[0]] + rest == files;
      }
    }
  }
}

=== FILE: user_entity.dfy ===
/** The `users` table (backend/src/models/user.entity.ts): unique usernames and
    emails, a free-text role column whose default is `normal`. */
module UserEntity {
  import opened Wrappers
  import opened Seqs
  import opened Errors

  /** The role values the code reads or writes. `Normal` is only the column
      default; registration and role updates never produce it. */
  datatype Role = Normal | TeamMember | Admin | Owner

  /** The text stored in the role column. */
  function RoleName(r: Role): string {
    match r
    case Normal => "normal"
    case TeamMember => "teammember"
    case Admin => "admin"
    case Owner => "owner"
  }

  /** Reading a role column value back. */
  function ParseRole(v: string): (r: Option<Role>)
    ensures r.Some? ==> RoleName(r.value) == v
  {
    if v == "normal" then Some(Normal)
    else if v == "teammember" then Some(TeamMember)
    else if v == "admin" then Some(Admin)
    else if v == "owner" then Some(Owner)
    else None
  }

  /** Role names and roles correspond one to one. */
  lemma RoleNameRoundTrip(r: Role, v: string)
    ensures ParseRole(v) == Some(r) <==> RoleName(r) == v
  {
  }

  /** The role a row gets when none is given. */
  const DefaultRole: Role := Normal

  /** A row; `password` holds the bcrypt hash, `createdAt` the insertion time. */
  datatype User = User(
    id: nat,
    username: string,
    email: string,
    password: string,
    role: Role,
    firstName: string,
    lastName: string,
    createdAt: nat)

  /** The rows in rowid order and the AUTOINCREMENT counter. */
  datatype UserTable = UserTable(rows: seq<User>, nextId: nat)

  const EmptyTable := UserTable([], 1)

  function IdBefore(a: User, b: User): bool {
    a.id < b.id
  }

  function DistinctNames(a: User, b: User): bool {
    a.username != b.username && a.email != b.email
  }

  /** Ids positive, increasing and below the counter; no two rows share a
      username or an email (the two `unique` columns). */
  ghost predicate Valid(t: UserTable) {
    && t.nextId >= 1
    && (forall i :: 0 <= i < |t.rows| ==> 1 <= t.rows[i].id < t.nextId)
    && Pairwise(t.rows, IdBefore)
    && Pairwise(t.rows, DistinctNames)
  }

  /** `findOne({ where: { id } })`. */
  function FindById(t: UserTable, id: nat): (r: Option<User>)
    ensures r.Some? ==> r.value in t.rows && r.value.id == id
    ensures r.None? <==> forall i :: 0 <= i < |t.rows| ==> t.rows[i].id != id
  {
    match FindFirst(t.rows, (u: User) => u.id == id)
    case None => None
    case Some(k) => Some(t.rows[k])
  }

  /** In a valid table a row is the one `FindById` returns for its id. */
  lemma FindByIdOfRow(t: UserTable, k: nat)
    requires Valid(t) && k < |t.rows|
    ensures FindById(t, t.rows[k].id) == Some(t.rows[k])
  {
    var idx := FindFirst(t.rows, (u: User) => u.id == t.rows[k].id);
    assert idx.Some?;
  }

  function UniqueViolation(column: string): HttpError {
    InternalError("SQLITE_CONSTRAINT: UNIQUE constraint failed: users." + column)
  }

  /** The unique-constraint check the database makes when `u` is written:
      another row (one with a different id) may not hold its username or email. */
  function CheckUnique(rows: seq<User>, u: User): (r: Option<HttpError>)
    ensures r.None? <==> forall i :: 0 <= i < |rows| && rows[i].id != u.id ==> DistinctNames(rows[i], u)
  {
    if exists i :: 0 <= i < |rows| && rows[i].id != u.id && rows[i].username == u.username then
      Some(UniqueViolation("username"))
    else if exists i :: 0 <= i < |rows| && rows[i].id != u.id && rows[i].email == u.email then
      Some(UniqueViolation("email"))
    else None
  }

  /** `repository.save` of a new entity: it gets the next id and is appended,
      unless the unique constraints reject it. */
  function Insert(t: UserTable, u: User): (r: Result<(UserTable, User), HttpError>)
    ensures r.Failure? <==> CheckUnique(t.rows, u.(id := t.nextId)).Some?
    ensures r.Failure? ==> r.error == CheckUnique(t.rows, u.(id := t.nextId)).value
    ensures r.Success? ==> r.value.1 == u.(id := t.nextId)
    ensures r.Success? ==> r.value.0 == UserTable(t.rows + [r.value.1], t.nextId + 1)
  {
    var row := u.(id := t.nextId);
    match CheckUnique(t.rows, row)
    case Some(e) => Failure(e)
    case None => Success((UserTable(t.rows + [row], t.nextId + 1), row))
  }

  /** `repository.save` of a loaded entity: the row with its id is overwritten,
      unless the unique constraints reject the new values. */
  function Save(t: UserTable, u: User): (r: Result<UserTable, HttpError>)
    ensures r.Failure? <==> CheckUnique(t.rows, u).Some?
    ensures r.Failure? ==> r.error == CheckUnique(t.rows, u).value
    ensures r.Success? ==> r.value.nextId == t.nextId && |r.value.rows| == |t.rows|
    ensures r.Success? ==> forall i :: 0 <= i < |t.rows| ==>
      r.value.rows[i] == (if t.rows[i].id == u.id then u else t.rows[i])
  {
    match CheckUnique(t.rows, u)
    case Some(e) => Failure(e)
    case None =>
      Success(UserTable(seq(|t.rows|, i requires 0 <= i < |t.rows| => if t.rows[i].id == u.id then u else t.rows[i]), t.nextId))
  }

  /** `repository.delete(id)`: the rows whose id differs, in their order. */
  function Remove(t: UserTable, id: nat): (r: UserTable)
    ensures r.nextId == t.nextId && |r.rows| <= |t.rows|
    ensures forall i :: 0 <= i < |r.rows| ==> r.rows[i].id != id
  {
    UserTable(Filter(t.rows, (u: User) => u.id != id), t.nextId)
  }

  /** `repository.clear()`: no rows remain; the AUTOINCREMENT counter is kept. */
  function Clear(t: UserTable): (r: UserTable)
    ensures r.rows == [] && r.nextId == t.nextId
  {
    UserTable([], t.nextId)
  }

  /** After a clear no id finds a user, any new user is accepted (no name is
      taken any more), and it gets an id above every cleared one: ids are
      never reused. */
  lemma ClearNeverReusesIds(t: UserTable, u: User)
    requires Valid(t)
    ensures Valid(Clear(t))
    ensures forall id :: FindById(Clear(t), id).None?
    ensures Insert(Clear(t), u).Success?
    ensures forall i :: 0 <= i < |t.rows| ==> t.rows[i].id < Insert(Clear(t), u).value.1.id
  {
  }

  /** An accepted insert keeps the table valid: unique ids, usernames and emails. */
  lemma InsertValid(t: UserTable, u: User)
    requires Valid(t) && Insert(t, u).Success?
    ensures Valid(Insert(t, u).value.0)
  {
    var row := u.(id := t.nextId);
    var rows := t.rows + [row];
    forall i, j | 0 <= i < j < |rows|
      ensures IdBefore(rows[i], rows[j]) && DistinctNames(rows[i], rows[j])
    {
      if j == |t.rows| {
        assert rows[i] == t.rows[i];
      } else {
        assert rows[i] == t.rows[i] && rows[j] == t.rows[j];
      }
    }
  }

  /** An accepted save of a row that keeps its id keeps the table valid. */
  lemma SaveValid(t: UserTable, u: User)
    requires Valid(t) && Save(t, u).Success?
    requires 1 <= u.id < t.nextId
    ensures Valid(Save(t, u).value)
  {
    var rows := Save(t, u).value.rows;
    forall i, j | 0 <= i < j < |rows|
      ensures IdBefore(rows[i], rows[j]) && DistinctNames(rows[i], rows[j])
    {
      assert IdBefore(t.rows[i], t.rows[j]) && DistinctNames(t.rows[i], t.rows[j]);
    }
  }

  /** Rewriting an existing row without touching its username or email never
      breaks a unique constraint in a valid table. */
  lemma SaveKeepingNamesSucceeds(t: UserTable, k: nat, u: User)
    requires Valid(t) && k < |t.rows|
    requires u.id == t.rows[k].id && u.username == t.rows[k].username && u.email == t.rows[k].email
    ensures Save(t, u).Success?
  {
    forall i | 0 <= i < |t.rows| && t.rows[i].id != u.id
      ensures DistinctNames(t.rows[i], u)
    {
      if i < k { assert DistinctNames(t.rows[i], t.rows[k]); }
      else { assert DistinctNames(t.rows[k], t.rows[i]); }
    }
  }

  /** In a valid table no id is carried by two rows. */
  lemma IdsUnique(t: UserTable, i: nat, j: nat)
    requires Valid(t) && i < |t.rows| && j < |t.rows| && t.rows[i].id == t.rows[j].id
    ensures i == j
  {
  }

  /** Deleting removes exactly the rows with that id: every other row stays. */
  lemma RemoveExactly(t: UserTable, id: nat, u: User)
    ensures u in Remove(t, id).rows <==> u in t.rows && u.id != id
  {
    FilterMembers(t.rows, (u: User) => u.id != id, u);
  }

  /** Deleting keeps the table valid. */
  lemma RemoveValid(t: UserTable, id: nat)
    requires Valid(t)
    ensures Valid(Remove(t, id))
  {
    var keep := (u: User) => u.id != id;
    FilterPairwise(t.rows, keep, IdBefore);
    FilterPairwise(t.rows, keep, DistinctNames);
    forall u | u in Remove(t, id).rows
      ensures 1 <= u.id < t.nextId
    {
      FilterMembers(t.rows, keep, u);
    }
  }

  /** In a valid table, deleting an existing id removes exactly one row. */
  lemma RemoveOne(t: UserTable, k: nat)
    requires Valid(t) && k < |t.rows|
    ensures Remove(t, t.rows[k].id).rows == t.rows[..k] + t.rows[k + 1..]
  {
    var id := t.rows[k].id;
    forall i | 0 <= i < |t.rows| && i != k
      ensures t.rows[i].id != id
    {
      if i < k { assert IdBefore(t.rows[i], t.rows[k]); } else { assert IdBefore(t.rows[k], t.rows[i]); }
    }
    FilterDropsOne(t.rows, (u: User) => u.id != id, k);
  }
}

=== FILE: user_service.dfy ===
/** The user service (backend/src/user/user.service.ts): profile reads and
    edits, role changes and deletions guarded by the role policy. Each
    operation reads the rows it needs first and then checks its error cases
    in the order the service does. */
module UserService {
  import opened Wrappers
  import opened Seqs
  import opened Errors
  import opened UserEntity
  import DocumentEntity
  import opened Permissions
  import opened Database
  import opened Dto

  /** `updateRole`: the target must exist (checked first), then the requester
      is read and the role policy applied in the service's order. */
  function UpdateRole(users: UserTable, requesterId: nat, userId: nat, role: Role): (r: Result<(UserTable, User), HttpError>)
    ensures FindById(users, userId).None? ==> r == Failure(NotFound("User not found"))
    ensures r.Success? ==>
      && FindById(users, requesterId).Some? && FindById(users, userId).Some?
      && MayUpdateRole(FindById(users, requesterId).value.role, FindById(users, userId).value.role, role)
      && r.value.1 == FindById(users, userId).value.(role := role)
      && Save(users, r.value.1) == Success(r.value.0)
  {
    var requester := FindById(users, requesterId);
    match FindById(users, userId)
    case None => Failure(NotFound("User not found"))
    case Some(user) =>
      if requester.None? then Failure(NullRead("role"))
      else if requester.value.role != Owner && requester.value.role != Admin then
        Failure(Forbidden("You do not have permission to update roles"))
      else if requester.value.role == Admin && user.role == Owner then
        Failure(Forbidden("Admins cannot change the role of the owner"))
      else if requester.value.role == Admin && role == Owner then
        Failure(Forbidden("Admins cannot assign the owner role"))
      else
        var updated := user.(role := role);
        match Save(users, updated)
        case Failure(e) => Failure(e)
        case Success(t) => Success((t, updated))
  }

  /** With both users present, the update goes through exactly when the
      policy allows it, and every refusal is a Forbidden. */
  lemma UpdateRoleDecision(users: UserTable, requesterId: nat, userId: nat, role: Role)
    requires UserEntity.Valid(users)
    requires FindById(users, requesterId).Some? && FindById(users, userId).Some?
    ensures UpdateRole(users, requesterId, userId, role).Success?
        <==> MayUpdateRole(FindById(users, requesterId).value.role, FindById(users, userId).value.role, role)
    ensures UpdateRole(users, requesterId, userId, role).Failure? ==>
        UpdateRole(users, requesterId, userId, role).error.Forbidden?
  {
    var user := FindById(users, userId).value;
    assert Save(users, user.(role := role)).Success? by {
      var k :| 0 <= k < |users.rows| && users.rows[k] == user;
      SaveKeepingNamesSucceeds(users, k, user.(role := role));
    }
    UpdateRoleOnceSaved(users, requesterId, userId, role);
  }

  /** Once the save cannot fail, an update between two present users goes
      through exactly when the policy allows it, and is otherwise refused
      with a Forbidden. */
  lemma UpdateRoleOnceSaved(users: UserTable, requesterId: nat, userId: nat, role: Role)
    requires FindById(users, requesterId).Some? && FindById(users, userId).Some?
    requires Save(users, FindById(users, userId).value.(role := role)).Success?
    ensures UpdateRole(users, requesterId, userId, role).Success?
        <==> MayUpdateRole(FindById(users, requesterId).value.role, FindById(users, userId).value.role, role)
    ensures UpdateRole(users, requesterId, userId, role).Failure? ==>
        UpdateRole(users, requesterId, userId, role).error.Forbidden?
  {
    UpdateRoleRefusals(users, requesterId, userId, role);
    var requester := FindById(users, requesterId).value;
    var user := FindById(users, userId).value;
    var saved := Save(users, user.(role := role)).value;
    if MayUpdateRole(requester.role, user.role, role) {
      assert UpdateRole(users, requesterId, userId, role) == Success((saved, user.(role := role)));
    }
  }

  lemma UpdateRoleRefusals(users: UserTable, requesterId: nat, userId: nat, role: Role)
    requires FindById(users, requesterId).Some? && FindById(users, userId).Some?
    requires Save(users, FindById(users, userId).value.(role := role)).Success?
    ensures UpdateRole(users, requesterId, userId, role).Failure? ==>
        UpdateRole(users, requesterId, userId, role).error.Forbidden?
  {
  }

  /** An accepted role update rewrites the target's role and nothing else. */
  lemma UpdateRoleFrame(users: UserTable, requesterId: nat, userId: nat, role: Role)
    requires UserEntity.Valid(users) && UpdateRole(users, requesterId, userId, role).Success?
    ensures var t := UpdateRole(users, requesterId, userId, role).value.0;
      && t.nextId == users.nextId && |t.rows| == |users.rows|
      && (forall i :: 0 <= i < |users.rows| ==>
            t.rows[i] == (if users.rows[i].id == userId then users.rows[i].(role := role) else users.rows[i]))
      && UserEntity.Valid(t)
  {
    var user := FindById(users, userId).value;
    var updated := user.(role := role);
    var k :| 0 <= k < |users.rows| && users.rows[k] == user;
    forall i | 0 <= i < |users.rows| && users.rows[i].id == userId
      ensures users.rows[i] == user
    {
      IdsUnique(users, i, k);
    }
    SaveValid(users, updated);
  }

  /** `deleteUser`: target first, then the requester and the policy, then the
      delete itself, which the foreign key refuses while the target owns
      documents. */
  function DeleteUser(db: Db, requesterId: nat, userId: nat): (r: Result<Db, HttpError>)
    ensures FindById(db.users, userId).None? ==> r == Failure(NotFound("User not found"))
    ensures r.Success? <==>
      && FindById(db.users, userId).Some? && FindById(db.users, requesterId).Some?
      && MayDeleteUser(FindById(db.users, requesterId).value.role, FindById(db.users, userId).value.role)
      && !OwnsDocuments(db.documents, userId)
    ensures r.Success? ==> r.value == db.(users := Remove(db.users, userId))
  {
    var requester := FindById(db.users, requesterId);
    match FindById(db.users, userId)
    case None => Failure(NotFound("User not found"))
    case Some(user) =>
      if requester.None? then Failure(NullRead("role"))
      else if requester.value.role != Owner && requester.value.role != Admin then
        Failure(Forbidden("You do not have permission to delete users"))
      else if requester.value.role == Admin && user.role == Admin then
        Failure(Forbidden("Admins cannot delete other admins"))
      else if user.role == Owner then
        Failure(Forbidden("No one can delete the owner"))
      else
        DeleteUserRow(db, userId)
  }

  /** An owner is never deleted, whoever asks. */
  lemma OwnerNeverDeleted(db: Db, requesterId: nat, userId: nat)
    requires FindById(db.users, userId).Some? && FindById(db.users, userId).value.role == Owner
    ensures DeleteUser(db, requesterId, userId).Failure?
  {
  }

  /** An accepted delete takes out exactly the target's row, touches no
      document, and keeps every invariant. */
  lemma DeleteUserExactly(db: Db, requesterId: nat, userId: nat)
    requires Database.Valid(db) && DeleteUser(db, requesterId, userId).Success?
    ensures exists k :: (0 <= k < |db.users.rows| && db.users.rows[k].id == userId
      && DeleteUser(db, requesterId, userId).value.users.rows == db.users.rows[..k] + db.users.rows[k + 1..])
    ensures DeleteUser(db, requesterId, userId).value.documents == db.documents
    ensures Database.Valid(DeleteUser(db, requesterId, userId).value)
  {
    var after := DeleteUser(db, requesterId, userId).value;
    assert after == db.(users := Remove(db.users, userId));
    var k :| 0 <= k < |db.users.rows| && db.users.rows[k].id == userId;
    RemoveOne(db.users, k);
    DeleteUserRowValid(db, userId);
  }

  /** `deleteDocument`: a missing document is NotFound; the document's user
      is loaded through the relation; anyone but its user must be an owner. */
  function DeleteDocument(db: Db, requesterId: nat, documentId: nat): (r: Result<Db, HttpError>)
    ensures DocumentEntity.FindById(db.documents, documentId).None? ==> r == Failure(NotFound("Document not found"))
    ensures r.Success? <==>
      && DocumentEntity.FindById(db.documents, documentId).Some?
      && HasUser(db.users, DocumentEntity.FindById(db.documents, documentId).value.userId)
      && MayDeleteDocument(requesterId,
           FindById(db.users, requesterId).Some? && FindById(db.users, requesterId).value.role == Owner,
           DocumentEntity.FindById(db.documents, documentId).value.userId)
    ensures r.Success? ==> r.value == db.(documents := DocumentEntity.Remove(db.documents, documentId))
  {
    var requester := FindById(db.users, requesterId);
    match DocumentEntity.FindById(db.documents, documentId)
    case None => Failure(NotFound("Document not found"))
    case Some(document) =>
      match FindById(db.users, document.userId)
      case None => Failure(NullRead("id"))
      case Some(owner) =>
        if owner.id != requesterId && requester.None? then Failure(NullRead("role"))
        else if owner.id != requesterId && requester.value.role != Owner then
          Failure(Forbidden("You do not have permission to delete this document"))
        else Success(db.(documents := DocumentEntity.Remove(db.documents, documentId)))
  }

  /** In a consistent database a present document can always be deleted by
      its own user, and the result is consistent again. */
  lemma DeleteOwnDocument(db: Db, documentId: nat)
    requires Database.Valid(db) && DocumentEntity.FindById(db.documents, documentId).Some?
    ensures var userId := DocumentEntity.FindById(db.documents, documentId).value.userId;
      && DeleteDocument(db, userId, documentId).Success?
      && Database.Valid(DeleteDocument(db, userId, documentId).value)
  {
    var d := DocumentEntity.FindById(db.documents, documentId).value;
    var j :| 0 <= j < |db.documents.rows| && db.documents.rows[j] == d;
    assert HasUser(db.users, db.documents.rows[j].userId);
    DeleteDocumentRowValid(db, documentId);
  }

  /** The profile: the user's public fields and their documents. */
  datatype Profile = Profile(
    id: nat, username: string, email: string, firstName: string, lastName: string,
    role: Role, documents: seq<DocumentEntity.Document>)

  function OwnedBy(userId: nat): DocumentEntity.Document -> bool {
    (d: DocumentEntity.Document) => d.userId == userId
  }

  /** `getProfile`: null for an unknown id, otherwise the user's fields and
      the documents whose `userId` is theirs, in table order. */
  function GetProfile(db: Db, userId: nat): (r: Option<Profile>)
    ensures r.None? <==> FindById(db.users, userId).None?
    ensures r.Some? ==>
      var u := FindById(db.users, userId).value;
      && r.value.id == userId && r.value.username == u.username && r.value.email == u.email
      && r.value.firstName == u.firstName && r.value.lastName == u.lastName && r.value.role == u.role
  {
    match FindById(db.users, userId)
    case None => None
    case Some(u) =>
      Some(Profile(u.id, u.username, u.email, u.firstName, u.lastName, u.role,
                   Filter(db.documents.rows, OwnedBy(userId))))
  }

  /** A profile lists exactly the user's documents, in their table order. */
  lemma GetProfileDocuments(db: Db, userId: nat, d: DocumentEntity.Document)
    requires GetProfile(db, userId).Some?
    ensures d in GetProfile(db, userId).value.documents <==> d in db.documents.rows && d.userId == userId
    ensures IsSubsequence(GetProfile(db, userId).value.documents, db.documents.rows)
  {
    FilterMembers(db.documents.rows, OwnedBy(userId), d);
    FilterIsSubsequence(db.documents.rows, OwnedBy(userId));
  }

  /** `Object.assign(user, dto)` for the three fields the validation pipe lets through. */
  function ApplyProfile(u: User, dto: UpdateProfileDto): (r: User)
    ensures r.firstName == dto.firstName.GetOr(u.firstName)
    ensures r.lastName == dto.lastName.GetOr(u.lastName)
    ensures r.username == dto.username.GetOr(u.username)
    ensures r.id == u.id && r.email == u.email && r.password == u.password
    ensures r.role == u.role && r.createdAt == u.createdAt
  {
    u.(firstName := dto.firstName.GetOr(u.firstName),
       lastName := dto.lastName.GetOr(u.lastName),
       username := dto.username.GetOr(u.username))
  }

  /** `Object.assign({}, first, second)`: each field of the second edit that
      is present, otherwise the first edit's. */
  function MergeEdits(first: UpdateProfileDto, second: UpdateProfileDto): UpdateProfileDto {
    UpdateProfileDto(
      if second.firstName.Some? then second.firstName else first.firstName,
      if second.lastName.Some? then second.lastName else first.lastName,
      if second.username.Some? then second.username else first.username)
  }

  /** Assigning edits behaves as `Object.assign` does: two edits in a row are
      the merged edit, repeating an edit changes nothing more, an empty edit
      changes nothing, and no field outside the three is ever touched. */
  lemma ApplyProfileComposes(u: User, first: UpdateProfileDto, second: UpdateProfileDto)
    ensures ApplyProfile(ApplyProfile(u, first), second) == ApplyProfile(u, MergeEdits(first, second))
    ensures ApplyProfile(ApplyProfile(u, first), first) == ApplyProfile(u, first)
    ensures ApplyProfile(u, UpdateProfileDto(None, None, None)) == u
    ensures ApplyProfile(u, first).(firstName := u.firstName, lastName := u.lastName, username := u.username) == u
  {
  }

  /** `updateProfile`: NotFound for an unknown id, else the assigned row is saved. */
  function UpdateProfile(users: UserTable, userId: nat, dto: UpdateProfileDto): (r: Result<(UserTable, User), HttpError>)
    ensures FindById(users, userId).None? ==> r == Failure(NotFound("User not found"))
    ensures r.Success? ==> r.value.1 == ApplyProfile(FindById(users, userId).value, dto)
  {
    match FindById(users, userId)
    case None => Failure(NotFound("User not found"))
    case Some(user) =>
      var updated := ApplyProfile(user, dto);
      match Save(users, updated)
      case Failure(e) => Failure(e)
      case Success(t) => Success((t, updated))
  }

  /** For a present user the edit is refused exactly when the new username
      belongs to someone else; an accepted edit keeps the table valid. */
  lemma UpdateProfileOutcome(users: UserTable, userId: nat, dto: UpdateProfileDto)
    requires UserEntity.Valid(users) && FindById(users, userId).Some?
    ensures UpdateProfile(users, userId, dto).Failure? <==>
      exists i :: 0 <= i < |users.rows| && users.rows[i].id != userId && dto.username == Some(users.rows[i].username)
    ensures UpdateProfile(users, userId, dto).Success? ==> UserEntity.Valid(UpdateProfile(users, userId, dto).value.0)
  {
    var user := FindById(users, userId).value;
    var k :| 0 <= k < |users.rows| && users.rows[k] == user;
    var updated := ApplyProfile(user, dto);
    forall i | 0 <= i < |users.rows| && users.rows[i].id != userId
      ensures users.rows[i].email != updated.email
    {
      if i < k { assert DistinctNames(users.rows[i], users.rows[k]); }
      else { assert DistinctNames(users.rows[k], users.rows[i]); }
    }
    if dto.username.None? {
      SaveKeepingNamesSucceeds(users, k, updated);
    }
    if UpdateProfile(users, userId, dto).Success? {
      SaveValid(users, updated);
    }
  }

  /** An edit that carries no field leaves the table as it was. */
  lemma EmptyProfileEditChangesNothing(users: UserTable, userId: nat)
    requires UserEntity.Valid(users) && FindById(users, userId).Some?
    ensures UpdateProfile(users, userId, UpdateProfileDto(None, None, None)) == Success((users, FindById(users, userId).value))
  {
    var user := FindById(users, userId).value;
    var k :| 0 <= k < |users.rows| && users.rows[k] == user;
    SaveKeepingNamesSucceeds(users, k, user);
    var t := Save(users, user).value;
    forall i | 0 <= i < |users.rows| && users.rows[i].id == userId
      ensures users.rows[i] == user
    {
      IdsUnique(users, i, k);
    }
    assert t.rows == users.rows;
  }
}

=== FILE: wrappers.dfy ===
/** Failure-compatible wrappers used throughout the model: `Option` for values
    the source may leave `null`/`undefined`, `Result` for calls that may throw. */
module Wrappers {

  datatype Option<+T> = None | Some(value: T) {

    predicate IsFailure() {
      None?
    }

    function PropagateFailure<U>(): Option<U>
      requires None?
    {
      None
    }

    function Extract(): T
      requires Some?
    {
      value
    }

    /** The value, or `default` when there is none (JavaScript's `??` / `||` fallback). */
    function GetOr(default: T): T {
      match this
      case Some(v) => v
      case None => default
    }
  }

  datatype Result<+R, +E> = Success(value: R) | Failure(error: E) {

    predicate IsFailure() {
      Failure?
    }

    function PropagateFailure<U>(): Result<U, E>
      requires Failure?
    {
      Failure(error)
    }

    function Extract(): R
      requires Success?
    {
      value
    }
  }
}
